=== FILE: README.md ===
# Smart To-do List: a Dafny model of the AI pipeline and the task store

This project models the deterministic part of the Smart To-do List backend. That part has two halves.

The first is the AI service. A Gemini client extracts a JSON object from the model's free-text answer. A consolidated service makes one call per task and falls back to fixed records on error. The pipeline controller merges the analyses into recommendations, with an overall confidence and a suggested deadline, and processes task batches. Four analysis modules (priority scorer, deadline suggester, category suggester, task enhancer) and the context analyzer hold the scoring rules, keyword heuristics and confidence formulas.

The second is the task store. It covers the `clean` rules and usage bookkeeping of the `Category`, `Task` and `ContextEntry` models, the serializers' field validators, the typed settings readers, and the enumeration tables of the constants module.

How the model stands in for what it cannot see:

- **Gemini model.** The engine is a function parameter from prompt to reply: an answer text or a failure message. `json.loads` is a parser parameter that returns a dict or nothing. Prompt wording is carried as opaque text.
- **Python values.** Everything the engine returns is a generic JSON value. The `AttributeError` and `TypeError` paths that Python would take on a non-dict or non-number are modelled as error results.
- **Numbers.** Floats are exact `real`s. `round` is round-half-even on the exact value.
- **Time.** `datetime.now()` and `timezone.now()` are parameters. Calendar dates are proleptic Gregorian day numbers (`date.toordinal()`), and `strftime('%Y-%m-%d')` is computed from them. Timestamps in the models are integer seconds.
- **Environment and database.** The process environment is a map from names to strings. The database is a pair of maps: the usage count of each category and the category of each task.

Modules follow the source files: `GeminiClient`, `ConsolidatedAIService`, `PipelineController`, `PriorityScorer`, `DeadlineSuggester`, `CategorySuggester`, `TaskEnhancer`, `ContextAnalyzer`, `Models`, `Serializers`, `Settings` and `Constants`. They rest on small shared modules: `Base`, `Text`, `Numbers`, `Json`, `Dates`, `StableSort` and `ContextData`.

## Model

| member | source | states |
|---|---|---|
| Json.Get | backend/ai_service/pipeline_controller.py:105 | `x.get(k, default)` succeeds exactly on a dict, giving the stored entry or the default; on any other value it is the `AttributeError` the caller's handler catches |
| Json.NumOf | backend/ai_service/pipeline_controller.py:103-110 | a value takes part in arithmetic exactly when it is a number or a bool, and a number stands for itself |
| Json.DictItems | backend/ai_service/deadline_suggester.py:228-235 | a loop over `context.get('extracted_tasks', [])` that calls `.get` on each element visits a list's items, nothing for an empty dict or string, and raises for a non-empty dict or string (elements without `get`) and for values that are not iterable |
| Text.Strip | backend/ai_service/consolidated_ai_service.py:146 | `strip()` is empty exactly for an all-white-space text; otherwise it is the infix of the input that starts and ends with a non-space character, with only white space cut at either end |
| Text.Find | backend/ai_service/gemini_client.py:103 | `find('{')` is -1 exactly when the character is absent, and otherwise the index of its first occurrence |
| Text.RFind | backend/ai_service/gemini_client.py:104 | `rfind('}')` is -1 exactly when the character is absent, and otherwise the index of its last occurrence |
| Text.SplitJoin | backend/config/settings.py:51 | `value.split(sep)` loses nothing: joining its pieces with the separator gives the value back |
| Text.WordsKeepEveryOtherChar | backend/ai_service/deadline_suggester.py:261-262 | `split()` drops exactly the white space: its words are non-empty, space-free, and together spell the input's non-space characters in order |
| Numbers.ParseIntRoundTrip | backend/config/settings.py:27-32 | `int(str(n)) == n` for every integer, so a default passed through `str()` reads back as itself |
| Numbers.RoundHalfEven | backend/ai_service/deadline_suggester.py:279 | `round(x)` is an integer within one half of `x`, and an exact tie goes to the even neighbour |
| Dates.CivilRoundTrip | backend/ai_service/consolidated_ai_service.py:253 | the calendar date computed for a day number converts back to the same day number, so `today + timedelta(days=7)` is formatted from the right date |
| Dates.IsoDateShape | backend/ai_service/consolidated_ai_service.py:253 | `strftime('%Y-%m-%d')` of a date in years 1-9999 is ten characters with dashes at positions 4 and 7 |
| GeminiClient.FormatPrompt | backend/ai_service/gemini_client.py:96 | the prompt sent to the engine is the caller's prompt followed by exactly "\n\nPlease respond in valid <format> format." |
| GeminiClient.JsonSpan | backend/ai_service/gemini_client.py:103-107 | there is no span exactly when the response lacks a `{` or lacks a `}` |
| GeminiClient.StructuredResponse | backend/ai_service/gemini_client.py:83-119 | never raises: an engine exception becomes `{"error": message}`, a response without braces becomes "No structured data found" and an unparsable span becomes "Invalid JSON response", both carrying the raw response |
| GeminiClient.SpanIsFirstOpenToLastClose | backend/ai_service/gemini_client.py:103-107 | the span runs from the first `{` through the last `}` inclusive, with no `{` before it and no `}` after it; it is empty when the last `}` precedes the first `{` |
| GeminiClient.ReversedBracesAreInvalidJson | backend/ai_service/gemini_client.py:103-115 | a response whose last `}` precedes its first `{` yields the "Invalid JSON response" dict with the full response attached |
| GeminiClient.ParsedSpanIsReturned | backend/ai_service/gemini_client.py:106-108 | a span that parses is returned as parsed, whatever surrounds it |
| GeminiClient.NoErrorKeyMeansParsed | backend/ai_service/gemini_client.py:94-119 | a result without an `"error"` key can only come from an answered call whose non-empty span parsed |
| GeminiClient.ParseIntent | backend/ai_service/gemini_client.py:414-417 | an unknown analysis type fails with "Unknown analysis type: " and the name |
| GeminiClient.KeyParsesToIntent | backend/ai_service/gemini_client.py:132-417 | each of the eight prompt names (extract_tasks … category_suggestions) is accepted and selects its own analysis |
| GeminiClient.ParsedNameIsKey | backend/ai_service/gemini_client.py:132-417 | no other name is accepted: an accepted name is exactly its analysis's key |
| GeminiClient.AnalyzeText | backend/ai_service/gemini_client.py:414-418 | fails exactly for unknown analysis types, otherwise returns the structured response to that analysis's prompt |
| GeminiClient.HealthCheckWith | backend/ai_service/gemini_client.py:447-452 | healthy exactly when the engine answers with text that is not all white space; a raised exception reports unhealthy |
| GeminiClient.HealthCheck | backend/ai_service/gemini_client.py:440-452 | the same verdict for the fixed probe "Hello, this is a health check." |
| StableSort.SortDesc | backend/ai_service/pipeline_controller.py:116 | `sorted(xs, key=k, reverse=True)`: the result is a permutation of the input ordered by non-increasing key |
| StableSort.SortIsStable | backend/ai_service/pipeline_controller.py:116 | the sort is stable: for every key value, the elements with that key keep their input order |
| StableSort.HeadIsFirstMax | backend/ai_service/pipeline_controller.py:116-117 | the head of the sorted list is the first input element of greatest key |
| ContextData.RawContent | backend/ai_service/consolidated_ai_service.py:140-144 | a dict context gives its `content` value, whatever its JSON type, and `""` when the key is missing; a bare string gives itself; no context gives `str(None)`, "None" |
| ContextData.PromptText | backend/ai_service/consolidated_ai_service.py:28-33 | a falsy context contributes no text; any other context contributes its content as the f-string renders it: a string as itself, anything else by `str()` |
| ConsolidatedAIService.FallbackEnhancement | backend/ai_service/consolidated_ai_service.py:231-239 | the fallback enhancement reports confidence 0 |
| ConsolidatedAIService.FallbackEnhancementKeepsTask | backend/ai_service/consolidated_ai_service.py:231-234 | the fallback enhancement keeps the task's own title and description (`""` when absent) and proposes no steps |
| ConsolidatedAIService.FallbackPrimary | backend/ai_service/consolidated_ai_service.py:241 | the fallback's primary category has confidence 0 |
| ConsolidatedAIService.FallbackCategory | backend/ai_service/consolidated_ai_service.py:240-243 | the fallback category part's primary suggestion is the "General" fallback |
| ConsolidatedAIService.FallbackPriority | backend/ai_service/consolidated_ai_service.py:244-250 | the fallback priority score is 50 |
| ConsolidatedAIService.FallbackDeadline | backend/ai_service/consolidated_ai_service.py:252-257 | the fallback deadline is dated seven days after today, in `%Y-%m-%d` form, at confidence 0 |
| ConsolidatedAIService.FallbackOverall | backend/ai_service/consolidated_ai_service.py:259-263 | the fallback summary says the analysis failed and fallback values are used |
| ConsolidatedAIService.FallbackAnalysis | backend/ai_service/consolidated_ai_service.py:228-264 | the fallback record never carries an `"error"` key |
| ConsolidatedAIService.FallbackHasEnhancement | backend/ai_service/consolidated_ai_service.py:231-239 | the fallback record's `task_enhancement` is the fallback enhancement of the task |
| ConsolidatedAIService.FallbackHasCategory | backend/ai_service/consolidated_ai_service.py:240-243 | its `category_suggestion` is the "General" fallback |
| ConsolidatedAIService.FallbackHasPriority | backend/ai_service/consolidated_ai_service.py:244-250 | its `priority_analysis` is the score-50 fallback |
| ConsolidatedAIService.FallbackHasDeadline | backend/ai_service/consolidated_ai_service.py:251-258 | its `deadline_suggestions` is the one-element list holding the week-ahead fallback deadline |
| ConsolidatedAIService.FallbackHasOverall | backend/ai_service/consolidated_ai_service.py:259-263 | its `overall_analysis` is the fallback summary |
| ConsolidatedAIService.ComprehensiveTaskAnalysis | backend/ai_service/consolidated_ai_service.py:17-132 | the engine's structured answer when it has no `"error"` key, otherwise the fallback record; so the result never has an `"error"` key |
| ConsolidatedAIService.FailedEngineGivesFallback | backend/ai_service/consolidated_ai_service.py:122-126 | an engine that raises, or answers without a JSON span, yields exactly the fallback record |
| ConsolidatedAIService.EmptyWorkloadPart | backend/ai_service/consolidated_ai_service.py:276-281 | the empty workload part reports level "normal" and no action items |
| ConsolidatedAIService.ContextRecord | backend/ai_service/consolidated_ai_service.py:266-306 | the shared shape of the empty and fallback context records: no extracted tasks, no category or deadline suggestions, normal workload, the given summary, no `"error"` key |
| ConsolidatedAIService.FirstItems | backend/ai_service/consolidated_ai_service.py:305 | `xs[:100]` is a prefix of at most 100 items, and the whole list when it is no longer |
| ConsolidatedAIService.Preview | backend/ai_service/consolidated_ai_service.py:305 | `context_text[:100]` succeeds exactly for a string or a list: the first 100 characters, or `str()` of the first 100 items; a dict or a scalar raises |
| ConsolidatedAIService.FallbackContextAnalysis | backend/ai_service/consolidated_ai_service.py:287-306 | built exactly when the content can be sliced; for a string the summary quotes its first 100 characters followed by "..."; no tasks and no `"error"` key |
| ConsolidatedAIService.ContextAnalysis | backend/ai_service/consolidated_ai_service.py:134-217 | non-string content goes to the fallback (its `strip()` raises); blank text gives the empty analysis without the engine; other text gives the engine's answer when it has no `"error"` key and the fallback otherwise; the call raises exactly when the content is neither a string nor a list; a result never has an `"error"` key |
| ConsolidatedAIService.BlankContextSkipsEngine | backend/ai_service/consolidated_ai_service.py:146-147 | for blank context text the result does not depend on the engine or the parser |
| ConsolidatedAIService.FailedContextGivesFallback | backend/ai_service/consolidated_ai_service.py:207-211 | non-blank context answered by a raising engine gives the fallback record quoting that context |
| ConsolidatedAIService.HealthCheck | backend/ai_service/consolidated_ai_service.py:219-226 | healthy exactly when the engine answers the probe "Health check" with text that is not all white space |
| PipelineController.RenameContextKeys | backend/ai_service/pipeline_controller.py:70-77 | each of the six keys of the pipeline's context record holds the consolidated analysis's corresponding entry, or its default |
| PipelineController.NoContextResult | backend/ai_service/pipeline_controller.py:58-64 | the record for a missing context has no `"error"` key |
| PipelineController.ContextFailure | backend/ai_service/pipeline_controller.py:79-87 | the failure record carries the exception text under `"error"`, the summary "Context analysis failed" and no tasks |
| PipelineController.AnalyzeContext | backend/ai_service/pipeline_controller.py:53-87 | a falsy context gives the fixed "No context data provided" record; a consolidated analysis that returns is renamed; one that raises gives the failure record; the result has an `"error"` key exactly in that last case |
| PipelineController.NoContextSkipsEngine | backend/ai_service/pipeline_controller.py:58-64 | for a falsy context the result does not depend on the engine or the parser |
| PipelineController.Percent | backend/ai_service/pipeline_controller.py:106 | `priority_score / 100` succeeds exactly for numbers (and booleans), and the result times 100 is the score |
| PipelineController.FirstItem | backend/ai_service/pipeline_controller.py:107 | `suggestions[0]` of a truthy value succeeds exactly for lists and strings, and for a list is its first element |
| PipelineController.FirstNonObject | backend/ai_service/pipeline_controller.py:116 | the position of the first suggestion that is not a dict, every earlier one being a dict |
| PipelineController.PrimaryDeadline | backend/ai_service/pipeline_controller.py:114-117 | succeeds exactly when the suggestions can be sorted by confidence, and then gives the `date` of the first suggestion of highest confidence; when some suggestion is not a dict, fails with "'<type>' object has no attribute 'get'" naming the first such suggestion |
| PipelineController.ConfidenceScores | backend/ai_service/pipeline_controller.py:103-108 | the four scores can be read exactly when the parts allow it; they are then the enhancement's `confidence_score` (default 0), the primary suggestion's `confidence` (default 0), `priority_score` (default 50) divided by 100, and the first deadline's `confidence` (0 when there is none) |
| PipelineController.TotalOfSnoc | backend/ai_service/pipeline_controller.py:110 | the front-to-back total of a list of numbers is that of all but its last element plus the last |
| PipelineController.Sum | backend/ai_service/pipeline_controller.py:110 | `sum()` succeeds exactly when every element is a number, and then gives their total; otherwise the first element that is not a number raises the `TypeError` naming it and the type of the running total, `int` while only bools precede it and `float` after a number |
| PipelineController.Sum4 | backend/ai_service/pipeline_controller.py:110 | the sum of four numbers is their arithmetic sum |
| PipelineController.CompileParts | backend/ai_service/pipeline_controller.py:96-153 | for the five parts read from the analysis: completed exactly when the four scores can be read and summed, a non-empty deadline list can be sorted, and the overall part is a dict; then the confidence is the sum over 4, the title, summary (default "AI analysis completed"), all five copied recommendation fields and the details are the parts as received; otherwise an error result with a non-empty message |
| PipelineController.CompileResults | backend/ai_service/pipeline_controller.py:89-153 | the same facts stated on the analysis record itself: completed or completed-with-errors, the task's id and the timestamp, the completion condition, the mean confidence, the copied title, summary, recommendations and details |
| PipelineController.OverallConfidenceIsMean | backend/ai_service/pipeline_controller.py:103-110 | a completed result's confidence is (`confidence_score` + primary `confidence` + `priority_score`/100 + first deadline `confidence`) / 4, with every term a number |
| PipelineController.Errored | backend/ai_service/pipeline_controller.py:144-153 | the completed-with-errors record keeps the task id and the exception text as given, and its summary is "Pipeline completed with errors: " followed by that text |
| PipelineController.SuggestedDeadlineIsFirstBest | backend/ai_service/pipeline_controller.py:112-117 | the suggested deadline is `None` without suggestions, else the date of the first suggestion of highest confidence |
| PipelineController.OverallConfidenceInUnitRange | backend/ai_service/pipeline_controller.py:103-110 | when the four confidences lie in [0, 1] so does the overall confidence |
| PipelineController.FallbackCompilesToOneEighth | backend/ai_service/pipeline_controller.py:96-117 | compiling the consolidated fallback record completes with confidence exactly (0 + 0 + 50/100 + 0)/4 = 0.125 and suggests the fallback's week-ahead date |
| PipelineController.FallbackScores | backend/ai_service/pipeline_controller.py:103-108 | the four confidences read from the fallback's parts are 0, 0, 0.5 and 0 |
| PipelineController.SingleDeadline | backend/ai_service/pipeline_controller.py:114-117 | a single suggestion is always the primary one |
| PipelineController.CompileOfParts | backend/ai_service/pipeline_controller.py:94-142 | when the confidences, their sum and the primary deadline all succeed and the overall part is a dict, the result is completed with the mean confidence and that deadline |
| PipelineController.ProcessNewTask | backend/ai_service/pipeline_controller.py:18-51 | the context analysis, comprehensive analysis and compile steps never raise here, so every result is completed or completed-with-errors and carries the task's id |
| PipelineController.BatchEntry | backend/ai_service/pipeline_controller.py:167-178 | a step that succeeds contributes its outcome; one that raises contributes a failed entry with the task's id and the exception text |
| PipelineController.BatchLoop | backend/ai_service/pipeline_controller.py:165-181 | one entry per task, in order, each determined by its own task alone |
| PipelineController.BatchProcess | backend/ai_service/pipeline_controller.py:155-185 | every batch entry equals what `process_new_task` gives for that task with the same context |
| PipelineController.HealthCheck | backend/ai_service/pipeline_controller.py:187-201 | the API flag is the consolidated service's probe, and with a non-empty timestamp the overall health equals that flag |
| ContextAnalyzer.Count | backend/ai_service/context_analyzer.py:225 | a count is at most the length and positive exactly for elements that occur |
| ContextAnalyzer.Dedup | backend/ai_service/context_analyzer.py:238 | the distinct elements: the same elements as the input, none repeated |
| ContextAnalyzer.DistinctCardinality | backend/ai_service/context_analyzer.py:238 | a list without repeats is as long as its set |
| ContextAnalyzer.DedupCountsTheSet | backend/ai_service/context_analyzer.py:238 | the deduplicated list is as long as `set(xs)` |
| ContextAnalyzer.BumpLookup | backend/ai_service/context_analyzer.py:225 | one counting step adds one to its own key and leaves every other count alone |
| ContextAnalyzer.BumpTotal | backend/ai_service/context_analyzer.py:225 | one counting step adds one to the total |
| ContextAnalyzer.BumpKeys | backend/ai_service/context_analyzer.py:225 | one counting step adds its key to the keys |
| ContextAnalyzer.BumpKeepsKeysDistinct | backend/ai_service/context_analyzer.py:225 | a counting step never lists a key twice |
| ContextAnalyzer.TallyCounts | backend/ai_service/context_analyzer.py:222-225 | the counting dict holds each key's number of occurrences, its counts add up to the length, and no key is listed twice |
| ContextAnalyzer.TallyLookup | backend/ai_service/context_analyzer.py:222-225 | one key's count is its number of occurrences |
| Json.Render | backend/ai_service/context_analyzer.py:88 | an f-string renders a string as itself and any other value by `str()` |
| ContextAnalyzer.ToItem | backend/ai_service/context_analyzer.py:76-100 | an entry keeps its group's source name and its timestamp; a message or note is usable exactly when its content is a string, and keeps that content; an email always gives "Subject: …" text |
| ContextAnalyzer.ToItems | backend/ai_service/context_analyzer.py:75-101 | every entry of a group is usable exactly when each is a dict with usable content, and then the items are those entries one for one, in order |
| ContextAnalyzer.GroupItems | backend/ai_service/context_analyzer.py:74-101 | a missing group gives no items; every item of a group carries that group's source |
| ContextAnalyzer.Preprocess | backend/ai_service/context_analyzer.py:62-109 | defined exactly when each group can be read; the text is the messages, then the emails, then the notes, and the temporal data and indicators are extracted from it |
| ContextAnalyzer.SourcesFollowGroupOrder | backend/ai_service/context_analyzer.py:73-101 | WhatsApp items precede emails, which precede notes |
| ContextAnalyzer.LayoutIsOrdered | backend/ai_service/context_analyzer.py:73-101 | three consecutive blocks of sources are ordered by source rank |
| ContextAnalyzer.TemporalReference | backend/ai_service/context_analyzer.py:130-143 | the first of today, tomorrow, next week and this week that occurs decides the reference, and "unknown" exactly when none occurs |
| ContextAnalyzer.ExtractTemporalData | backend/ai_service/context_analyzer.py:111-128 | the entries are, in order, the temporal records of exactly the items that mention a time phrase, so "unknown" never appears |
| ContextAnalyzer.TemporalDataCount | backend/ai_service/context_analyzer.py:111-128 | there are as many temporal entries as items that mention a time phrase |
| ContextAnalyzer.ItemIndicators | backend/ai_service/context_analyzer.py:161-168 | at most four indicators per item, each with confidence 0.8 and the item's source and content |
| ContextAnalyzer.ItemIndicatorsAreSignals | backend/ai_service/context_analyzer.py:161-168 | an item yields an indicator of a type exactly when a keyword of that type occurs in its lowered content |
| ContextAnalyzer.ExtractPriorityIndicators | backend/ai_service/context_analyzer.py:145-170 | every indicator has confidence 0.8, at most four per item |
| ContextAnalyzer.IndicatorsAreSignals | backend/ai_service/context_analyzer.py:151-168 | there is an indicator for exactly the (item, type) pairs where a keyword of the type occurs |
| ContextAnalyzer.IndicatorsOfConcat | backend/ai_service/context_analyzer.py:158-168 | the indicators are ordered by item: those of a concatenation are those of each part, in order |
| ContextAnalyzer.Kinds | backend/ai_service/context_analyzer.py:224 | one priority type name per indicator, in order |
| ContextAnalyzer.UrgencyLevel | backend/ai_service/context_analyzer.py:228-232 | the urgency level is high, medium or normal |
| ContextAnalyzer.AnalyzePriorityPatterns | backend/ai_service/context_analyzer.py:207-239 | the no-indicator record exactly when there are none; otherwise the total is the number of indicators and the urgency that of the distribution |
| ContextAnalyzer.PriorityDistribution | backend/ai_service/context_analyzer.py:221-225 | the distribution counts each type's indicators, its counts add up to the total, and no type is listed twice |
| ContextAnalyzer.PrioritySourceCount | backend/ai_service/context_analyzer.py:238 | the reported source count is the number of distinct sources among the indicators |
| ContextAnalyzer.UrgencyFromIndicators | backend/ai_service/context_analyzer.py:214-232 | urgency is high exactly when some indicator is urgent, medium exactly when none is and more than two are important, normal otherwise |
| ContextAnalyzer.UrgentIffListed | backend/ai_service/context_analyzer.py:229 | some indicator is urgent exactly when "urgent" is among the type names |
| ContextAnalyzer.ActionItems | backend/ai_service/context_analyzer.py:254 | exactly the items whose content mentions an action keyword, and as many as there are such positions in the input |
| ContextAnalyzer.WorkloadLevel | backend/ai_service/context_analyzer.py:263-267 | high above ten action items, medium above five, normal otherwise |
| ContextAnalyzer.WorkloadLevelIsMonotone | backend/ai_service/context_analyzer.py:263-267 | more action items never lower the workload level |
| ContextAnalyzer.AnalyzeWorkload | backend/ai_service/context_analyzer.py:245-274 | the action-item count is the number of action items, at most the number of items; the level is that count's; the temporal distribution counts each reference and adds up to the number of temporal entries |
| ContextAnalyzer.NoUnknownReferences | backend/ai_service/context_analyzer.py:256-260 | on preprocessed content the temporal distribution never counts "unknown" |
| ContextAnalyzer.SummaryParts | backend/ai_service/context_analyzer.py:302-318 | the first part names the number of distinct sources and lists them joined by ", "; the indicator and temporal parts appear only when there are any; the action-item count comes last |
| ContextAnalyzer.SummaryCountParts | backend/ai_service/context_analyzer.py:308-315 | the indicator part, when present, gives the number of indicators, and the temporal part, when present, the number of time-sensitive items |
| ContextAnalyzer.SourcesOf | backend/ai_service/context_analyzer.py:305 | the distinct sources of the items, each listed once, and exactly those |
| ContextAnalyzer.ContextSummary | backend/ai_service/context_analyzer.py:293-320 | a non-empty sentence ending with a period |
| ContextAnalyzer.CombinedText | backend/ai_service/context_analyzer.py:178-181 | empty without items; otherwise it starts with a source tag |
| ContextAnalyzer.BlankTextMeansNoItems | backend/ai_service/context_analyzer.py:178-184 | the combined text is blank exactly when there are no items, so the engine is skipped only for empty content |
| ContextAnalyzer.TaskFromContext | backend/ai_service/context_analyzer.py:196-199 | an extracted task gains the source tag and the extraction time, keeps its own confidence or gets 0.7, and keeps every other key |
| ContextAnalyzer.ExtractTasks | backend/ai_service/context_analyzer.py:172-205 | no items give `[]` with no engine call; an error answer gives `[]`; a list of dict tasks comes back one for one with metadata; every returned task is tagged with its source |
| ContextAnalyzer.AnalyzeContext | backend/ai_service/context_analyzer.py:18-60 | the failure record (no tasks, "Analysis failed") exactly when preprocessing raises; otherwise an analysis stamped with the given time |
| ContextAnalyzer.AnalysisReflectsContent | backend/ai_service/context_analyzer.py:28-50 | a completed analysis has no tasks without content, no more action items than items, insights exactly when there are indicators, and a summary sentence |
| CategorySuggester.ContentAnalysis | backend/ai_service/category_suggester.py:60-95 | the content analysis never carries an `"error"` key: an erroneous answer becomes `{}` |
| CategorySuggester.ExistingEntry | backend/ai_service/category_suggester.py:156-162 | a matched existing category is entered by name with type "existing" and confidence 0.9 |
| CategorySuggester.NewEntry | backend/ai_service/category_suggester.py:166-172 | a proposal is entered with its own name (default `""`), type "new" and its own confidence (default 0.7) |
| CategorySuggester.NewEntries | backend/ai_service/category_suggester.py:165-172 | the proposals are entered one for one, in order, exactly when every proposal is a dict |
| CategorySuggester.ShapeSuggestions | backend/ai_service/category_suggester.py:150-178 | an erroneous answer or unreadable proposals give no suggestions; otherwise the count is the proposals plus one for a truthy existing match, which comes first, and entry k+i is built from proposal i |
| CategorySuggester.ExistingMatchComesFirst | backend/ai_service/category_suggester.py:155-174 | with a truthy existing match, the list has one more entry than there are proposals, the match at its head and each proposal shifted by one |
| CategorySuggester.GenerateSuggestions | backend/ai_service/category_suggester.py:97-178 | for the engine's structured answer: no suggestions when it has an `"error"` key or its proposals are not a list of dicts; otherwise a truthy existing match first, then one new-category entry per proposal, in order |
| CategorySuggester.FailedEngineGivesNoSuggestions | backend/ai_service/category_suggester.py:148-151 | an engine that raises yields no suggestions |
| CategorySuggester.WithRank | backend/ai_service/category_suggester.py:192-194 | a ranked suggestion keeps its confidence and gains `rank` i + 1 and `score` equal to its confidence |
| CategorySuggester.WithRanks | backend/ai_service/category_suggester.py:192-194 | the i-th sorted suggestion receives rank i + 1 |
| CategorySuggester.RankSuggestions | backend/ai_service/category_suggester.py:180-200 | same length as the input; an unsortable list comes back unchanged; a sortable one comes back in non-increasing confidence order with ranks 1, 2, … |
| CategorySuggester.SortedKeepsObjects | backend/ai_service/category_suggester.py:189 | a permutation of dicts holds only dicts |
| CategorySuggester.RankingReorders | backend/ai_service/category_suggester.py:188-196 | ranking only reorders: the ranked list is a permutation of the input with ranks added, and suggestions of equal confidence keep their order |
| CategorySuggester.Primary | backend/ai_service/category_suggester.py:43 | there is a primary suggestion exactly when the list is non-empty, and it is the head |
| CategorySuggester.PrimaryIsMostConfident | backend/ai_service/category_suggester.py:36-43 | on a sortable list the primary suggestion has rank 1 and a confidence no lower than any suggestion's |
| CategorySuggester.Confidences | backend/ai_service/category_suggester.py:240 | the confidences can be read exactly when every suggestion is a dict whose confidence is a number, and then they are each suggestion's sort key |
| CategorySuggester.MaxOf | backend/ai_service/category_suggester.py:240 | `max()` is an element no smaller than any element |
| CategorySuggester.CategoryConfidence | backend/ai_service/category_suggester.py:231-255 | 0 for no suggestions, 0.5 when Python raises, otherwise at most 1 and at most the top confidence plus 0.2 |
| CategorySuggester.Bonus | backend/ai_service/category_suggester.py:242-249 | the additions to the top confidence lie between 0 and 0.2 |
| CategorySuggester.CategoryConfidenceCoversEach | backend/ai_service/category_suggester.py:239-251 | the list's confidence is at least every suggestion's own confidence, capped at 1 |
| CategorySuggester.NoBonusForFewNewSuggestions | backend/ai_service/category_suggester.py:239-251 | fewer than three suggestions, none existing: the confidence is the top confidence capped at 1 |
| CategorySuggester.FullBonus | backend/ai_service/category_suggester.py:239-251 | three or more suggestions including an existing one: the confidence is the top confidence plus 0.2, capped at 1 |
| CategorySuggester.BonusOfCounts | backend/ai_service/category_suggester.py:242-251 | the two extreme cases of the bonus: both tenths or neither |
| CategorySuggester.ConfidenceWithBonus | backend/ai_service/category_suggester.py:239-251 | the list's confidence is the capped sum of the top confidence and the bonus |
| CategorySuggester.CategoryReasoning | backend/ai_service/category_suggester.py:202-229 | no suggestions give "No category suggestions available."; a primary that is not a dict, or a failed engine call, gives the generic explanation; otherwise a non-empty answer is used as given, and an empty one falls back to the primary's own reasoning or the default sentence |
| CategorySuggester.CategoryFailure | backend/ai_service/category_suggester.py:50-58 | the failure record suggests nothing, has no primary suggestion, confidence 0 and carries the error |
| CategorySuggester.SuggestCategory | backend/ai_service/category_suggester.py:17-48 | the primary suggestion is the head of the ranked list, the confidence is that list's confidence, at most 1, and no error is reported |
| CategorySuggester.BatchSuggest | backend/ai_service/category_suggester.py:257-276 | one entry per task, in order, with the task's id and title and its own suggestion result |
| CategorySuggester.ValidateCategory | backend/ai_service/category_suggester.py:278-317 | the engine's verdict when it has no error; otherwise an accepting default (appropriate, fit 0.7, "use") that carries the error |
| DeadlineSuggester.ComplexityAnalysis | backend/ai_service/deadline_suggester.py:68-106 | the complexity analysis never carries an `"error"` key: an erroneous answer becomes `{}` |
| DeadlineSuggester.HoursHeuristic | backend/ai_service/deadline_suggester.py:158-168 | each estimate holds exactly when its keyword group is the first one mentioned, in the order quick (1), review (2), build (4), complex (6); 3 hours exactly when no keyword is mentioned |
| DeadlineSuggester.MentionsConcat | backend/ai_service/deadline_suggester.py:159-165 | mentioning a word of two groups together is mentioning a word of one or the other |
| DeadlineSuggester.HoursFromTask | backend/ai_service/deadline_suggester.py:150-168 | an estimate exists exactly when title, description and category are strings, and it is the keyword estimate of the lower-cased title and description |
| DeadlineSuggester.HoursScaling | backend/ai_service/deadline_suggester.py:126-136 | a neutral analysis keeps the base hours; coordination multiplies by 1.5, research by 1.3, and each complexity point adds a tenth of the base |
| DeadlineSuggester.EstimateTime | backend/ai_service/deadline_suggester.py:108-148 | the estimate is computed exactly when base hours and complexity are numbers, with total hours within 0.05 of the unrounded product and the three factors reported; otherwise the 2-hour default |
| DeadlineSuggester.DailyCapacity | backend/ai_service/deadline_suggester.py:179-184 | 2 hours a day for a high workload, 4 for medium, 6 for anything else |
| DeadlineSuggester.AnalyzeSchedule | backend/ai_service/deadline_suggester.py:170-205 | a numeric item count gives the computed record, with the existing load capped at 70% of capacity so at least 30% stays available; otherwise the fallback record; the capacity read back is always positive |
| DeadlineSuggester.ExplicitDependencies | backend/ai_service/deadline_suggester.py:216-225 | one explicit dependency for each keyword found in the description or title and for no other keyword; the count equals the number of keyword positions found |
| DeadlineSuggester.TitlesRelatedIsSymmetric | backend/ai_service/deadline_suggester.py:253-265 | relatedness of titles does not depend on the order of the two tasks |
| DeadlineSuggester.TasksAreRelated | backend/ai_service/deadline_suggester.py:253-265 | defined exactly when both titles are strings and the second task is a dict; then true exactly when the lower-cased titles share at least two words |
| DeadlineSuggester.ImplicitDependencies | backend/ai_service/deadline_suggester.py:228-235 | defined exactly when every extracted task can be compared with the task; then one dependency per related extracted task |
| DeadlineSuggester.ImplicitDependenciesNameRelatedTasks | backend/ai_service/deadline_suggester.py:228-235 | the implicit dependencies are exactly the entries naming the title of some related extracted task |
| DeadlineSuggester.AnalyzeDependencies | backend/ai_service/deadline_suggester.py:207-251 | the list is empty when the title or description is not a string or when reading or comparing the extracted tasks raises; otherwise it is the explicit keyword dependencies followed by the implicit ones |
| DeadlineSuggester.DelayDays | backend/ai_service/deadline_suggester.py:241 | one day of delay per dependency |
| DeadlineSuggester.Trunc | backend/ai_service/deadline_suggester.py:290 | Python's `int()` rounds toward zero on both signs |
| DeadlineSuggester.WorkingDays | backend/ai_service/deadline_suggester.py:277-281 | at least one day; exactly one day when hours over capacity is below 1.5; from 1.5 upward, hours over capacity rounded half to even as `round()` does (3 hours a day when the capacity is not positive) |
| DeadlineSuggester.DeadlineSuggestions | backend/ai_service/deadline_suggester.py:267-320 | conservative at 1.5 times the days and realistic at the days, then aggressive at 70% (at least 1) exactly when more than one day is needed; each carries reasoning |
| DeadlineSuggester.DeadlinesAreOrdered | backend/ai_service/deadline_suggester.py:284-318 | with a non-negative delay, conservative ≥ realistic ≥ 1, and aggressive is strictly earlier than realistic |
| DeadlineSuggester.ToValue | backend/ai_service/deadline_suggester.py:292-318 | a suggestion's dict carries its type and its reasoning |
| DeadlineSuggester.ToValues | backend/ai_service/deadline_suggester.py:287-320 | one dict per suggestion, in order |
| DeadlineSuggester.TypeOf | backend/ai_service/deadline_suggester.py:379 | `s['type']` succeeds exactly on a dict with a `type` key |
| DeadlineSuggester.AnyRealisticMeans | backend/ai_service/deadline_suggester.py:379 | the scan is true exactly when some suggestion is realistic and every suggestion before it has a type |
| DeadlineSuggester.HasReasoning | backend/ai_service/deadline_suggester.py:384 | on a dict it is key membership; on None, booleans and numbers Python raises |
| DeadlineSuggester.AllReasoned | backend/ai_service/deadline_suggester.py:384 | true exactly when every suggestion has reasoning |
| DeadlineSuggester.DeadlineConfidence | backend/ai_service/deadline_suggester.py:363-392 | 0 for none, 0.5 when a lookup raises, otherwise 0.7 plus a tenth for each of three or more entries, a realistic entry and reasoning on all, capped at 1 |
| DeadlineSuggester.SuggestionsConfidence | backend/ai_service/deadline_suggester.py:363-392 | the service's own suggestion lists score 0.9 with two entries and 1.0 with three |
| DeadlineSuggester.ExplainedIndex | backend/ai_service/deadline_suggester.py:342 | the first realistic suggestion, or the first suggestion when none is realistic |
| DeadlineSuggester.DeadlineReasoning | backend/ai_service/deadline_suggester.py:333-361 | the fixed text without suggestions; otherwise, for the prompt naming the task title as the f-string renders it and the chosen suggestion, the engine's explanation, the suggestion's own reasoning when the engine answers empty, or the generic text when the engine fails |
| DeadlineSuggester.DeadlineFailure | backend/ai_service/deadline_suggester.py:59-66 | the failure record has no suggestions, confidence 0 and carries the error |
| DeadlineSuggester.DatedSuggestions | backend/ai_service/deadline_suggester.py:284-331 | the list stands when every date exists; otherwise the 3-day fallback when its date exists, else the overflow error; an ordered list stays ordered |
| DeadlineSuggester.SuggestionsFitIffConservativeFits | backend/ai_service/deadline_suggester.py:284-318 | every suggested date exists exactly when the conservative one does |
| DeadlineSuggester.FallbackConfidence | backend/ai_service/deadline_suggester.py:322-331 | the single fallback suggestion gets confidence 0.8 |
| DeadlineSuggester.Conclude | backend/ai_service/deadline_suggester.py:43-66 | the computed list when all its dates exist, the fallback list when only the fallback's does, and the failure record otherwise |
| DeadlineSuggester.ConcludedListIsOrdered | backend/ai_service/deadline_suggester.py:43-57 | an answered list is non-empty, ordered from the most conservative down to at least one day, and carries its own confidence |
| DeadlineSuggester.SuggestDeadline | backend/ai_service/deadline_suggester.py:17-66 | the computed suggestions when their dates exist, the fallback when only it fits, the failure record otherwise; an answered list is ordered and carries its own confidence |
| DeadlineSuggester.SuggestDeadlineConfidence | backend/ai_service/deadline_suggester.py:363-392 | confidence 1.0 or 0.9 as the computed list has three or two entries, and 0.8 for the fallback |
| TaskEnhancer.AnalyzeCurrentTask | backend/ai_service/task_enhancer.py:70-106 | the task analysis never carries an `"error"` key: an erroneous answer becomes `{}` |
| TaskEnhancer.EnhancedDescription | backend/ai_service/task_enhancer.py:108-141 | the engine's non-empty text; the task's own description when the text is empty or the engine fails |
| TaskEnhancer.ListFrom | backend/ai_service/task_enhancer.py:181-184 | the list under the key of an answer without an error, otherwise `[]` |
| TaskEnhancer.ActionableSteps | backend/ai_service/task_enhancer.py:143-188 | the steps of an answer that has them and no error, otherwise `[]` |
| TaskEnhancer.FailedEngineGivesNoSteps | backend/ai_service/task_enhancer.py:181-188 | an engine that fails yields no steps |
| TaskEnhancer.ContextDetails | backend/ai_service/task_enhancer.py:190-230 | `{}` for a falsy context; never an `"error"` key |
| TaskEnhancer.NoContextSkipsEngine | backend/ai_service/task_enhancer.py:195-196 | without a context the details do not depend on the engine, so no call is made |
| TaskEnhancer.Improvements | backend/ai_service/task_enhancer.py:232-276 | the improvements of an answer that has them and no error, otherwise `[]` |
| TaskEnhancer.EnhancementReasoning | backend/ai_service/task_enhancer.py:278-304 | never empty: a non-empty answer is used as given, and an empty answer or a failed engine call gives the fixed explanation |
| TaskEnhancer.Len | backend/ai_service/task_enhancer.py:314-323 | Python's `len`: the length of a string or list; it raises on None, booleans and numbers |
| TaskEnhancer.IsDetailed | backend/ai_service/task_enhancer.py:323 | a step can be judged exactly when it is a dict whose description has a length |
| TaskEnhancer.AnyDetailed | backend/ai_service/task_enhancer.py:322-325 | defined exactly when every step can be judged; then true exactly when some step has a description longer than 20 |
| TaskEnhancer.EnhancementConfidence | backend/ai_service/task_enhancer.py:306-331 | between 0.5 and 1; for a text description and a list of steps, 0.5 plus 0.2 for a description over 50 characters, 0.2 for any steps and 0.1 for a detailed step, capped at 1 |
| TaskEnhancer.ConfidenceExtremes | backend/ai_service/task_enhancer.py:310-327 | no steps and a short description give exactly 0.5; a long description with a detailed step reaches 1 |
| TaskEnhancer.EnhancementFailure | backend/ai_service/task_enhancer.py:58-68 | the failure record keeps the original description, has no steps, details or improvements, confidence 0, and carries the error |
| TaskEnhancer.EnhanceTask | backend/ai_service/task_enhancer.py:17-56 | no error; the confidence is that of the enhanced description and steps, between 0.5 and 1; no context details without a context |
| TaskEnhancer.BatchEnhance | backend/ai_service/task_enhancer.py:333-352 | one entry per task, in order, with that task's id, title and enhancement |
| TaskEnhancer.ValidateEnhancement | backend/ai_service/task_enhancer.py:354-397 | the engine's verdict when it has no error; otherwise an "improved, good quality" default that carries the error |
| PriorityScorer.WeightsSumToOne | backend/ai_service/priority_scorer.py:16-22 | the five factor weights add up to 1 |
| PriorityScorer.WeightedScore | backend/ai_service/priority_scorer.py:294-314 | with some factor present, the score times the total weight of the present factors is the weighted sum of their scores; with none present, 50 |
| PriorityScorer.ContributionBounds | backend/ai_service/priority_scorer.py:303-305 | a factor scored in [0, 100] adds between 0 and 100 times its weight |
| PriorityScorer.WeightedSumBounds | backend/ai_service/priority_scorer.py:302-305 | with sub-scores in [0, 100], the weighted sum lies between 0 and 100 times the total weight |
| PriorityScorer.WeightedScoreInRange | backend/ai_service/priority_scorer.py:294-310 | if every present sub-score lies in [0, 100], so does the weighted score |
| PriorityScorer.UniformScores | backend/ai_service/priority_scorer.py:302-305 | equal sub-scores c give a weighted sum of c times the total weight |
| PriorityScorer.WeightedScoreOfEqualScores | backend/ai_service/priority_scorer.py:294-310 | the weighted score is a weighted mean: equal sub-scores give that score back |
| PriorityScorer.MeanOfEqualScores | backend/ai_service/priority_scorer.py:302-308 | a present factor makes the total weight positive, and the quotient of equal scores is that score |
| PriorityScorer.PresentFactorWeighs | backend/ai_service/priority_scorer.py:303-305 | a present factor makes the total weight positive |
| PriorityScorer.TotalWeightNonNegative | backend/ai_service/priority_scorer.py:300-305 | the total weight is never negative |
| PriorityScorer.LevelBandsAreMonotone | backend/ai_service/priority_scorer.py:316-329 | each level is exactly one band of scores (80, 60, 40, 20 as lower bounds), and a higher score never gets a lower level |
| PriorityScorer.Clamp | backend/ai_service/priority_scorer.py:164 | the result lies in [0, 100], equals the input inside it, and is the nearer bound outside it |
| PriorityScorer.FloatOf | backend/ai_service/priority_scorer.py:164 | `float()` keeps a number, parses a string, and raises on None, lists and dicts |
| PriorityScorer.EngineScore | backend/ai_service/priority_scorer.py:163-170 | the clamped `score` of an answer without an error; 50 when there is an error, no score, or a score that does not convert |
| PriorityScorer.EvaluateUrgency | backend/ai_service/priority_scorer.py:134-170 | in [0, 100]; 50 when the answer has an error or no score; otherwise the clamped float of the score, or 50 when it cannot be converted |
| PriorityScorer.EvaluateImportance | backend/ai_service/priority_scorer.py:172-207 | in [0, 100]; 50 when the answer has an error or no score; otherwise the clamped float of the score, or 50 when it cannot be converted |
| PriorityScorer.WorkloadBase | backend/ai_service/priority_scorer.py:253-258 | 30 for a high workload, 50 for medium, 70 for anything else |
| PriorityScorer.CountPenalty | backend/ai_service/priority_scorer.py:261-264 | 20 off above ten items, 10 off above five, nothing otherwise |
| PriorityScorer.EvaluateWorkloadImpact | backend/ai_service/priority_scorer.py:244-270 | the level's base minus the item penalty, floored at 0, for a numeric count; 50 when the count is not a number; always between 10 and 70 |
| PriorityScorer.WorkloadImpactMonotone | backend/ai_service/priority_scorer.py:253-266 | more open items never raise the impact score, and a busier level has a lower base |
| PriorityScorer.CountMentioned | backend/ai_service/priority_scorer.py:284-286 | the number of keywords contained in the text; zero exactly when none is |
| PriorityScorer.DependencyScore | backend/ai_service/priority_scorer.py:280-288 | 50 plus 20 per dependency keyword in the lower-cased description, capped at 100; exactly 50 when no keyword occurs |
| PriorityScorer.EvaluateDependencies | backend/ai_service/priority_scorer.py:272-292 | between 50 and 100, and the dependency score of a string description |
| PriorityScorer.TitleAndDescription | backend/ai_service/priority_scorer.py:225-226 | an extracted task is read only when it is a dict |
| PriorityScorer.RelevancePoints | backend/ai_service/priority_scorer.py:224-235 | defined exactly when every extracted task is readable; then 20 per task sharing a title word plus 15 per task whose description word the task's description contains |
| PriorityScorer.EvaluateContextRelevance | backend/ai_service/priority_scorer.py:209-242 | between 50 and 100; with string title and description and readable extracted tasks, min(100, 50 + 20·title matches + 15·description matches); otherwise 50 |
| PriorityScorer.AnotherExtractedTaskNeverLowersRelevance | backend/ai_service/priority_scorer.py:221-238 | appending a readable extracted task never lowers the relevance |
| PriorityScorer.Breakdown | backend/ai_service/priority_scorer.py:37-62 | the breakdown scores all five factors, each in [0, 100], and each factor's score is the result of its own evaluation |
| PriorityScorer.FiveScoresInRange | backend/ai_service/priority_scorer.py:56-62 | a breakdown of five scores in [0, 100] holds every factor in range |
| PriorityScorer.FactorMap | backend/ai_service/priority_scorer.py:56-62 | the breakdown dict holds each of the five given scores under its factor |
| PriorityScorer.EveryFactorIn | backend/ai_service/priority_scorer.py:56-62 | a map holding the five factors by name holds every factor |
| PriorityScorer.Reasoning | backend/ai_service/priority_scorer.py:331-357 | never empty: a non-empty answer is used as given, and an empty answer or a failed engine call gives "Priority score: <score>/100" |
| PriorityScorer.CalculatePriorityScore | backend/ai_service/priority_scorer.py:24-85 | the breakdown is the five evaluations of the task, the score is the weighted score of that breakdown and lies in [0, 100], the reasoning is the reasoning generated for that score and breakdown, and the level is the score's band |
| PriorityScorer.ScoreIsWeightedEvaluations | backend/ai_service/priority_scorer.py:37-62 | the final score is 0.3 urgency + 0.25 importance + 0.2 context relevance + 0.15 workload impact + 0.1 dependencies, each as evaluated for the task |
| PriorityScorer.WeightedSumOfFive | backend/ai_service/priority_scorer.py:294-308 | with every factor present, the weighted sum is the sum of each score times its weight |
| PriorityScorer.Annotate | backend/ai_service/priority_scorer.py:368-373 | the task gains its score, level and reasoning and keeps every other key |
| PriorityScorer.BatchPrioritizeWith | backend/ai_service/priority_scorer.py:359-378 | the result is a permutation of the annotated tasks, sorted by score from highest to lowest |
| PriorityScorer.BatchKeepsTiesInOrder | backend/ai_service/priority_scorer.py:376 | tasks with equal scores keep their input order |
| PriorityScorer.BatchPrioritize | backend/ai_service/priority_scorer.py:359-378 | one entry per task, sorted by score from highest to lowest, every score in [0, 100] |
| Models.PopularityScore | backend/todo/models.py:51-64 | the score lies in [0, 1]; each band is exact: 0 for no uses, 0.2 for up to 5, 0.4 for up to 10, 0.6 for up to 20, 0.8 for up to 50 and 1 above 50 |
| Models.PopularityIsMonotone | backend/todo/models.py:51-64 | more usage never lowers popularity |
| Models.NegativeUsageScoresAsLowUsage | backend/todo/models.py:53-56 | a usage count driven below zero scores 0.2, above an unused category |
| Models.CleanCategory | backend/todo/models.py:39-44 | a category name is rejected exactly when it is non-empty and all white space |
| Models.CleanTask | backend/todo/models.py:154-167 | a task passes exactly when its title is not blank-but-non-empty, its deadline is not past and its priority score is absent or in [0, 1]; the title rule is checked first, then the deadline, then the priority score, each failure with its own message |
| Models.SaveTask | backend/todo/models.py:169-190 | saving files the task under its category; a changed category loses one use on the old category (no floor) and adds one to the new; an unchanged category and every other category keep their counts |
| Models.TasksInAfterSave | backend/todo/models.py:169-190 | saving moves the task into its new category's task set and out of its old one, and touches no other category's set |
| Models.SaveKeepsUsageCounts | backend/todo/models.py:169-190 | saving keeps every usage count equal to the number of tasks in that category, so the unfloored decrement never goes below zero |
| Models.DeadlineStates | backend/todo/models.py:192-204 | without a deadline or once completed a task is neither overdue nor due soon; otherwise it is overdue, due within seven days, or due later, and never both overdue and due soon |
| Models.DaysUntilDeadline | backend/todo/models.py:206-213 | no value without a deadline; otherwise the whole days of remaining time, rounded toward minus infinity |
| Models.UpdatePriority | backend/todo/models.py:223-229 | only 1, 2 and 3 are accepted, and then only the priority changes |
| Models.MarkCompleted | backend/todo/models.py:215-217 | the status becomes Completed and nothing else changes |
| Models.MarkInProgress | backend/todo/models.py:219-221 | the status becomes In Progress and nothing else changes |
| Models.CompletedIsNeverLate | backend/todo/models.py:193-204 | a completed task is neither overdue nor due soon, whatever its deadline |
| Models.CleanContextEntry | backend/todo/models.py:303-309 | content is rejected exactly when it is non-empty and all white space |
| Models.ContentPreview | backend/todo/models.py:316-320 | content up to 100 characters comes back unchanged; longer content gives its first 100 characters followed by "..." |
| Serializers.StripIsIdempotent | backend/todo/serializers.py:28 | stripping twice is stripping once |
| Serializers.NonBlank | backend/todo/serializers.py:76-81 | rejected exactly when the value is empty or all white space, with the given message; otherwise the stripped value, which is non-empty and has no white space at either end |
| Serializers.NonBlankIsIdempotent | backend/todo/serializers.py:76-81 | a value the rule accepts passes it again unchanged |
| Serializers.ValidateName | backend/todo/serializers.py:23-35 | a blank name is rejected as empty; otherwise the stripped name is accepted exactly when no stored name matches it case-insensitively or it matches the edited category's own name |
| Serializers.OwnNameIsNoDuplicate | backend/todo/serializers.py:30-32 | renaming a category to another spelling of its own name is accepted |
| Serializers.ValidateTitle | backend/todo/serializers.py:76-81 | rejected exactly when blank; otherwise the stripped, non-empty title |
| Serializers.ValidateDeadline | backend/todo/serializers.py:83-88 | rejected exactly when a deadline is given and lies in the past; otherwise unchanged |
| Serializers.ValidatePriority | backend/todo/serializers.py:90-95 | accepted exactly for 1, 2 and 3, unchanged |
| Serializers.ValidateStatus | backend/todo/serializers.py:97-103 | accepted exactly for Pending, In Progress and Completed, unchanged; the error lists the three |
| Serializers.ValidatePriorityScore | backend/todo/serializers.py:105-110 | accepted exactly when absent or in [0, 1], unchanged |
| Serializers.Validate | backend/todo/serializers.py:112-124 | rejected exactly when a truthy category id names no stored category; an accepted id becomes the category; `category_id` is always removed and every other attribute kept |
| Serializers.ValidateContent | backend/todo/serializers.py:157-162 | rejected exactly when blank; otherwise the stripped, non-empty content |
| Serializers.ValidateSourceType | backend/todo/serializers.py:164-170 | accepted exactly for WhatsApp, Email and Note, unchanged |
| Serializers.ValidatorsMatchEnumerations | backend/todo/serializers.py:90-103 | the serializers accept exactly the statuses, priorities and source types the enumerations define |
| Constants.TitleWord | backend/config/constants.py:21 | `str.title()` on one word keeps its length |
| Constants.PriorityChoices | backend/config/constants.py:18-21 | the priority choices are (1, High), (2, Medium), (3, Low), in declaration order |
| Constants.LabelAmong | backend/config/constants.py:24-29 | "Unknown" exactly when no member carries the value |
| Constants.PriorityLabel | backend/config/constants.py:23-29 | "Unknown" exactly for values other than 1, 2 and 3 |
| Constants.LabelInvertsChoices | backend/config/constants.py:18-29 | each listed choice's value maps back to its own label |
| Constants.SelfChoices | backend/config/constants.py:38-41 | one choice per value, each value paired with itself |
| Constants.TaskDefaults | backend/config/constants.py:103-111 | the default priority is 2, labelled Medium, and the default status is Pending, a listed status |
| Settings.GetSetting | backend/config/settings.py:13-19 | an error exactly when the setting is required, unset and without a default, naming the key; otherwise the environment's value when set, else the default (an empty value counts as set) |
| Settings.GetBooleanSetting | backend/config/settings.py:22-24 | an unset key gives the default; a set key is true exactly when its lower-cased value is true, 1, yes or on |
| Settings.GetIntSetting | backend/config/settings.py:27-32 | an unset key or a value `int()` rejects gives the default; otherwise the parsed value |
| Settings.IntSettingRoundTrip | backend/config/settings.py:27-32 | a setting written as `str(n)` reads back as n |
| Settings.StripDropsNoAbsentChar | backend/config/settings.py:51 | stripping brings in no character that was absent |
| Settings.CleanItems | backend/config/settings.py:51 | no more items than pieces, each non-empty with no white space at either end |
| Settings.CleanItemsKeepSeparatorOut | backend/config/settings.py:51 | cleaning separator-free pieces yields separator-free items |
| Settings.GetListSetting | backend/config/settings.py:43-51 | an unset or empty value gives the default; otherwise items that are non-empty, stripped and free of the separator |
| Settings.SplitOfJoin | backend/config/settings.py:51 | splitting a join of separator-free pieces gives the pieces back |
| Settings.SplitAtFirst | backend/config/settings.py:51 | splitting at the first separator peels off the text before it |
| Settings.ListSettingRoundTrip | backend/config/settings.py:43-51 | a list of clean, non-empty, separator-free items written joined by the separator reads back unchanged |
| Settings.CleanKeepsStrippedItems | backend/config/settings.py:51 | items that are already clean pass the cleaning unchanged |
| Settings.GetDictSetting | backend/config/settings.py:54-66 | an unset or empty value, or text the JSON reader rejects, gives the default; otherwise the parsed value |
| Settings.MissingSettings | backend/config/settings.py:207-215 | exactly the unset required settings, in their listed order |
| Settings.ValidateSettings | backend/config/settings.py:206-218 | an error exactly when SECRET_KEY or GEMINI_API_KEY is unset, naming every missing one |
| Settings.EmptyKeyPassesReadButFailsValidation | backend/config/settings.py:13-19 | an empty API key satisfies the required read yet fails validation |

## Left out

- **Engine and parser.** The network call to the Gemini model (`generate_content`, the `genai` client) and `json.loads` are parameters. Only the span selection and the error mapping around them are modelled. Their internals cannot be seen from this code.
- **Async, logging, dotenv.** Async/await, `asyncio`, logging and the `.env` loading are left out. The model is sequential, and none of these affect a result.
- **Clock.** `datetime.now()`, `timezone.now()` and `isoformat()` timestamps are parameters or opaque stamps. Results depend on them only through the values passed in.
- **Floating point.** All arithmetic is exact. For example, the weights 0.5 + 0.2 + 0.2 + 0.1 sum to exactly 1.0 here, while Python gets 0.9999999999999999. Binary rounding is not part of the model's arithmetic.
- Numbers.RoundTenth: states only that `round(x, 1)` is within 0.05 of `x`; the tie rule comes from `RoundHalfEven`, and decimal-to-binary rounding of floats is not modelled.
- CategorySuggester.CategoryConfidence: bounds the result only. The exact formula (top confidence plus the two 0.1 bonuses, capped at 1) is stated by `CategorySuggester.ConfidenceWithBonus`, `BonusOfCounts`, `NoBonusForFewNewSuggestions` and `FullBonus`.
- ConsolidatedAIService.FallbackAnalysis: states only the absent `error` key. Each field of the record is stated by its own lemma in the table, which keeps the proofs small.
- **Python sorting of strings and lists.** Python's `sorted` orders strings and lists too, and neither ordering is modelled. Two places are affected:
  - `compile_results` sorts the deadline suggestions by `x.get('confidence', 0)`. The model returns the pipeline's error whenever there are two or more suggestions and some confidence is not a number. Python would also sort successfully when every confidence is a string.
- CategorySuggester.RankSuggestions: when every confidence is a string, Python sorts the suggestions by string order and ranks them (category_suggester.py:189). The model instead returns the list unchanged and without ranks, because string ordering is not modelled. For example, confidences "0.3" and "0.9" are ranked B before A by Python but left as A, B here.
- **Set order.** Python set iteration order is modelled as order of first appearance. This affects the `sources` list of `create_context_summary`.
- **Text.** `lower()`, `upper()` and `title()` act on ASCII letters only. `get_list_setting` is modelled for a one-character separator, which is the default `','`. `Numbers.ParseInt` accepts ASCII digits only, while Python's `int()` also accepts other Unicode decimal digits such as "٣".
- **Unreachable handlers.** The outer `except` blocks of `suggest_category`, `enhance_task` and `process_new_task` cannot be reached when the task is a dict. Their failure records are still modelled as separate functions. The outer `except` of `suggest_deadline` is reachable through a date past 9999-12-31 and is modelled.
- **Non-dict tasks.** Tasks are modelled as dicts, which is how every caller types them. With a non-dict task such as `None`, `comprehensive_task_analysis` fails at `task.get`, and its own `except` then raises `UnboundLocalError` on `context_text` (consolidated_ai_service.py:24, 130-132). The per-task handler of `batch_process_tasks` calls `task.get('id')` and raises again (pipeline_controller.py:174). The outer `except` then returns `[]` for the whole batch (pipeline_controller.py:183-185), so one bad task discards every result. This path is not modelled.
- **Float rounding.** The deadline confidences are sums of 0.7 and 0.1 steps, which the model takes as exactly 0.8, 0.9 and 1.0. Python computes 0.7999999999999999, 0.8999999999999999 and 0.9999999999999999.
- **Exception texts.** The text for slicing a dict follows Python before 3.12 ("unhashable type: 'slice'"). `TypeName` reports every JSON number as `'float'`, including numbers that Python would hold as `int`. For the same reason `PipelineController.Sum` names its running total `'float'` once a number has been added, where Python keeps `'int'` while every number added so far is an int.
- DeadlineSuggester.EstimateTime: the default record holds the Python `int` 2, so the realistic suggestion's reasoning reads "based on 2 hours of work". The model keeps all hours as reals and renders this default as `repr(2.0)`; int and float rendering are not told apart.
- ContextAnalyzer.AnalyzeContext: the failure record's `'error': str(e)` entry (context_analyzer.py:54-60) is not modelled. Preprocessing is modelled only as raising or not, without the exception text. Its empty `priority_insights` and `workload_analysis` dicts are not modelled either.
- **Prompt texts.** Prompt wording is opaque to the model: only the fields a prompt reads are modelled, each rendered as the f-string renders it (a string as itself, anything else by `str()`). Building the date lines of the prompts (consolidated_ai_service.py:102, 108, 197; gemini_client.py:265-287) can raise `OverflowError` within 30 days of 9999-12-31; that is not modelled.
- PriorityScorer.Reasoning: the prompt renders each factor score with the `str()` of a float. In Python, `min(100, …)` and `max(0, …)` return their int operand at a bound (priority_scorer.py:164, 201, 238, 288), so a score at 0 or 100 is the int 0 or 100 and Python writes "100" where the model writes the float text "100.0". Int and float values are not told apart.
- PipelineController.PrimaryDeadline: when every suggestion is a dict but the confidences cannot be compared, the message is "'<' not supported between instances" without the two type names. Which pair Python compares first depends on the comparison order of its list sort, which is not modelled.
- ConsolidatedAIService.FallbackAnalysis: does not model the `OverflowError` that `datetime.now() + timedelta(days=7)` raises in the last week before 9999-12-31 (consolidated_ai_service.py:253). The model writes a proleptic date past the calendar instead. In the source that exception escapes `comprehensive_task_analysis`, because the fallback is built inside its `except` block; it can occur only in the last week of year 9999.
- `Task.save`: when reading the stored task or lowering the old category's count raises, the `except` at models.py:181-184 increments the new category and skips the decrement, without logging. That path is not modelled: the stored counts and the stored tasks are plain values whose reads and updates cannot fail.
- `priority_scorer.analyze_task_characteristics`: not modelled. `calculate_priority_score` awaits it but never reads its answer.
- **Constructors.** `GeminiAIService.__init__` reads the API key and configures the `genai` model; the engine parameter stands for the configured client. The other services' constructors only store it.
- **Information-only calls.** `gemini_client.get_model_info` and `pipeline_controller.get_pipeline_statistics` return fixed description tables and are not modelled.
- `Category.increment_usage` is folded into `Models.SaveTask`. `Task.assign_category` is `SaveTask` with the new category.
- **Trivial model members.** `__str__`, `ContextEntry.has_insights` and `ContextEntry.update_insights` are plain field reads and writes.
- **Query sets.** `get_most_popular`, `get_unused_categories`, `get_overdue_tasks`, `get_due_soon_tasks`, `get_tasks_by_*`, `get_by_source_type`, `get_recent_entries` and `get_entries_with_insights` are ORM queries.
- **Serializer plumbing.** Django's own field validators (max lengths, choices), the serializers' `create`/`update` and the list serializers are ORM plumbing.
- `Category.name__iexact` is modelled as equality after `Lower`. Category ids are strings.
- **Other settings readers.** `get_float_setting` and the environment predicates `is_development`, `is_production`, `is_testing` and `is_staging` are left out. So are the configuration getters (`get_database_config` and the others) and the import-time validation that prints a warning. They only assemble tables from the readers modelled here.
- **Constants tables.** `AI_CONFIG`, `DATABASE_CONFIG`, `LOGGING_CONFIG`, `API_CONFIG`, `CATEGORY_CONFIG`, `CONTEXT_CONFIG` and `VALIDATION_MESSAGES` are left out. Nothing in the modelled code reads them. Only `TASK_CONFIG`'s defaults and the enumeration tables are modelled.
- **Web layer.** The HTTP views, URL routing, the `services` wrappers over the ORM and the process-wide client singleton are left out.

## Notes on the code's behaviour

- **Overall confidence.** It uses the confidence of the *first* deadline suggestion, not of the best one. The suggested deadline, by contrast, is the best one.
- **Workload levels.** The context analyzer's workload levels are `normal`, `medium` and `high`; there is no `low`.
- **Empty API key.** `get_setting` accepts an empty `GEMINI_API_KEY` as configured, but `validate_settings` rejects it (`Settings.EmptyKeyPassesReadButFailsValidation`).
- **Validation messages.** The messages in `VALIDATION_MESSAGES` end with a period and differ from the messages the serializers and models raise. The model uses the raised ones.
- **Negative usage counts.** The usage decrement on save has no floor. A count that goes negative scores as popularity 0.2, above an unused category (`Models.NegativeUsageScoresAsLowUsage`). Under the invariant that every count equals its number of tasks, this never happens (`Models.SaveKeepsUsageCounts`).

=== FILE: base.dfy ===
/** Failure-carrying wrappers shared by every module of the model.
    `Result` stands for a Python call that either returns or raises. */
module Base {

  datatype Option<+T> = None | Some(value: T) {

    /** The wrapped value, or `default` when there is none (Python's `d.get(k, default)`). */
    function GetOr(default: T): T {
      match this
      case Some(v) => v
      case None => default
    }
  }

  /** `Err(msg)` models a raised exception whose text is `msg`. */
  datatype Result<+T> = Ok(value: T) | Err(msg: string)

  function Min(a: real, b: real): real { if a <= b then a else b }

  function Max(a: real, b: real): real { if a >= b then a else b }

  /** The positions of `xs` whose element satisfies `p`: their number is how many
      times a `for` loop over `xs` takes the branch guarded by `p`. */
  function Positions<T>(xs: seq<T>, p: T -> bool): (r: set<int>)
    ensures forall i :: i in r <==> 0 <= i < |xs| && p(xs[i])
  {
    set i | 0 <= i < |xs| && p(xs[i])
  }

  /** The last element of `xs` adds its position exactly when it satisfies `p`. */
  lemma PositionsOfSnoc<T>(xs: seq<T>, p: T -> bool)
    requires xs != []
    ensures |Positions(xs, p)| == |Positions(xs[..|xs| - 1], p)| + (if p(xs[|xs| - 1]) then 1 else 0)
  {
    var init := xs[..|xs| - 1];
    var extra: set<int> := if p(xs[|xs| - 1]) then {|init|} else {};
    forall i
      ensures i in Positions(xs, p) <==> i in Positions(init, p) + extra
    {
      if 0 <= i < |init| {
        assert xs[i] == init[i];
      }
    }
    assert Positions(xs, p) == Positions(init, p) + extra;
    assert |init| !in Positions(init, p);
  }

  /** `ys` holds exactly the images under `f` of the elements of `xs` that
      satisfy `p`. */
  ghost predicate ImagesOf<T, U(!new)>(ys: seq<U>, xs: seq<T>, p: T -> bool, f: T -> U) {
    forall y :: y in ys <==> exists i :: 0 <= i < |xs| && p(xs[i]) && y == f(xs[i])
  }

  /** Extending `xs` by one element adds that element's image exactly when it
      satisfies `p`. */
  lemma ImagesOfSnoc<T, U(!new)>(ys: seq<U>, xs: seq<T>, p: T -> bool, f: T -> U, ys': seq<U>, xs': seq<T>)
    requires ImagesOf(ys, xs, p, f)
    requires |xs'| == |xs| + 1 && xs'[..|xs|] == xs
    requires ys' == if p(xs'[|xs|]) then ys + [f(xs'[|xs|])] else ys
    ensures ImagesOf(ys', xs', p, f)
  {
    var x := xs'[|xs|];
    forall y | y in ys'
      ensures exists i :: 0 <= i < |xs'| && p(xs'[i]) && y == f(xs'[i])
    {
      if y in ys {
        var i :| 0 <= i < |xs| && p(xs[i]) && y == f(xs[i]);
        assert xs'[i] == xs[i];
      }
    }
    forall y | exists i :: 0 <= i < |xs'| && p(xs'[i]) && y == f(xs'[i])
      ensures y in ys'
    {
      var i :| 0 <= i < |xs'| && p(xs'[i]) && y == f(xs'[i]);
      if i < |xs| {
        assert xs'[i] == xs[i];
      }
    }
  }
}

=== FILE: category_suggester.dfy ===
/** `backend/ai_service/category_suggester.py`: shaping the engine's answer into a
    suggestion list, ranking it by confidence, the list's confidence, and the
    defaults used when a step fails. */
module CategorySuggester {
  import opened Base
  import Text
  import opened Json
  import StableSort
  import GeminiClient

  /** The engine, the JSON parser, and `show`, Python's `str()` of a value
      (used only to quote values inside prompts). */
  datatype Oracles = Oracles(engine: GeminiClient.Engine, parse: GeminiClient.Parser, show: Value -> string)

  /** `analyze_task_content(task)`: the engine's analysis, or `{}` on an error key. */
  function ContentAnalysis(o: Oracles, task: Object): (r: Object)
    ensures "error" !in r
  {
    var prompt := GeminiClient.Prompt("category_content", [
      Render(Field(task, "title", Str("")), o.show), Render(Field(task, "description", Str("")), o.show)]);
    var answer := GeminiClient.StructuredResponse(o.engine, o.parse, prompt, "JSON");
    if "error" in answer then map[] else answer
  }

  // ---- generate_category_suggestions

  /** The entry for a matched existing category. */
  function ExistingEntry(name: Value): (v: Value)
    ensures v.Obj? && "name" in v.fields && v.fields["name"] == name
    ensures "type" in v.fields && v.fields["type"] == Str("existing")
    ensures "confidence" in v.fields && v.fields["confidence"] == Num(0.9)
  {
    Obj(map["name" := name, "type" := Str("existing"), "confidence" := Num(0.9),
            "reasoning" := Str("Matches existing category")])
  }

  /** The entry for one new-category proposal: name "", confidence 0.7 and a
      generic reasoning unless the proposal says otherwise. */
  function NewEntry(m: Object): (v: Value)
    ensures v.Obj? && "name" in v.fields && v.fields["name"] == Field(m, "name", Str(""))
    ensures "type" in v.fields && v.fields["type"] == Str("new")
    ensures "confidence" in v.fields && v.fields["confidence"] == Field(m, "confidence", Num(0.7))
  {
    Obj(map["name" := Field(m, "name", Str("")), "type" := Str("new"),
            "description" := Field(m, "description", Str("")),
            "confidence" := Field(m, "confidence", Num(0.7)),
            "reasoning" := Field(m, "reasoning", Str("AI suggested category"))])
  }

  /** The entries of the proposals, in order; `None` as soon as one is not a dict
      (`.get` raises). */
  function NewEntries(xs: seq<Value>): (r: Option<seq<Value>>)
    ensures r.Some? <==> AllObjects(xs)
    ensures r.Some? ==> |r.value| == |xs| && forall i :: 0 <= i < |xs| ==> r.value[i] == NewEntry(xs[i].fields)
    decreases |xs|
  {
    if xs == [] then Some([])
    else
      assert forall i :: 1 <= i < |xs| ==> xs[i] == xs[1..][i - 1];
      match (xs[0], NewEntries(xs[1..]))
      case (Obj(m), Some(rest)) => Some([NewEntry(m)] + rest)
      case _ => None
  }

  /** The suggestion list `r` made from the engine's `answer`: nothing when the
      answer carries an error or a proposal cannot be read; otherwise the matched
      existing category (if any) first, then one entry per proposal in order. */
  predicate Shaped(answer: Object, r: seq<Value>) {
    var proposals := DictItems(Field(answer, "new_category_suggestions", Arr([])));
    && ("error" in answer ==> r == [])
    && ("error" !in answer && (proposals.None? || !AllObjects(proposals.value)) ==> r == [])
    && ("error" !in answer && proposals.Some? && AllObjects(proposals.value) ==>
          var k := if Truthy(Field(answer, "existing_category_match", Null)) then 1 else 0;
          && |r| == k + |proposals.value|
          && (k == 1 ==> r[0] == ExistingEntry(answer["existing_category_match"]))
          && forall i :: 0 <= i < |proposals.value| ==> r[k + i] == NewEntry(proposals.value[i].fields))
  }

  /** The suggestion list built from the engine's answer: a truthy
      `existing_category_match` first, then one entry per proposal; `[]` when the
      answer carries an error or a proposal makes Python raise. */
  function ShapeSuggestions(answer: Object): (r: seq<Value>)
    ensures Shaped(answer, r)
  {
    if "error" in answer then []
    else
      var head := if Truthy(Field(answer, "existing_category_match", Null))
                  then [ExistingEntry(answer["existing_category_match"])] else [];
      match DictItems(Field(answer, "new_category_suggestions", Arr([])))
      case None => []
      case Some(xs) =>
        match NewEntries(xs)
        case None => []
        case Some(entries) => head + entries
  }

  /** A matched existing category always comes first, at confidence 0.9, and each
      proposal keeps its position after it. */
  lemma ExistingMatchComesFirst(answer: Object, xs: seq<Value>)
    requires "error" !in answer && Truthy(Field(answer, "existing_category_match", Null))
    requires Field(answer, "new_category_suggestions", Arr([])) == Arr(xs) && AllObjects(xs)
    ensures var r := ShapeSuggestions(answer);
      && |r| == |xs| + 1
      && r[0] == ExistingEntry(answer["existing_category_match"])
      && forall i :: 0 <= i < |xs| ==> r[i + 1] == NewEntry(xs[i].fields)
  {
  }

  /** `", ".join(existing)` or "None". */
  function ExistingText(existing: seq<string>): string {
    if existing == [] then "None" else Text.Join(existing, ", ")
  }

  /** `generate_category_suggestions(task, content_analysis, existing_categories)`,
      with `None` for the categories written as the empty list. */
  function GenerateSuggestions(o: Oracles, task: Object, analysis: Object, existing: seq<string>): (r: seq<Value>)
    ensures Shaped(GeminiClient.StructuredResponse(o.engine, o.parse, SuggestionPrompt(o, task, analysis, existing), "JSON"), r)
  {
    ShapeSuggestions(GeminiClient.StructuredResponse(o.engine, o.parse, SuggestionPrompt(o, task, analysis, existing), "JSON"))
  }

  function SuggestionPrompt(o: Oracles, task: Object, analysis: Object, existing: seq<string>): string {
    GeminiClient.Prompt("category_suggestions", [
      Render(Field(task, "title", Str("")), o.show), Render(Field(task, "description", Str("")), o.show),
      o.show(Obj(analysis)), ExistingText(existing)])
  }

  /** An engine that fails yields no suggestions at all. */
  lemma FailedEngineGivesNoSuggestions(o: Oracles, task: Object, analysis: Object, existing: seq<string>)
    requires o.engine(GeminiClient.FormatPrompt(SuggestionPrompt(o, task, analysis, existing), "JSON")).Failure?
    ensures GenerateSuggestions(o, task, analysis, existing) == []
  {
  }

  // ---- rank_category_suggestions

  /** A sorted suggestion with its `rank` (1-based) and `score` (its confidence). */
  function WithRank(v: Value, i: nat): (r: Value)
    requires v.Obj?
    ensures r.Obj? && ConfidenceKey(r) == ConfidenceKey(v)
    ensures "rank" in r.fields && r.fields["rank"] == Num((i + 1) as real)
    ensures "score" in r.fields && r.fields["score"] == Field(v.fields, "confidence", Num(0.0))
  {
    Obj(v.fields["rank" := Num((i + 1) as real)]["score" := Field(v.fields, "confidence", Num(0.0))])
  }

  function WithRanks(s: seq<Value>): (r: seq<Value>)
    requires AllObjects(s)
    ensures |r| == |s|
    ensures forall i :: 0 <= i < |s| ==> r[i] == WithRank(s[i], i)
  {
    seq(|s|, i requires 0 <= i < |s| => WithRank(s[i], i))
  }

  /** `rank_category_suggestions(suggestions, task)`: a stable sort on confidence,
      highest first, then ranks; the input unchanged when the sort raises. */
  function RankSuggestions(xs: seq<Value>): (r: seq<Value>)
    ensures |r| == |xs|
    ensures !Sortable(xs) ==> r == xs
    ensures Sortable(xs) ==> StableSort.SortedDesc(r, ConfidenceKey)
    ensures Sortable(xs) ==> forall i :: 0 <= i < |r| ==> r[i].Obj? && "rank" in r[i].fields && r[i].fields["rank"] == Num((i + 1) as real)
  {
    if xs == [] then []
    else if !Sortable(xs) then xs
    else
      var s := StableSort.SortDesc(xs, ConfidenceKey);
      SortedKeepsObjects(xs, s);
      WithRanks(s)
  }

  lemma SortedKeepsObjects(xs: seq<Value>, s: seq<Value>)
    requires AllObjects(xs) && multiset(s) == multiset(xs)
    ensures AllObjects(s)
  {
    forall i | 0 <= i < |s| ensures s[i].Obj? {
      assert s[i] in multiset(xs);
    }
  }

  /** Ranking only reorders: the ranked list is the stable confidence order of the
      input with rank and score added, so equal confidences keep their order. */
  lemma RankingReorders(xs: seq<Value>, v: real)
    requires Sortable(xs) && xs != []
    ensures exists s :: multiset(s) == multiset(xs) && AllObjects(s) && RankSuggestions(xs) == WithRanks(s)
                        && StableSort.WithKey(s, ConfidenceKey, v) == StableSort.WithKey(xs, ConfidenceKey, v)
  {
    var s := StableSort.SortDesc(xs, ConfidenceKey);
    SortedKeepsObjects(xs, s);
    StableSort.SortIsStable(xs, ConfidenceKey, v);
  }

  /** `ranked[0] if ranked else None`. */
  function Primary(ranked: seq<Value>): (r: Option<Value>)
    ensures r.None? <==> ranked == []
    ensures r.Some? ==> r.value == ranked[0]
  {
    if ranked == [] then None else Some(ranked[0])
  }

  /** On a sortable list the primary suggestion carries rank 1 and the highest
      confidence. */
  lemma PrimaryIsMostConfident(xs: seq<Value>)
    requires Sortable(xs) && xs != []
    ensures var p := Primary(RankSuggestions(xs));
      && p.Some? && p.value.Obj? && p.value.fields["rank"] == Num(1.0)
      && forall i :: 0 <= i < |xs| ==> ConfidenceKey(xs[i]) <= ConfidenceKey(p.value)
  {
    var s := StableSort.SortDesc(xs, ConfidenceKey);
    SortedKeepsObjects(xs, s);
    var r := RankSuggestions(xs);
    forall i | 0 <= i < |xs| ensures ConfidenceKey(xs[i]) <= ConfidenceKey(r[0]) {
      assert xs[i] in multiset(s);
      var j :| 0 <= j < |s| && s[j] == xs[i];
      assert ConfidenceKey(r[j]) == ConfidenceKey(s[j]);
    }
  }

  // ---- calculate_category_confidence

  /** The numeric confidences of the suggestions, or `None` when `.get` meets a
      non-dict or a confidence is not a number (Python then raises, in `max`, in
      `+ 0.1` or in `min`). */
  function Confidences(xs: seq<Value>): (r: Option<seq<real>>)
    ensures r.Some? ==> |r.value| == |xs|
    ensures r.Some? <==> forall i :: 0 <= i < |xs| ==> xs[i].Obj? && NumOf(Field(xs[i].fields, "confidence", Num(0.0))).Some?
    ensures r.Some? ==> forall i :: 0 <= i < |xs| ==> r.value[i] == ConfidenceKey(xs[i])
    decreases |xs|
  {
    if xs == [] then Some([])
    else
      assert forall i :: 1 <= i < |xs| ==> xs[i] == xs[1..][i - 1];
      match (xs[0], Confidences(xs[1..]))
      case (Obj(m), Some(rest)) =>
        (match NumOf(Field(m, "confidence", Num(0.0)))
         case Some(c) => Some([c] + rest)
         case None => None)
      case _ => None
  }

  function MaxOf(cs: seq<real>): (m: real)
    requires cs != []
    ensures forall i :: 0 <= i < |cs| ==> cs[i] <= m
    ensures exists i :: 0 <= i < |cs| && cs[i] == m
    decreases |cs|
  {
    if |cs| == 1 then cs[0]
    else
      var rest := MaxOf(cs[1..]);
      assert forall i :: 1 <= i < |cs| ==> cs[i] == cs[1..][i - 1];
      if cs[0] >= rest then cs[0] else rest
  }

  /** Some suggestion has `type` "existing". */
  predicate HasExisting(xs: seq<Value>)
    requires AllObjects(xs)
  {
    exists i :: 0 <= i < |xs| && Field(xs[i].fields, "type", Null) == Str("existing")
  }

  /** `calculate_category_confidence(suggestions)`: 0 for none; else the highest
      confidence, plus a tenth for three or more suggestions and a tenth when one
      is an existing category, capped at 1; 0.5 when Python raises. */
  function CategoryConfidence(xs: seq<Value>): (r: real)
    ensures xs == [] ==> r == 0.0
    ensures xs != [] && Confidences(xs).None? ==> r == 0.5
    ensures xs != [] && Confidences(xs).Some? ==> r <= 1.0 && r <= MaxOf(Confidences(xs).value) + 0.2
  {
    if xs == [] then 0.0
    else
      match Confidences(xs)
      case None => 0.5
      case Some(cs) => Min(1.0, MaxOf(cs) + Bonus(xs))
  }

  /** The additions to the top confidence: a tenth for three or more suggestions
      and a tenth when one is an existing category. */
  function Bonus(xs: seq<Value>): (b: real)
    requires AllObjects(xs)
    ensures 0.0 <= b <= 0.2
  {
    (if |xs| >= 3 then 0.1 else 0.0) + (if HasExisting(xs) then 0.1 else 0.0)
  }

  /** The overall confidence is at least every suggestion's own confidence (capped at 1). */
  lemma CategoryConfidenceCoversEach(xs: seq<Value>)
    requires xs != [] && Confidences(xs).Some?
    ensures forall i :: 0 <= i < |xs| ==> Min(1.0, ConfidenceKey(xs[i])) <= CategoryConfidence(xs)
  {
    var cs := Confidences(xs).value;
    forall i | 0 <= i < |xs| ensures Min(1.0, ConfidenceKey(xs[i])) <= CategoryConfidence(xs) {
      assert cs[i] == ConfidenceKey(xs[i]) <= MaxOf(cs);
    }
  }

  /** Fewer than three suggestions, none of them existing: no bonus, only the cap. */
  lemma NoBonusForFewNewSuggestions(xs: seq<Value>)
    requires 0 < |xs| < 3 && Confidences(xs).Some?
    requires forall i :: 0 <= i < |xs| ==> xs[i].Obj? && Field(xs[i].fields, "type", Null) != Str("existing")
    ensures CategoryConfidence(xs) == Min(1.0, MaxOf(Confidences(xs).value))
  {
    assert !HasExisting(xs);
    BonusOfCounts(xs);
  }

  /** Three or more suggestions including an existing category add a fifth, up to the cap. */
  lemma FullBonus(xs: seq<Value>)
    requires |xs| >= 3 && Confidences(xs).Some?
    requires exists i :: 0 <= i < |xs| && xs[i].Obj? && Field(xs[i].fields, "type", Null) == Str("existing")
    ensures CategoryConfidence(xs) == Min(1.0, MaxOf(Confidences(xs).value) + 0.2)
  {
    assert HasExisting(xs);
    BonusOfCounts(xs);
  }

  lemma BonusOfCounts(xs: seq<Value>)
    requires xs != [] && Confidences(xs).Some?
    ensures var top := MaxOf(Confidences(xs).value);
      && (|xs| >= 3 && HasExisting(xs) ==> CategoryConfidence(xs) == Min(1.0, top + 0.2))
      && (|xs| < 3 && !HasExisting(xs) ==> CategoryConfidence(xs) == Min(1.0, top))
  {
    var top := MaxOf(Confidences(xs).value);
    ConfidenceWithBonus(xs);
    if |xs| >= 3 && HasExisting(xs) {
      CappedSum(top, Bonus(xs), 0.2);
    } else if |xs| < 3 && !HasExisting(xs) {
      CappedSum(top, Bonus(xs), 0.0);
    }
  }

  lemma CappedSum(top: real, b: real, c: real)
    requires b == c
    ensures Min(1.0, top + b) == Min(1.0, top + c)
  {
  }

  lemma ConfidenceWithBonus(xs: seq<Value>)
    requires xs != [] && Confidences(xs).Some?
    ensures AllObjects(xs) && CategoryConfidence(xs) == Min(1.0, MaxOf(Confidences(xs).value) + Bonus(xs))
  {
  }

  // ---- generate_category_reasoning

  /** The values the category reasoning prompt interpolates from the task and
      the primary suggestion. */
  function CategoryReasoningPrompt(o: Oracles, task: Object, primary: Object): string {
    GeminiClient.Prompt("category_reasoning", [
      Render(Field(task, "title", Str("")), o.show), Render(Field(primary, "name", Str("")), o.show),
      Render(Field(primary, "confidence", Num(0.0)), o.show), Render(Field(primary, "reasoning", Str("")), o.show)])
  }

  const CategoryReasoningDefault := Str("Category suggested based on task analysis.")
  const CategoryReasoningFailure := Str("Category suggestion based on task analysis.")

  /** `generate_category_reasoning(task, suggestions)`: the engine's explanation of
      the primary suggestion, else that suggestion's own reasoning; a primary that
      is not a dict raises, and the handler's text stands in. */
  function CategoryReasoning(o: Oracles, task: Object, ranked: seq<Value>): (r: Value)
    ensures ranked == [] ==> r == Str("No category suggestions available.")
    ensures ranked != [] && !ranked[0].Obj? ==> r == CategoryReasoningFailure
    ensures ranked != [] && ranked[0].Obj? ==>
      var primary := ranked[0].fields;
      var reply := o.engine(CategoryReasoningPrompt(o, task, primary));
      && (reply.Answer? && reply.text != "" ==> r == Str(reply.text))
      && (reply.Answer? && reply.text == "" ==> r == Field(primary, "reasoning", CategoryReasoningDefault))
      && (reply.Failure? ==> r == CategoryReasoningFailure)
  {
    if ranked == [] then Str("No category suggestions available.")
    else
      match ranked[0]
      case Obj(p) =>
        (match o.engine(CategoryReasoningPrompt(o, task, p))
         case Answer(text) => if text != "" then Str(text) else Field(p, "reasoning", CategoryReasoningDefault)
         case Failure(_) => CategoryReasoningFailure)
      case _ => CategoryReasoningFailure
  }

  // ---- suggest_category

  datatype CategoryResult = CategoryResult(
    suggested: seq<Value>, primary: Option<Value>, reasoning: Value, confidence: real,
    analysis: Option<Object>, error: Option<string>)

  /** The record of the outer `except` branch: nothing suggested, confidence 0. */
  function CategoryFailure(msg: string): (r: CategoryResult)
    ensures r.suggested == [] && r.primary == Primary(r.suggested) && r.error == Some(msg)
    ensures r.confidence == CategoryConfidence(r.suggested)
  {
    CategoryResult([], None, Str("Category suggestion failed: " + msg), 0.0, None, Some(msg))
  }

  /** `suggest_category(task, existing_categories)`. Every step catches its own
      exceptions, so the outer failure record is never produced. */
  function SuggestCategory(o: Oracles, task: Object, existing: seq<string>): (r: CategoryResult)
    ensures r.primary == Primary(r.suggested)
    ensures r.confidence == CategoryConfidence(r.suggested)
    ensures r.error.None? && r.confidence <= 1.0
  {
    var analysis := ContentAnalysis(o, task);
    var ranked := RankSuggestions(GenerateSuggestions(o, task, analysis, existing));
    CategoryResult(ranked, Primary(ranked), CategoryReasoning(o, task, ranked), CategoryConfidence(ranked),
                   Some(analysis), None)
  }

  datatype BatchItem = BatchItem(taskId: Value, taskTitle: Value, result: CategoryResult)

  /** `batch_suggest_categories(tasks, existing_categories)`: one entry per task, in order. */
  function BatchSuggest(o: Oracles, tasks: seq<Object>, existing: seq<string>): (r: seq<BatchItem>)
    ensures |r| == |tasks|
    ensures forall i :: 0 <= i < |tasks| ==>
      r[i].taskId == Field(tasks[i], "id", Null) && r[i].taskTitle == Field(tasks[i], "title", Null)
      && r[i].result == SuggestCategory(o, tasks[i], existing)
  {
    seq(|tasks|, i requires 0 <= i < |tasks| =>
      BatchItem(Field(tasks[i], "id", Null), Field(tasks[i], "title", Null), SuggestCategory(o, tasks[i], existing)))
  }

  // ---- validate_category_suggestion

  /** `validate_category_suggestion(task, category)`: the engine's verdict, or an
      accepting default (fit 0.7, "use") that carries the error. */
  function ValidateCategory(o: Oracles, task: Object, category: string): (r: Object)
    ensures var answer := GeminiClient.StructuredResponse(o.engine, o.parse, ValidationPrompt(o, task, category), "JSON");
      && ("error" !in answer ==> r == answer)
      && ("error" in answer ==>
            && "is_appropriate" in r && r["is_appropriate"] == Bool(true)
            && "fit_score" in r && r["fit_score"] == Num(0.7)
            && "recommendation" in r && r["recommendation"] == Str("use")
            && "error" in r && r["error"] == answer["error"])
  {
    var answer := GeminiClient.StructuredResponse(o.engine, o.parse, ValidationPrompt(o, task, category), "JSON");
    if "error" in answer then
      map["is_appropriate" := Bool(true), "fit_score" := Num(0.7), "recommendation" := Str("use"),
          "error" := answer["error"]]
    else answer
  }

  function ValidationPrompt(o: Oracles, task: Object, category: string): string {
    GeminiClient.Prompt("category_validation", [
      Render(Field(task, "title", Str("")), o.show), Render(Field(task, "description", Str("")), o.show), category])
  }
}

=== FILE: consolidated_ai_service.dfy ===
/** `backend/ai_service/consolidated_ai_service.py`: one engine call per task and
    one per context, each replaced by a fixed fallback record when the structured
    response carries an `"error"` key. */
module ConsolidatedAIService {
  import opened Base
  import Text
  import opened Json
  import opened ContextData
  import Dates
  import GeminiClient

  const FallbackWindowDays := 7

  /** The `task_enhancement` part of the fallback: the task's own title and
      description, no steps, confidence 0. */
  function FallbackEnhancement(task: Task): (r: Object)
    ensures "confidence_score" in r && r["confidence_score"] == Num(0.0)
  {
    map[
      "enhanced_title" := Field(task, "title", Str("")),
      "enhanced_description" := Field(task, "description", Str("")),
      "actionable_steps" := Arr([]),
      "technical_requirements" := Str(""),
      "deliverables" := Str(""),
      "success_criteria" := Str(""),
      "confidence_score" := Num(0.0)]
  }

  /** The fallback enhancement keeps the task's own title and description and
      proposes no steps. */
  lemma FallbackEnhancementKeepsTask(task: Task)
    ensures var r := FallbackEnhancement(task);
      && "enhanced_title" in r && r["enhanced_title"] == Field(task, "title", Str(""))
      && "enhanced_description" in r && r["enhanced_description"] == Field(task, "description", Str(""))
      && "actionable_steps" in r && r["actionable_steps"] == Arr([])
  {
  }

  /** The fallback's primary category suggestion: "General" at confidence 0. */
  function FallbackPrimary(): (r: Object)
    ensures "confidence" in r && r["confidence"] == Num(0.0)
  {
    map["name" := Str("General"), "reason" := Str("Fallback category"), "confidence" := Num(0.0)]
  }

  /** The `category_suggestion` part: "General" at confidence 0, no alternatives. */
  function FallbackCategory(): (r: Object)
    ensures "primary_suggestion" in r && r["primary_suggestion"] == Obj(FallbackPrimary())
  {
    map[
      "primary_suggestion" := Obj(FallbackPrimary()),
      "alternative_categories" := Arr([])]
  }

  /** The `priority_analysis` part: score 50, level "medium". */
  function FallbackPriority(): (r: Object)
    ensures "priority_score" in r && r["priority_score"] == Num(50.0)
  {
    map[
      "priority_score" := Num(50.0),
      "priority_level" := Str("medium"),
      "reasoning" := Str("Default priority level"),
      "urgency_factors" := Arr([]),
      "impact_assessment" := Str("")]
  }

  /** The single fallback deadline, a week after `today`, at confidence 0. */
  function FallbackDeadline(today: Dates.Ordinal): (r: Object)
    ensures "date" in r && r["date"] == Str(Dates.IsoDate(today + FallbackWindowDays))
    ensures "confidence" in r && r["confidence"] == Num(0.0)
  {
    map[
      "date" := Str(Dates.IsoDate(today + FallbackWindowDays)),
      "reason" := Str("Default deadline suggestion"),
      "urgency" := Str("medium"),
      "confidence" := Num(0.0)]
  }

  function FallbackOverall(): (r: Object)
    ensures "summary" in r && r["summary"] == Str("Analysis failed, using fallback values")
  {
    map[
      "summary" := Str("Analysis failed, using fallback values"),
      "risk_factors" := Arr([]),
      "recommendations" := Str("")]
  }

  /** `_generate_fallback_analysis(task, context_text)`: the record returned when
      the comprehensive analysis fails. Only the task is read. Its five parts are
      stated one by one in the lemmas below. */
  function FallbackAnalysis(task: Task, today: Dates.Ordinal): (r: Object)
    ensures "error" !in r
  {
    map[
      "task_enhancement" := Obj(FallbackEnhancement(task)),
      "category_suggestion" := Obj(FallbackCategory()),
      "priority_analysis" := Obj(FallbackPriority()),
      "deadline_suggestions" := Arr([Obj(FallbackDeadline(today))]),
      "overall_analysis" := Obj(FallbackOverall())]
  }

  lemma FallbackHasEnhancement(task: Task, today: Dates.Ordinal)
    ensures var r := FallbackAnalysis(task, today);
      "task_enhancement" in r && r["task_enhancement"] == Obj(FallbackEnhancement(task))
  {
  }

  lemma FallbackHasCategory(task: Task, today: Dates.Ordinal)
    ensures var r := FallbackAnalysis(task, today);
      "category_suggestion" in r && r["category_suggestion"] == Obj(FallbackCategory())
  {
  }

  lemma FallbackHasPriority(task: Task, today: Dates.Ordinal)
    ensures var r := FallbackAnalysis(task, today);
      "priority_analysis" in r && r["priority_analysis"] == Obj(FallbackPriority())
  {
  }

  lemma FallbackHasDeadline(task: Task, today: Dates.Ordinal)
    ensures var r := FallbackAnalysis(task, today);
      "deadline_suggestions" in r && r["deadline_suggestions"] == Arr([Obj(FallbackDeadline(today))])
  {
  }

  lemma FallbackHasOverall(task: Task, today: Dates.Ordinal)
    ensures var r := FallbackAnalysis(task, today);
      "overall_analysis" in r && r["overall_analysis"] == Obj(FallbackOverall())
  {
  }

  /** The prompt of `comprehensive_task_analysis`: title, description and context text. */
  function TaskPrompt(task: Task, ctx: Context, show: Value -> string): string {
    GeminiClient.Prompt("comprehensive_task_analysis", [
      Render(Field(task, "title", Str("")), show),
      Render(Field(task, "description", Str("")), show),
      ContextData.PromptText(ctx, show)])
  }

  /** `comprehensive_task_analysis(task, context_data)`: the parsed engine answer,
      or the fallback record whenever that answer has an `"error"` key. */
  function ComprehensiveTaskAnalysis(engine: GeminiClient.Engine, parse: GeminiClient.Parser,
                                     show: Value -> string, task: Task, ctx: Context,
                                     today: Dates.Ordinal): (r: Object)
    ensures var answer := GeminiClient.StructuredResponse(engine, parse, TaskPrompt(task, ctx, show), "JSON");
      && ("error" in answer ==> r == FallbackAnalysis(task, today))
      && ("error" !in answer ==> r == answer)
    ensures "error" !in r
  {
    var answer := GeminiClient.StructuredResponse(engine, parse, TaskPrompt(task, ctx, show), "JSON");
    if "error" in answer then FallbackAnalysis(task, today) else answer
  }

  /** An engine that raises, or answers without parseable JSON, yields the fallback. */
  lemma FailedEngineGivesFallback(engine: GeminiClient.Engine, parse: GeminiClient.Parser,
                                  show: Value -> string, task: Task, ctx: Context, today: Dates.Ordinal)
    requires var sent := GeminiClient.FormatPrompt(TaskPrompt(task, ctx, show), "JSON");
      || engine(sent).Failure?
      || (engine(sent).Answer? && GeminiClient.JsonSpan(engine(sent).text).None?)
    ensures ComprehensiveTaskAnalysis(engine, parse, show, task, ctx, today) == FallbackAnalysis(task, today)
  {
  }

  function EmptyAnalysisPart(insights: string): Value {
    Obj(map[
      "urgency_level" := Str("normal"),
      "priority_distribution" := Obj(map[]),
      "total_indicators" := Num(0.0),
      "insights" := Str(insights)])
  }

  function EmptyWorkloadPart(insights: string): (r: Value)
    ensures r.Obj? && "workload_level" in r.fields && r.fields["workload_level"] == Str("normal")
    ensures "action_item_count" in r.fields && r.fields["action_item_count"] == Num(0.0)
  {
    Obj(map[
      "workload_level" := Str("normal"),
      "action_item_count" := Num(0.0),
      "temporal_distribution" := Obj(map[]),
      "insights" := Str(insights)])
  }

  /** A context record with no tasks, no suggestions, normal urgency and workload. */
  function ContextRecord(insights: string, summary: string): (r: Object)
    ensures "extracted_tasks" in r && r["extracted_tasks"] == Arr([])
    ensures "category_suggestions" in r && r["category_suggestions"] == Arr([])
    ensures "deadline_suggestions" in r && r["deadline_suggestions"] == Arr([])
    ensures "workload_analysis" in r && r["workload_analysis"] == EmptyWorkloadPart(insights)
    ensures "context_summary" in r && r["context_summary"] == Str(summary)
    ensures "error" !in r
  {
    map[
      "extracted_tasks" := Arr([]),
      "priority_analysis" := EmptyAnalysisPart(insights),
      "workload_analysis" := EmptyWorkloadPart(insights),
      "category_suggestions" := Arr([]),
      "deadline_suggestions" := Arr([]),
      "context_summary" := Str(summary)]
  }

  /** `_generate_empty_context_analysis()`. */
  function EmptyContextAnalysis(): Object {
    ContextRecord("No context provided", "No context data provided")
  }

  const PreviewLength := 100

  /** `xs[:n]` of a list: its first `n` items, or all of them. */
  function FirstItems(xs: seq<Value>, n: nat): (r: seq<Value>)
    ensures |r| <= n && r <= xs
    ensures |xs| <= n ==> r == xs
  {
    if |xs| <= n then xs else xs[..n]
  }

  /** `context_text[:100]` as the fallback's f-string renders it: the first 100
      characters of a string, `str()` of the first 100 items of a list, and the
      exception any other value raises (a dict is not sliceable, and `None`, a
      number or a boolean is not subscriptable). */
  function Preview(text: Value, show: Value -> string): (r: Result<string>)
    ensures r.Ok? <==> text.Str? || text.Arr?
    ensures text.Str? ==> r.value == Text.Take(text.s, PreviewLength)
    ensures text.Arr? ==> r.value == show(Arr(FirstItems(text.items, PreviewLength)))
  {
    match text
    case Str(t) => Ok(Text.Take(t, PreviewLength))
    case Arr(xs) => Ok(show(Arr(FirstItems(xs, PreviewLength))))
    case Obj(_) => Err("unhashable type: 'slice'")
    case _ => Err("'" + TypeName(text) + "' object is not subscriptable")
  }

  /** `_generate_fallback_context_analysis(text)`: the summary quotes the preview
      of the context, then "..."; building it raises for content that cannot be
      sliced. */
  function FallbackContextAnalysis(text: Value, show: Value -> string): (r: Result<Object>)
    ensures r.Ok? <==> text.Str? || text.Arr?
    ensures text.Str? ==>
      && "context_summary" in r.value
      && r.value["context_summary"] == Str("Context analysis failed for: " + Text.Take(text.s, PreviewLength) + "...")
    ensures r.Ok? ==> "extracted_tasks" in r.value && r.value["extracted_tasks"] == Arr([])
    ensures r.Ok? ==> "error" !in r.value
  {
    match Preview(text, show)
    case Err(m) => Err(m)
    case Ok(preview) => Ok(ContextRecord("Context analysis failed", "Context analysis failed for: " + preview + "..."))
  }

  function ContextPrompt(text: string): string {
    GeminiClient.Prompt("context_analysis", [text])
  }

  /** `context_analysis(context_data)`: content that is not a string makes
      `.strip()` raise, and the handler answers with the fallback (or raises in
      turn); blank text short-circuits; otherwise the engine's answer, replaced by
      the fallback when it carries an `"error"` key. `Err` is the exception that
      leaves the function. */
  function ContextAnalysis(engine: GeminiClient.Engine, parse: GeminiClient.Parser, show: Value -> string,
                           ctx: Context): (r: Result<Object>)
    ensures var content := RawContent(ctx);
      !content.Str? ==> r == FallbackContextAnalysis(content, show)
    ensures var content := RawContent(ctx);
      content.Str? && Text.IsBlank(content.s) ==> r == Ok(EmptyContextAnalysis())
    ensures var content := RawContent(ctx);
      content.Str? && !Text.IsBlank(content.s) ==>
        var answer := GeminiClient.StructuredResponse(engine, parse, ContextPrompt(content.s), "JSON");
        && ("error" in answer ==> r == FallbackContextAnalysis(content, show))
        && ("error" !in answer ==> r == Ok(answer))
    ensures r.Err? <==> !RawContent(ctx).Str? && !RawContent(ctx).Arr?
    ensures r.Ok? ==> "error" !in r.value
  {
    var content := RawContent(ctx);
    if !content.Str? then FallbackContextAnalysis(content, show)
    else if Text.Strip(content.s) == "" then Ok(EmptyContextAnalysis())
    else
      var answer := GeminiClient.StructuredResponse(engine, parse, ContextPrompt(content.s), "JSON");
      if "error" in answer then FallbackContextAnalysis(content, show) else Ok(answer)
  }

  /** Blank context text short-circuits: the answer is the same whatever the engine
      and the parser would have done, so neither is consulted. */
  lemma BlankContextSkipsEngine(e1: GeminiClient.Engine, p1: GeminiClient.Parser,
                                e2: GeminiClient.Engine, p2: GeminiClient.Parser,
                                show: Value -> string, ctx: Context)
    requires RawContent(ctx).Str? && Text.IsBlank(RawContent(ctx).s)
    ensures ContextAnalysis(e1, p1, show, ctx) == ContextAnalysis(e2, p2, show, ctx) == Ok(EmptyContextAnalysis())
  {
  }

  /** A context with text, answered by an engine that raises, gets the fallback
      record quoting that text. */
  lemma FailedContextGivesFallback(engine: GeminiClient.Engine, parse: GeminiClient.Parser,
                                   show: Value -> string, ctx: Context)
    requires RawContent(ctx).Str? && !Text.IsBlank(RawContent(ctx).s)
    requires engine(GeminiClient.FormatPrompt(ContextPrompt(RawContent(ctx).s), "JSON")).Failure?
    ensures ContextAnalysis(engine, parse, show, ctx) == FallbackContextAnalysis(RawContent(ctx), show)
    ensures ContextAnalysis(engine, parse, show, ctx).Ok?
  {
  }

  const HealthPrompt := "Health check"

  /** `health_check()` of the consolidated service. */
  function HealthCheck(engine: GeminiClient.Engine): (ok: bool)
    ensures ok <==> engine(HealthPrompt).Answer? && !Text.IsBlank(engine(HealthPrompt).text)
  {
    GeminiClient.HealthCheckWith(engine, HealthPrompt)
  }
}

=== FILE: constants.dfy ===
/** `backend/config/constants.py`: the priority, status and source-type
    enumerations with their label tables, and the task defaults. */
module Constants {

  /** Python's `str.title()` on one word of ASCII letters: the first letter
      upper-cased, the rest lower-cased. */
  function TitleWord(s: string): (r: string)
    ensures |r| == |s|
  {
    if s == [] then []
    else
      var c := s[0];
      [if 'a' <= c <= 'z' then (c as int - 32) as char else c]
      + seq(|s| - 1, i requires 0 <= i < |s| - 1 => if 'A' <= s[i + 1] <= 'Z' then (s[i + 1] as int + 32) as char else s[i + 1])
  }

  datatype TaskPriority = High | Medium | Low

  /** The members in declaration order, the order Python iterates an `Enum`. */
  const Priorities: seq<TaskPriority> := [High, Medium, Low]

  function PriorityValue(p: TaskPriority): int {
    match p
    case High => 1
    case Medium => 2
    case Low => 3
  }

  function PriorityName(p: TaskPriority): string {
    match p
    case High => "HIGH"
    case Medium => "MEDIUM"
    case Low => "LOW"
  }

  /** `TaskPriority.choices()`: each member's value with its title-cased name. */
  function PriorityChoices(): (r: seq<(int, string)>)
    ensures r == [(1, "High"), (2, "Medium"), (3, "Low")]
  {
    assert TitleWord("HIGH") == "High" && TitleWord("MEDIUM") == "Medium" && TitleWord("LOW") == "Low";
    seq(|Priorities|, i requires 0 <= i < |Priorities| => (PriorityValue(Priorities[i]), TitleWord(PriorityName(Priorities[i]))))
  }

  /** `TaskPriority.get_label(value)`: the first member carrying the value, or
      "Unknown". */
  function LabelAmong(ps: seq<TaskPriority>, value: int): (r: string)
    ensures r == "Unknown" <==> forall i :: 0 <= i < |ps| ==> PriorityValue(ps[i]) != value
    decreases |ps|
  {
    if ps == [] then "Unknown"
    else if PriorityValue(ps[0]) == value then TitleWord(PriorityName(ps[0]))
    else
      assert forall i :: 1 <= i < |ps| ==> ps[i] == ps[1..][i - 1];
      LabelAmong(ps[1..], value)
  }

  function PriorityLabel(value: int): (r: string)
    ensures r == "Unknown" <==> value !in {1, 2, 3}
  {
    LabelAmong(Priorities, value)
  }

  /** `get_label` inverts `choices`: each listed value maps back to its label. */
  lemma LabelInvertsChoices()
    ensures forall i :: 0 <= i < |PriorityChoices()| ==> PriorityLabel(PriorityChoices()[i].0) == PriorityChoices()[i].1
  {
    assert TitleWord("HIGH") == "High" && TitleWord("MEDIUM") == "Medium" && TitleWord("LOW") == "Low";
    assert PriorityLabel(1) == "High";
    assert PriorityLabel(2) == "Medium";
    assert PriorityLabel(3) == "Low";
  }

  /** `TaskStatus.values()`. */
  const StatusValues: seq<string> := ["Pending", "In Progress", "Completed"]

  /** `TaskStatus.choices()` and `ContextSourceType.choices()`: each value paired
      with itself. */
  function SelfChoices(values: seq<string>): (r: seq<(string, string)>)
    ensures |r| == |values|
    ensures forall i :: 0 <= i < |values| ==> r[i] == (values[i], values[i])
  {
    seq(|values|, i requires 0 <= i < |values| => (values[i], values[i]))
  }

  /** `ContextSourceType.values()`. */
  const SourceTypeValues: seq<string> := ["WhatsApp", "Email", "Note"]

  /** The `TASK_CONFIG` table. */
  datatype TaskConfig = TaskConfig(
    maxTitleLength: nat, maxDescriptionLength: nat, defaultPriority: int, defaultStatus: string,
    overdueThresholdDays: nat, dueSoonThresholdDays: nat)

  const Tasks: TaskConfig := TaskConfig(200, 2000, PriorityValue(Medium), StatusValues[0], 1, 7)

  /** The task defaults: priority 2, labelled Medium, and status "Pending". */
  lemma TaskDefaults()
    ensures Tasks.defaultPriority == 2 && PriorityLabel(Tasks.defaultPriority) == "Medium"
    ensures Tasks.defaultStatus == "Pending" && Tasks.defaultStatus in StatusValues
  {
    assert TitleWord("MEDIUM") == "Medium";
  }
}

=== FILE: context_analyzer.dfy ===
/** `backend/ai_service/context_analyzer.py`: the keyword heuristics run over
    messages, emails and notes before and beside the engine's task extraction —
    preprocessing order, temporal references, priority indicators, urgency and
    workload levels, action items and the summary line. */
module ContextAnalyzer {
  import opened Base
  import opened Text
  import opened Json
  import Numbers
  import GeminiClient

  /** The engine, the JSON parser, and `show`, Python's `str()` of a value that
      is not a string (used where an f-string renders one). */
  datatype Oracles = Oracles(engine: GeminiClient.Engine, parse: GeminiClient.Parser, show: Value -> string)

  // ---- counting helpers

  /** Python's `xs.count(k)`. */
  function Count<T(==)>(xs: seq<T>, k: T): (n: nat)
    ensures n <= |xs|
    ensures n > 0 <==> k in xs
    decreases |xs|
  {
    if xs == [] then 0
    else
      assert xs == xs[..|xs| - 1] + [xs[|xs| - 1]];
      Count(xs[..|xs| - 1], k) + (if xs[|xs| - 1] == k then 1 else 0)
  }

  /** The distinct elements of `xs` in order of first appearance. */
  function Dedup(xs: seq<string>): (r: seq<string>)
    ensures forall x :: x in r <==> x in xs
    ensures forall i, j :: 0 <= i < j < |r| ==> r[i] != r[j]
    decreases |xs|
  {
    if xs == [] then []
    else
      var d := Dedup(xs[..|xs| - 1]);
      var x := xs[|xs| - 1];
      assert xs == xs[..|xs| - 1] + [x];
      if x in d then d else d + [x]
  }

  /** A sequence without repeats has as many elements as its set. */
  lemma {:induction false} DistinctCardinality(xs: seq<string>)
    requires forall i, j :: 0 <= i < j < |xs| ==> xs[i] != xs[j]
    ensures |set x | x in xs| == |xs|
    decreases |xs|
  {
    if xs != [] {
      var init := xs[..|xs| - 1];
      var x := xs[|xs| - 1];
      DistinctCardinality(init);
      assert x !in init;
      assert (set y | y in xs) == (set y | y in init) + {x};
    }
  }

  /** `len(set(xs))` is the length of the deduplicated list. */
  lemma DedupCountsTheSet(xs: seq<string>)
    ensures |Dedup(xs)| == |set x | x in xs|
  {
    DistinctCardinality(Dedup(xs));
    assert (set x | x in Dedup(xs)) == (set x | x in xs);
  }

  // ---- tallies: the `counts[k] = counts.get(k, 0) + 1` dictionaries

  /** A Python dict from keys to counts, in insertion order. */
  type Tally = seq<(string, nat)>

  /** `counts.get(k, 0)`. */
  function Lookup(t: Tally, k: string): nat
    decreases |t|
  {
    if t == [] then 0 else if t[0].0 == k then t[0].1 else Lookup(t[1..], k)
  }

  /** `sum(counts.values())`. */
  function Total(t: Tally): nat
    decreases |t|
  {
    if t == [] then 0 else t[0].1 + Total(t[1..])
  }

  predicate DistinctKeys(t: Tally) {
    forall i, j :: 0 <= i < j < |t| ==> t[i].0 != t[j].0
  }

  /** The keys of a tally. */
  function Keys(t: Tally): set<string> {
    set i | 0 <= i < |t| :: t[i].0
  }

  /** One `counts[k] = counts.get(k, 0) + 1` step: bump an existing key in
      place, or append a new one. */
  function Bump(t: Tally, k: string): (r: Tally)
    ensures |r| > 0
    decreases |t|
  {
    if t == [] then [(k, 1)]
    else if t[0].0 == k then [(k, t[0].1 + 1)] + t[1..]
    else [t[0]] + Bump(t[1..], k)
  }

  /** A bump adds one to its own key and leaves every other count alone. */
  lemma {:induction false} BumpLookup(t: Tally, k: string, j: string)
    ensures Lookup(Bump(t, k), j) == Lookup(t, j) + (if j == k then 1 else 0)
    decreases |t|
  {
    if t != [] && t[0].0 != k {
      var r := Bump(t, k);
      assert r[1..] == Bump(t[1..], k);
      BumpLookup(t[1..], k, j);
    } else if t != [] {
      assert Bump(t, k)[1..] == t[1..];
    }
  }

  lemma {:induction false} BumpTotal(t: Tally, k: string)
    ensures Total(Bump(t, k)) == Total(t) + 1
    decreases |t|
  {
    if t != [] && t[0].0 != k {
      var r := Bump(t, k);
      assert r[1..] == Bump(t[1..], k);
      BumpTotal(t[1..], k);
    } else if t != [] {
      assert Bump(t, k)[1..] == t[1..];
    }
  }

  lemma KeysOfCons(p: (string, nat), t: Tally)
    ensures Keys([p] + t) == {p.0} + Keys(t)
  {
    var r := [p] + t;
    forall x | x in Keys(r) ensures x in {p.0} + Keys(t) {
      var i :| 0 <= i < |r| && r[i].0 == x;
      if i > 0 { assert t[i - 1].0 == x; }
    }
    forall x | x in Keys(t) ensures x in Keys(r) {
      var i :| 0 <= i < |t| && t[i].0 == x;
      assert r[i + 1].0 == x;
    }
    assert r[0].0 == p.0;
  }

  /** A bump adds its key to the keys. */
  lemma {:induction false} BumpKeys(t: Tally, k: string)
    ensures Keys(Bump(t, k)) == Keys(t) + {k}
    decreases |t|
  {
    if t == [] {
      KeysOfCons((k, 1), []);
    } else {
      assert t == [t[0]] + t[1..];
      KeysOfCons(t[0], t[1..]);
      if t[0].0 == k {
        KeysOfCons((k, t[0].1 + 1), t[1..]);
      } else {
        var rest := Bump(t[1..], k);
        assert Bump(t, k) == [t[0]] + rest;
        KeysOfCons(t[0], rest);
        BumpKeys(t[1..], k);
      }
    }
  }

  lemma DistinctTail(t: Tally)
    requires t != [] && DistinctKeys(t)
    ensures DistinctKeys(t[1..]) && t[0].0 !in Keys(t[1..])
  {
    assert t == [t[0]] + t[1..];
    KeysOfCons(t[0], t[1..]);
    forall i, j | 0 <= i < j < |t[1..]| ensures t[1..][i].0 != t[1..][j].0 {
      assert t[1..][i] == t[i + 1] && t[1..][j] == t[j + 1];
    }
    forall i | 0 <= i < |t[1..]| ensures t[1..][i].0 != t[0].0 {
      assert t[1..][i] == t[i + 1];
    }
  }

  /** A bump keeps the keys distinct. */
  lemma {:induction false} BumpKeepsKeysDistinct(t: Tally, k: string)
    requires DistinctKeys(t)
    ensures DistinctKeys(Bump(t, k))
    decreases |t|
  {
    if t != [] {
      var r := Bump(t, k);
      if t[0].0 == k {
        forall i, j | 0 <= i < j < |r| ensures r[i].0 != r[j].0 {
          assert r[j] == t[j];
          if i > 0 { assert r[i] == t[i]; }
        }
      } else {
        var rest := Bump(t[1..], k);
        assert r == [t[0]] + rest;
        DistinctTail(t);
        BumpKeys(t[1..], k);
        BumpKeepsKeysDistinct(t[1..], k);
        forall i, j | 0 <= i < j < |r| ensures r[i].0 != r[j].0 {
          if i == 0 {
            assert r[j] == rest[j - 1];
            assert r[j].0 in Keys(rest);
          } else {
            assert r[i] == rest[i - 1] && r[j] == rest[j - 1];
          }
        }
      }
    }
  }

  /** The dictionary a counting loop over `ks` builds. */
  function TallyOf(ks: seq<string>): (t: Tally)
    decreases |ks|
  {
    if ks == [] then [] else Bump(TallyOf(ks[..|ks| - 1]), ks[|ks| - 1])
  }

  /** The tally holds each key's number of occurrences, its counts add up to the
      number of keys counted, and no key appears twice. */
  lemma {:induction false} TallyCounts(ks: seq<string>)
    ensures forall k :: Lookup(TallyOf(ks), k) == Count(ks, k)
    ensures Total(TallyOf(ks)) == |ks|
    ensures DistinctKeys(TallyOf(ks))
    decreases |ks|
  {
    if ks != [] {
      var init := ks[..|ks| - 1];
      var k := ks[|ks| - 1];
      TallyCounts(init);
      BumpTotal(TallyOf(init), k);
      BumpKeys(TallyOf(init), k);
      BumpKeepsKeysDistinct(TallyOf(init), k);
      forall j ensures Lookup(TallyOf(ks), j) == Count(ks, j) {
        BumpLookup(TallyOf(init), k, j);
      }
    }
  }

  // ---- preprocess_context

  datatype Group = WhatsApp | Email | Note

  function GroupKey(g: Group): string {
    match g
    case WhatsApp => "whatsapp_messages"
    case Email => "emails"
    case Note => "notes"
  }

  function SourceName(g: Group): string {
    match g
    case WhatsApp => "whatsapp"
    case Email => "email"
    case Note => "note"
  }

  /** Position of a source in the preprocessing order. */
  function SourceRank(source: string): nat {
    if source == "whatsapp" then 0 else if source == "email" then 1 else 2
  }

  /** One entry of `text_content`: its source, its text, its timestamp, and the
      sender (messages and emails) or title (notes). */
  datatype Item = Item(source: string, content: string, timestamp: Value, origin: Value)

  /** The item one message, email or note becomes; `None` when its content is not
      a string, where the later `.lower()` raises. An email's content is always
      the text "Subject: s\nBody: b". */
  function ToItem(g: Group, m: Object, show: Value -> string): (r: Option<Item>)
    ensures r.Some? ==> r.value.source == SourceName(g) && r.value.timestamp == Field(m, "timestamp", Str(""))
    ensures g != Email ==> (r.Some? <==> Field(m, "content", Str("")).Str?)
    ensures g != Email && r.Some? ==> r.value.content == Field(m, "content", Str("")).s
    ensures g == Email ==> r.Some? && StartsWith(r.value.content, "Subject: ")
  {
    match g
    case Email =>
      var content := "Subject: " + Render(Field(m, "subject", Str("")), show)
                     + "\nBody: " + Render(Field(m, "body", Str("")), show);
      assert content[..9] == "Subject: ";
      Some(Item("email", content, Field(m, "timestamp", Str("")), Field(m, "sender", Str(""))))
    case _ =>
      var content := Field(m, "content", Str(""));
      if !content.Str? then None
      else
        Some(Item(SourceName(g), content.s, Field(m, "timestamp", Str("")),
                  if g == WhatsApp then Field(m, "sender", Str("")) else Field(m, "title", Str(""))))
  }

  /** The items of one group's entries, in order; `None` when an entry is not a
      dict or has non-string content. */
  function ToItems(g: Group, ms: seq<Value>, show: Value -> string): (r: Option<seq<Item>>)
    ensures r.Some? <==> forall i :: 0 <= i < |ms| ==> ms[i].Obj? && ToItem(g, ms[i].fields, show).Some?
    ensures r.Some? ==> |r.value| == |ms|
    ensures r.Some? ==> forall i :: 0 <= i < |ms| ==> ms[i].Obj? && ToItem(g, ms[i].fields, show) == Some(r.value[i])
    decreases |ms|
  {
    if ms == [] then Some([])
    else
      assert forall i :: 1 <= i < |ms| ==> ms[i] == ms[1..][i - 1];
      if !ms[0].Obj? then None
      else
        match ToItem(g, ms[0].fields, show)
        case None => None
        case Some(it) =>
          match ToItems(g, ms[1..], show)
          case None => None
          case Some(rest) => Some([it] + rest)
  }

  /** The items of one group: none when its key is absent, `None` when iterating
      its value raises. */
  function GroupItems(context: Object, g: Group, show: Value -> string): (r: Option<seq<Item>>)
    ensures GroupKey(g) !in context ==> r == Some([])
    ensures r.Some? ==> forall i :: 0 <= i < |r.value| ==> r.value[i].source == SourceName(g)
  {
    if GroupKey(g) !in context then Some([])
    else
      match DictItems(context[GroupKey(g)])
      case None => None
      case Some(ms) => ToItems(g, ms, show)
  }

  datatype Processed = Processed(text: seq<Item>, temporal: seq<Temporal>, indicators: seq<Indicator>)

  /** `preprocess_context(context_data)`: the WhatsApp items, then the emails,
      then the notes, each group in input order, with the temporal data and
      priority indicators extracted from them; `None` when it raises. */
  function Preprocess(context: Object, show: Value -> string): (r: Option<Processed>)
    ensures r.Some? <==> && GroupItems(context, WhatsApp, show).Some?
                         && GroupItems(context, Email, show).Some?
                         && GroupItems(context, Note, show).Some?
    ensures r.Some? ==>
      var w, e, n := GroupItems(context, WhatsApp, show).value, GroupItems(context, Email, show).value,
                     GroupItems(context, Note, show).value;
      r.value.text == w + e + n
    ensures r.Some? ==> r.value.temporal == ExtractTemporalData(r.value.text)
    ensures r.Some? ==> r.value.indicators == ExtractPriorityIndicators(r.value.text)
  {
    match (GroupItems(context, WhatsApp, show), GroupItems(context, Email, show), GroupItems(context, Note, show))
    case (Some(w), Some(e), Some(n)) =>
      var text := w + e + n;
      Some(Processed(text, ExtractTemporalData(text), ExtractPriorityIndicators(text)))
    case _ => None
  }

  /** WhatsApp items precede emails, which precede notes. */
  lemma SourcesFollowGroupOrder(context: Object, show: Value -> string)
    requires Preprocess(context, show).Some?
    ensures var text := Preprocess(context, show).value.text;
      forall i, j :: 0 <= i < j < |text| ==> SourceRank(text[i].source) <= SourceRank(text[j].source)
  {
    var text := Preprocess(context, show).value.text;
    var w, e, n := GroupItems(context, WhatsApp, show).value, GroupItems(context, Email, show).value,
                   GroupItems(context, Note, show).value;
    assert text == w + e + n;
    LayoutIsOrdered(text, |w|, |w| + |e|);
  }

  lemma LayoutIsOrdered(text: seq<Item>, a: nat, b: nat)
    requires a <= b <= |text|
    requires forall i :: 0 <= i < a ==> text[i].source == "whatsapp"
    requires forall i :: a <= i < b ==> text[i].source == "email"
    requires forall i :: b <= i < |text| ==> text[i].source == "note"
    ensures forall i, j :: 0 <= i < j < |text| ==> SourceRank(text[i].source) <= SourceRank(text[j].source)
  {
    forall i | 0 <= i < |text|
      ensures SourceRank(text[i].source) == if i < a then 0 else if i < b then 1 else 2
    {
    }
  }

  // ---- extract_temporal_data / extract_temporal_reference

  const TemporalPhrases: seq<string> := ["today", "tomorrow", "next week", "this week"]

  /** `extract_temporal_reference(content)`: the first of today, tomorrow, next
      week and this week that occurs, or "unknown" when none does. */
  function TemporalReference(content: string): (r: string)
    ensures r == "today" <==> Contains(content, "today")
    ensures r == "tomorrow" <==> !Contains(content, "today") && Contains(content, "tomorrow")
    ensures r == "next_week" <==> !Contains(content, "today") && !Contains(content, "tomorrow")
                                  && Contains(content, "next week")
    ensures r == "this_week" <==> !Contains(content, "today") && !Contains(content, "tomorrow")
                                  && !Contains(content, "next week") && Contains(content, "this week")
    ensures r == "unknown" <==> !MentionsAny(content, TemporalPhrases)
  {
    if Contains(content, "today") then "today"
    else if Contains(content, "tomorrow") then "tomorrow"
    else if Contains(content, "next week") then "next_week"
    else if Contains(content, "this week") then "this_week"
    else
      assert forall k :: k in TemporalPhrases ==> k == "today" || k == "tomorrow" || k == "next week" || k == "this week";
      "unknown"
  }

  datatype Temporal = Temporal(source: string, reference: string, content: string)

  function TemporalOf(it: Item): Temporal {
    Temporal(it.source, TemporalReference(Lower(it.content)), it.content)
  }

  predicate TimeSensitive(it: Item) {
    MentionsAny(Lower(it.content), TemporalPhrases)
  }

  /** `extract_temporal_data(text_content)`: one entry per item that mentions a
      time phrase, in order; hence "unknown" never appears. */
  function ExtractTemporalData(items: seq<Item>): (r: seq<Temporal>)
    ensures |r| <= |items|
    ensures ImagesOf(r, items, TimeSensitive, TemporalOf)
    ensures forall t :: t in r ==> t.reference != "unknown"
    decreases |items|
  {
    if items == [] then []
    else
      var init := items[..|items| - 1];
      var last := items[|items| - 1];
      var rest := ExtractTemporalData(init);
      var r := if TimeSensitive(last) then rest + [TemporalOf(last)] else rest;
      ImagesOfSnoc(rest, init, TimeSensitive, TemporalOf, r, items);
      r
  }

  /** One temporal entry per time-sensitive item. */
  lemma {:induction false} TemporalDataCount(items: seq<Item>)
    ensures |ExtractTemporalData(items)| == |Positions(items, TimeSensitive)|
    decreases |items|
  {
    if items != [] {
      TemporalDataCount(items[..|items| - 1]);
      PositionsOfSnoc(items, TimeSensitive);
    }
  }

  // ---- extract_priority_indicators

  datatype PriorityType = Urgent | Important | HighPriority | Deadline

  function Label(p: PriorityType): string {
    match p
    case Urgent => "urgent"
    case Important => "important"
    case HighPriority => "high_priority"
    case Deadline => "deadline"
  }

  /** Position of a type in the keyword table. */
  function TypeRank(p: PriorityType): nat {
    match p
    case Urgent => 0
    case Important => 1
    case HighPriority => 2
    case Deadline => 3
  }

  function Keywords(p: PriorityType): seq<string> {
    match p
    case Urgent => ["urgent", "asap", "immediately", "right away", "emergency"]
    case Important => ["important", "critical", "essential", "vital", "key"]
    case HighPriority => ["high priority", "top priority", "priority 1"]
    case Deadline => ["deadline", "due date", "by", "before", "until"]
  }

  datatype Indicator = Indicator(source: string, kind: PriorityType, content: string, confidence: real)

  /** Some keyword of type `p` occurs in the lowered content of `it`. */
  predicate Signals(it: Item, p: PriorityType) {
    MentionsAny(Lower(it.content), Keywords(p))
  }

  function IndicatorOf(it: Item, p: PriorityType): Indicator {
    Indicator(it.source, p, it.content, 0.8)
  }

  function Hit(it: Item, p: PriorityType): seq<Indicator> {
    if Signals(it, p) then [IndicatorOf(it, p)] else []
  }

  /** The indicators of one item: one per signalled type, in table order. */
  function ItemIndicators(it: Item): (r: seq<Indicator>)
    ensures |r| <= 4
    ensures forall ind :: ind in r ==> ind.confidence == 0.8 && ind.source == it.source && ind.content == it.content
  {
    Hit(it, Urgent) + Hit(it, Important) + Hit(it, HighPriority) + Hit(it, Deadline)
  }

  /** An item yields an indicator of type `p` exactly when it signals `p`. */
  lemma ItemIndicatorsAreSignals(it: Item, p: PriorityType)
    ensures IndicatorOf(it, p) in ItemIndicators(it) <==> Signals(it, p)
    ensures forall ind :: ind in ItemIndicators(it) ==> ind == IndicatorOf(it, ind.kind) && Signals(it, ind.kind)
  {
    var a, b, c, d := Hit(it, Urgent), Hit(it, Important), Hit(it, HighPriority), Hit(it, Deadline);
    assert ItemIndicators(it) == a + b + c + d;
    assert forall ind :: ind in a + b + c + d <==> ind in a || ind in b || ind in c || ind in d;
  }

  /** `extract_priority_indicators(text_content)`: the indicators of each item in
      turn, every one with confidence 0.8. */
  function ExtractPriorityIndicators(items: seq<Item>): (r: seq<Indicator>)
    ensures forall ind :: ind in r ==> ind.confidence == 0.8
    ensures |r| <= 4 * |items|
    decreases |items|
  {
    if items == [] then [] else ItemIndicators(items[0]) + ExtractPriorityIndicators(items[1..])
  }

  /** There is an indicator for exactly the (item, type) pairs where a keyword of
      the type occurs in the item. */
  lemma {:induction false} IndicatorsAreSignals(items: seq<Item>)
    ensures forall ind :: ind in ExtractPriorityIndicators(items) ==>
      exists i :: 0 <= i < |items| && Signals(items[i], ind.kind) && ind == IndicatorOf(items[i], ind.kind)
    ensures forall i, p :: 0 <= i < |items| && Signals(items[i], p) ==> IndicatorOf(items[i], p) in ExtractPriorityIndicators(items)
    decreases |items|
  {
    if items != [] {
      var head, rest := ItemIndicators(items[0]), ExtractPriorityIndicators(items[1..]);
      IndicatorsAreSignals(items[1..]);
      ItemIndicatorsAreSignals(items[0], Urgent);
      forall ind: Indicator | ind in head + rest
        ensures exists i :: 0 <= i < |items| && Signals(items[i], ind.kind) && ind == IndicatorOf(items[i], ind.kind)
      {
        if ind in rest {
          var i :| 0 <= i < |items[1..]| && Signals(items[1..][i], ind.kind) && ind == IndicatorOf(items[1..][i], ind.kind);
          assert items[i + 1] == items[1..][i];
        } else {
          assert ind in head;
        }
      }
      forall i, p | 0 <= i < |items| && Signals(items[i], p)
        ensures IndicatorOf(items[i], p) in head + rest
      {
        if i == 0 {
          ItemIndicatorsAreSignals(items[0], p);
        } else {
          assert items[i] == items[1..][i - 1];
        }
      }
    }
  }

  /** The indicators of a concatenation are those of each part, in order: the
      list is ordered by item, then by type. */
  lemma {:induction false} IndicatorsOfConcat(a: seq<Item>, b: seq<Item>)
    ensures ExtractPriorityIndicators(a + b) == ExtractPriorityIndicators(a) + ExtractPriorityIndicators(b)
    decreases |a|
  {
    if a != [] {
      assert (a + b)[1..] == a[1..] + b;
      IndicatorsOfConcat(a[1..], b);
    } else {
      assert a + b == b;
    }
  }

  // ---- analyze_priority_patterns

  function Kinds(indicators: seq<Indicator>): (r: seq<string>)
    ensures |r| == |indicators|
    ensures forall i :: 0 <= i < |r| ==> r[i] == Label(indicators[i].kind)
  {
    seq(|indicators|, i requires 0 <= i < |indicators| => Label(indicators[i].kind))
  }

  function IndicatorSources(indicators: seq<Indicator>): seq<string> {
    seq(|indicators|, i requires 0 <= i < |indicators| => indicators[i].source)
  }

  /** The urgency level of a distribution: high with any urgent indicator, else
      medium with more than two important ones, else normal. */
  function UrgencyLevel(distribution: Tally): (r: string)
    ensures r in {"high", "medium", "normal"}
  {
    if Lookup(distribution, "urgent") > 0 then "high"
    else if Lookup(distribution, "important") > 2 then "medium"
    else "normal"
  }

  datatype PriorityInsights =
    | NoIndicators
    | Insights(distribution: Tally, urgency: string, total: nat, sourceCount: nat)
  {
    function Urgency(): string {
      if NoIndicators? then "normal" else urgency
    }

    function Distribution(): Tally {
      if NoIndicators? then [] else distribution
    }

    function Summary(): string {
      if NoIndicators? then "No priority indicators found"
      else "Found " + Numbers.IntToString(total) + " priority indicators across "
           + Numbers.IntToString(sourceCount) + " sources"
    }
  }

  /** `analyze_priority_patterns(processed_context)`. */
  function AnalyzePriorityPatterns(indicators: seq<Indicator>): (r: PriorityInsights)
    ensures r.NoIndicators? <==> indicators == []
    ensures r.Insights? ==> r.total == |indicators| && r.urgency == UrgencyLevel(r.distribution)
  {
    if indicators == [] then NoIndicators
    else
      var t := TallyOf(Kinds(indicators));
      Insights(t, UrgencyLevel(t), |indicators|, |Dedup(IndicatorSources(indicators))|)
  }

  /** The distribution counts each type's indicators, its counts add up to the
      total, and no type is listed twice. */
  lemma PriorityDistribution(indicators: seq<Indicator>)
    ensures var t := AnalyzePriorityPatterns(indicators).Distribution();
      && (forall p :: Lookup(t, Label(p)) == Count(Kinds(indicators), Label(p)))
      && Total(t) == |indicators|
      && DistinctKeys(t)
  {
    if indicators != [] {
      TallyCounts(Kinds(indicators));
    }
  }

  /** The source count is the number of distinct sources among the indicators. */
  lemma PrioritySourceCount(indicators: seq<Indicator>)
    requires indicators != []
    ensures AnalyzePriorityPatterns(indicators).sourceCount == |set i | 0 <= i < |indicators| :: indicators[i].source|
  {
    var ss := IndicatorSources(indicators);
    DedupCountsTheSet(ss);
    assert (set x | x in ss) == (set i | 0 <= i < |indicators| :: indicators[i].source) by {
      forall x | x in ss ensures x in (set i | 0 <= i < |indicators| :: indicators[i].source) {
        var i :| 0 <= i < |ss| && ss[i] == x;
        assert indicators[i].source == x;
      }
      forall i | 0 <= i < |indicators| ensures indicators[i].source in ss {
        assert ss[i] == indicators[i].source;
      }
    }
  }

  /** Urgency is high iff some indicator is urgent, medium iff none is urgent and
      more than two are important, and normal otherwise. */
  lemma UrgencyFromIndicators(indicators: seq<Indicator>)
    ensures var u := AnalyzePriorityPatterns(indicators).Urgency();
      && (u == "high" <==> exists i :: 0 <= i < |indicators| && indicators[i].kind == Urgent)
      && (u == "medium" <==> (forall i :: 0 <= i < |indicators| ==> indicators[i].kind != Urgent)
                             && Count(Kinds(indicators), "important") > 2)
      && (u == "normal" <==> (forall i :: 0 <= i < |indicators| ==> indicators[i].kind != Urgent)
                             && Count(Kinds(indicators), "important") <= 2)
  {
    var ks := Kinds(indicators);
    UrgentIffListed(indicators);
    var u := AnalyzePriorityPatterns(indicators).Urgency();
    if indicators == [] {
      assert ks == [];
    } else {
      var t := TallyOf(ks);
      TallyLookup(ks, "urgent");
      TallyLookup(ks, "important");
      assert u == UrgencyLevel(t);
    }
  }

  /** One key's entry in a tally is its number of occurrences. */
  lemma TallyLookup(ks: seq<string>, k: string)
    ensures Lookup(TallyOf(ks), k) == Count(ks, k)
  {
    TallyCounts(ks);
  }

  lemma UrgentIffListed(indicators: seq<Indicator>)
    ensures (exists i :: 0 <= i < |indicators| && indicators[i].kind == Urgent) <==> "urgent" in Kinds(indicators)
  {
    var ks := Kinds(indicators);
    if "urgent" in ks {
      var i :| 0 <= i < |ks| && ks[i] == "urgent";
      assert indicators[i].kind == Urgent;
    }
    if exists i :: 0 <= i < |indicators| && indicators[i].kind == Urgent {
      var i :| 0 <= i < |indicators| && indicators[i].kind == Urgent;
      assert ks[i] == "urgent";
    }
  }

  // ---- analyze_workload / is_action_item

  const ActionKeywords: seq<string> := [
    "need to", "have to", "must", "should", "will", "going to",
    "plan to", "intend to", "schedule", "book", "call", "email",
    "meet", "review", "complete", "finish", "submit", "send"]

  /** `is_action_item(content)`: some action keyword occurs in the lowered text. */
  predicate IsActionItem(content: string) {
    MentionsAny(Lower(content), ActionKeywords)
  }

  predicate IsActionEntry(it: Item) {
    IsActionItem(it.content)
  }

  /** `[item for item in text_content if is_action_item(item['content'])]`. */
  function ActionItems(items: seq<Item>): (r: seq<Item>)
    ensures |r| <= |items|
    ensures |r| == |Positions(items, IsActionEntry)|
    ensures forall it :: it in r <==> it in items && IsActionItem(it.content)
    decreases |items|
  {
    if items == [] then []
    else
      var init := items[..|items| - 1];
      var last := items[|items| - 1];
      assert items == init + [last];
      PositionsOfSnoc(items, IsActionEntry);
      ActionItems(init) + (if IsActionItem(last.content) then [last] else [])
  }

  /** The workload level of an action-item count. */
  function WorkloadLevel(count: nat): (r: string)
    ensures r == "high" <==> count > 10
    ensures r == "medium" <==> 5 < count <= 10
    ensures r == "normal" <==> count <= 5
  {
    if count > 10 then "high" else if count > 5 then "medium" else "normal"
  }

  function WorkloadRank(level: string): nat {
    if level == "high" then 2 else if level == "medium" then 1 else 0
  }

  /** More action items never lower the workload level. */
  lemma WorkloadLevelIsMonotone(a: nat, b: nat)
    requires a <= b
    ensures WorkloadRank(WorkloadLevel(a)) <= WorkloadRank(WorkloadLevel(b))
  {
  }

  datatype WorkloadAnalysis = WorkloadAnalysis(actionItemCount: nat, temporalDistribution: Tally, level: string)
  {
    function Summary(): string {
      "Identified " + Numbers.IntToString(actionItemCount) + " potential action items"
    }
  }

  function References(temporal: seq<Temporal>): seq<string> {
    seq(|temporal|, i requires 0 <= i < |temporal| => temporal[i].reference)
  }

  /** `analyze_workload(processed_context)`. */
  function AnalyzeWorkload(p: Processed): (r: WorkloadAnalysis)
    ensures r.actionItemCount == |ActionItems(p.text)| <= |p.text|
    ensures r.level == WorkloadLevel(r.actionItemCount)
    ensures Total(r.temporalDistribution) == |p.temporal| && DistinctKeys(r.temporalDistribution)
    ensures forall k :: Lookup(r.temporalDistribution, k) == Count(References(p.temporal), k)
  {
    var n := |ActionItems(p.text)|;
    TallyCounts(References(p.temporal));
    WorkloadAnalysis(n, TallyOf(References(p.temporal)), WorkloadLevel(n))
  }

  /** On preprocessed content the temporal distribution never counts "unknown". */
  lemma NoUnknownReferences(p: Processed)
    requires p.temporal == ExtractTemporalData(p.text)
    ensures Lookup(AnalyzeWorkload(p).temporalDistribution, "unknown") == 0
  {
    NoUnknownIn(p.temporal);
  }

  lemma NoUnknownIn(ts: seq<Temporal>)
    requires forall t :: t in ts ==> t.reference != "unknown"
    ensures "unknown" !in References(ts)
  {
    var refs := References(ts);
    forall i | 0 <= i < |refs|
      ensures refs[i] != "unknown"
    {
      assert ts[i] in ts;
    }
  }

  // ---- create_context_summary

  /** `set(item['source'] for item in text_content)`, listed in order of first
      appearance. */
  function SourcesOf(items: seq<Item>): (r: seq<string>)
    ensures forall x :: x in r <==> exists i :: 0 <= i < |items| && items[i].source == x
    ensures forall i, j :: 0 <= i < j < |r| ==> r[i] != r[j]
  {
    var all := seq(|items|, i requires 0 <= i < |items| => items[i].source);
    assert forall i :: 0 <= i < |items| ==> all[i] == items[i].source;
    Dedup(all)
  }

  /** The parts of the summary: the sources, the indicator count when there are
      indicators, the time-sensitive count when there are any, the action items. */
  function SummaryParts(p: Processed): (r: seq<string>)
    ensures |r| == 2 + (if p.indicators != [] then 1 else 0) + (if p.temporal != [] then 1 else 0)
    ensures StartsWith(r[0], "Analyzed content from ")
    ensures r[0] == "Analyzed content from " + Numbers.IntToString(|SourcesOf(p.text)|) + " sources: "
                    + Join(SourcesOf(p.text), ", ")
    ensures r[|r| - 1] == "Detected " + Numbers.IntToString(|ActionItems(p.text)|) + " potential action items"
  {
    var sources := SourcesOf(p.text);
    var head := "Analyzed content from " + Numbers.IntToString(|sources|) + " sources: " + Join(sources, ", ");
    assert head[..22] == "Analyzed content from ";
    [head]
    + (if p.indicators != [] then ["Found " + Numbers.IntToString(|p.indicators|) + " priority indicators"] else [])
    + (if p.temporal != [] then ["Identified " + Numbers.IntToString(|p.temporal|) + " time-sensitive items"] else [])
    + ["Detected " + Numbers.IntToString(|ActionItems(p.text)|) + " potential action items"]
  }

  /** The middle parts: the indicator count right after the sources, the
      time-sensitive count right before the action items. */
  lemma SummaryCountParts(p: Processed)
    ensures var r := SummaryParts(p);
      && (p.indicators != [] ==> r[1] == "Found " + Numbers.IntToString(|p.indicators|) + " priority indicators")
      && (p.temporal != [] ==> r[|r| - 2] == "Identified " + Numbers.IntToString(|p.temporal|) + " time-sensitive items")
  {
  }

  /** `create_context_summary(processed_context)`: the parts joined by ". ", with
      a closing period. */
  function ContextSummary(p: Processed): (r: string)
    ensures |r| > 0 && r[|r| - 1] == '.'
  {
    Join(SummaryParts(p), ". ") + "."
  }

  // ---- extract_tasks_from_context

  function TaggedLine(it: Item): string {
    "[" + it.source + "] " + it.content
  }

  /** The items tagged with their source and joined by blank lines. */
  function CombinedText(items: seq<Item>): (r: string)
    ensures items == [] ==> r == ""
    ensures items != [] ==> |r| > 0 && r[0] == '['
  {
    var lines := seq(|items|, i requires 0 <= i < |items| => TaggedLine(items[i]));
    if items == [] then ""
    else
      assert lines[0][0] == '[';
      assert |lines| == 1 || Join(lines, "\n\n") == lines[0] + "\n\n" + Join(lines[1..], "\n\n");
      Join(lines, "\n\n")
  }

  /** The combined text is blank exactly when there are no items: the engine is
      skipped only for empty content. */
  lemma BlankTextMeansNoItems(items: seq<Item>)
    ensures IsBlank(CombinedText(items)) <==> items == []
  {
    if items != [] {
      assert !IsSpace(CombinedText(items)[0]);
    }
  }

  /** One extracted task with its metadata: the source tag, the extraction time,
      and its own confidence or 0.7. */
  function TaskFromContext(task: Object, stamp: string): (r: Object)
    ensures "source" in r && r["source"] == Str("context_analysis")
    ensures "extraction_timestamp" in r && r["extraction_timestamp"] == Str(stamp)
    ensures "confidence" in r && r["confidence"] == Field(task, "confidence", Num(0.7))
    ensures forall k :: k in task && k !in {"source", "extraction_timestamp", "confidence"} ==> k in r && r[k] == task[k]
  {
    task["source" := Str("context_analysis")]["extraction_timestamp" := Str(stamp)]
        ["confidence" := Field(task, "confidence", Num(0.7))]
  }

  /** `extract_tasks_from_context(processed_context)`: `[]` without an engine call
      for blank text, `[]` on an error key or when the loop over the answer
      raises, else the extracted tasks with their metadata. */
  function ExtractTasks(o: Oracles, items: seq<Item>, stamp: string): (r: Value)
    ensures items == [] ==> r == Arr([])
    ensures items != [] ==>
      var answer := GeminiClient.StructuredResponse(o.engine, o.parse, GeminiClient.Prompt("extract_tasks", [CombinedText(items)]), "JSON");
      && ("error" in answer ==> r == Arr([]))
      && ("error" !in answer && Field(answer, "extracted_tasks", Arr([])).Arr? && AllObjects(Field(answer, "extracted_tasks", Arr([])).items) ==>
            var xs := Field(answer, "extracted_tasks", Arr([])).items;
            r.Arr? && |r.items| == |xs| && forall i :: 0 <= i < |xs| ==> r.items[i] == Obj(TaskFromContext(xs[i].fields, stamp)))
    ensures r.Arr? ==> forall i :: 0 <= i < |r.items| ==> r.items[i].Obj? && "source" in r.items[i].fields
  {
    var text := CombinedText(items);
    BlankTextMeansNoItems(items);
    if Strip(text) == "" then Arr([])
    else
      match GeminiClient.AnalyzeText(o.engine, o.parse, text, "extract_tasks")
      case Err(_) => Arr([])
      case Ok(answer) =>
        if "error" in answer then Arr([])
        else
          var extracted := Field(answer, "extracted_tasks", Arr([]));
          match DictItems(extracted)
          case None => Arr([])
          case Some(xs) =>
            if !AllObjects(xs) then Arr([])
            else if extracted.Arr? then Arr(seq(|xs|, i requires 0 <= i < |xs| => Obj(TaskFromContext(xs[i].fields, stamp))))
            else extracted
  }

  // ---- analyze_context

  datatype ContextAnalysis =
    | Analysis(extractedTasks: Value, priority: PriorityInsights, workload: WorkloadAnalysis, summary: string, timestamp: string)
    | AnalysisFailed
  {
    function Summary(): string {
      if AnalysisFailed? then "Analysis failed" else summary
    }

    function Tasks(): Value {
      if AnalysisFailed? then Arr([]) else extractedTasks
    }
  }

  /** `analyze_context(context_data)`: the five steps over the preprocessed
      content; the failure record (no tasks, "Analysis failed") exactly when
      preprocessing raises, the only step without its own handler. */
  function AnalyzeContext(o: Oracles, context: Object, stamp: string): (r: ContextAnalysis)
    ensures r.AnalysisFailed? <==> Preprocess(context, o.show).None?
    ensures r.AnalysisFailed? ==> r.Tasks() == Arr([]) && r.Summary() == "Analysis failed"
    ensures r.Analysis? ==> r.timestamp == stamp
  {
    match Preprocess(context, o.show)
    case None => AnalysisFailed
    case Some(p) =>
      Analysis(ExtractTasks(o, p.text, stamp), AnalyzePriorityPatterns(p.indicators), AnalyzeWorkload(p),
               ContextSummary(p), stamp)
  }

  /** A completed analysis agrees with the preprocessed content it was built
      from: no tasks without content, no more action items than items, insights
      exactly when there are indicators, and a summary sentence. */
  lemma AnalysisReflectsContent(o: Oracles, context: Object, stamp: string)
    requires Preprocess(context, o.show).Some?
    ensures var r, p := AnalyzeContext(o, context, stamp), Preprocess(context, o.show).value;
      && r.Analysis?
      && (p.text == [] ==> r.extractedTasks == Arr([]))
      && r.workload.actionItemCount <= |p.text|
      && (r.priority.NoIndicators? <==> p.indicators == [])
      && |r.summary| > 0 && r.summary[|r.summary| - 1] == '.'
  {
    var p := Preprocess(context, o.show).value;
    var r := AnalyzeContext(o, context, stamp);
    assert r.extractedTasks == ExtractTasks(o, p.text, stamp);
    assert r.workload == AnalyzeWorkload(p);
    assert r.priority == AnalyzePriorityPatterns(p.indicators);
    assert r.summary == ContextSummary(p);
  }
}

=== FILE: context_data.dfy ===
/** The optional context payload the AI services receive next to a task: nothing,
    a dict whose `content` entry holds the text, or a bare string. */
module ContextData {
  import opened Json

  /** A task as the AI services see it: a JSON-like dict (`title`, `description`,
      `id`, ...). */
  type Task = Json.Object

  /** A dict context may carry any value under `content`. */
  datatype Context =
    | Absent
    | Record(fields: Object)
    | Plain(text: string)

  /** Python's `bool(context_data)`. */
  predicate Provided(c: Context) {
    match c
    case Absent => false
    case Record(m) => m != map[]
    case Plain(t) => t != ""
  }

  /** `context_data.get('content', '')` for a dict, `str(context_data)` otherwise:
      the dict's entry is passed on whatever its type. */
  function RawContent(c: Context): (v: Value)
    ensures c.Absent? ==> v == Str("None")
    ensures c.Plain? ==> v == Str(c.text)
    ensures c.Record? && "content" !in c.fields ==> v == Str("")
    ensures c.Record? && "content" in c.fields ==> v == c.fields["content"]
  {
    match c
    case Absent => Str("None")
    case Record(m) => Field(m, "content", Str(""))
    case Plain(t) => Str(t)
  }

  /** The context text of `comprehensive_task_analysis` as the f-string renders
      it: empty for a falsy context. */
  function PromptText(c: Context, show: Value -> string): (t: string)
    ensures !Provided(c) ==> t == ""
    ensures Provided(c) && RawContent(c).Str? ==> t == RawContent(c).s
    ensures Provided(c) && !RawContent(c).Str? ==> t == show(RawContent(c))
  {
    if Provided(c) then Render(RawContent(c), show) else ""
  }
}

=== FILE: dates.dfy ===
/** Calendar dates as Python's proleptic Gregorian ordinals (`date.toordinal()`:
    0001-01-01 is day 1) and their `strftime('%Y-%m-%d')` text. `datetime.now()`
    is never read by the model: callers pass today's ordinal in. */
module Dates {
  import Numbers

  /** A Python `date` exists only from 0001-01-01 (ordinal 1) on. */
  type Ordinal = d: int | d >= 1 witness 1

  /** `date.max.toordinal()`: 9999-12-31 is the last day a Python date can hold,
      and date arithmetic past it raises `OverflowError`. */
  const MaxOrdinal := 3652059

  datatype Civil = Civil(year: int, month: int, day: int)

  predicate ValidCivil(c: Civil) {
    c.year >= 1 && 1 <= c.month <= 12 && 1 <= c.day <= MonthLength(c.year, c.month)
  }

  predicate IsLeap(y: int) {
    y % 4 == 0 && (y % 100 != 0 || y % 400 == 0)
  }

  function YearLength(y: int): nat {
    if IsLeap(y) then 366 else 365
  }

  function MonthLength(y: int, m: int): (n: nat)
    ensures 28 <= n <= 31
  {
    if m == 2 then (if IsLeap(y) then 29 else 28)
    else if m == 4 || m == 6 || m == 9 || m == 11 then 30
    else 31
  }

  /** Days in months `m` through December of year `y`. */
  function DaysFrom(y: int, m: int): nat
    requires 1 <= m <= 12
    decreases 12 - m
  {
    if m == 12 then 31 else MonthLength(y, m) + DaysFrom(y, m + 1)
  }

  /** The calendar date of an ordinal. */
  function CivilOf(ordinal: Ordinal): (c: Civil)
    ensures ValidCivil(c)
  {
    YearWalk(1, ordinal)
  }

  /** Day `d` (counting from 1) of the years starting with `y`. */
  function YearWalk(y: int, d: int): (c: Civil)
    requires y >= 1 && d >= 1
    ensures ValidCivil(c) && c.year >= y
    decreases d
  {
    if d > YearLength(y) then YearWalk(y + 1, d - YearLength(y))
    else
      assert DaysFrom(y, 1) == YearLength(y) by { YearLengthIsSum(y); }
      MonthWalk(y, 1, d)
  }

  /** Day `d` of year `y` counted from the first day of month `m`. */
  function MonthWalk(y: int, m: int, d: int): (c: Civil)
    requires y >= 1 && 1 <= m <= 12 && 1 <= d <= DaysFrom(y, m)
    ensures ValidCivil(c) && c.year == y && c.month >= m
    decreases 12 - m
  {
    if d <= MonthLength(y, m) then Civil(y, m, d)
    else MonthWalk(y, m + 1, d - MonthLength(y, m))
  }

  lemma YearLengthIsSum(y: int)
    ensures DaysFrom(y, 1) == YearLength(y)
  {
  }

  /** Days in the years before year `y` (Python's ordinal of `y`-01-01 minus one). */
  function DaysBeforeYear(y: int): nat
    requires y >= 1
    decreases y
  {
    if y == 1 then 0 else DaysBeforeYear(y - 1) + YearLength(y - 1)
  }

  /** Days in the months of year `y` before month `m`. */
  function DaysBeforeMonth(y: int, m: int): nat
    requires 1 <= m <= 12
    decreases m
  {
    if m == 1 then 0 else DaysBeforeMonth(y, m - 1) + MonthLength(y, m - 1)
  }

  /** Python's `date(year, month, day).toordinal()`. */
  function OrdinalOf(c: Civil): int
    requires ValidCivil(c)
  {
    DaysBeforeYear(c.year) + DaysBeforeMonth(c.year, c.month) + c.day
  }

  /** `date.fromordinal(n).toordinal() == n`: the calendar date of an ordinal
      counts back to the same ordinal. */
  lemma CivilRoundTrip(ordinal: Ordinal)
    ensures OrdinalOf(CivilOf(ordinal)) == ordinal
  {
    YearWalkCounts(1, ordinal);
  }

  lemma {:induction false} YearWalkCounts(y: int, d: int)
    requires y >= 1 && d >= 1
    ensures OrdinalOf(YearWalk(y, d)) == DaysBeforeYear(y) + d
    decreases d
  {
    var n := YearLength(y);
    if d > n {
      YearWalkCounts(y + 1, d - n);
      assert YearWalk(y, d) == YearWalk(y + 1, d - n);
      assert DaysBeforeYear(y + 1) == DaysBeforeYear(y) + n;
    } else {
      YearLengthIsSum(y);
      MonthWalkCounts(y, 1, d);
      var c := MonthWalk(y, 1, d);
      assert YearWalk(y, d) == c;
      assert OrdinalOf(c) == DaysBeforeYear(y) + DaysBeforeMonth(y, c.month) + c.day;
    }
  }

  lemma {:induction false} MonthWalkCounts(y: int, m: int, d: int)
    requires y >= 1 && 1 <= m <= 12 && 1 <= d <= DaysFrom(y, m)
    ensures var c := MonthWalk(y, m, d);
      DaysBeforeMonth(y, c.month) + c.day == DaysBeforeMonth(y, m) + d
    decreases 12 - m
  {
    if d > MonthLength(y, m) {
      MonthWalkCounts(y, m + 1, d - MonthLength(y, m));
    }
  }

  /** `n` in decimal, left-padded with zeros to at least `width` characters. */
  function Pad(n: nat, width: nat): (s: string)
    ensures |s| >= width
    ensures forall i :: 0 <= i < |s| ==> Numbers.IsDigit(s[i])
    decreases width
  {
    var digits := Numbers.NatToString(n);
    if |digits| >= width then digits else "0" + Pad(n, width - 1)
  }

  /** `date.strftime('%Y-%m-%d')` for a date whose year is at least 1. */
  function IsoDate(ordinal: Ordinal): string {
    var c := CivilOf(ordinal);
    Pad(c.year, 4) + "-" + Pad(c.month, 2) + "-" + Pad(c.day, 2)
  }

  /** Month and day always take exactly two digits, so a four-digit year gives
      the ten-character ISO form `YYYY-MM-DD`. */
  lemma {:induction false} IsoDateShape(ordinal: Ordinal)
    requires CivilOf(ordinal).year <= 9999
    ensures |IsoDate(ordinal)| == 10
    ensures IsoDate(ordinal)[4] == '-' && IsoDate(ordinal)[7] == '-'
  {
    var c := CivilOf(ordinal);
    PadExact(c.year, 4);
    PadExact(c.month, 2);
    PadExact(c.day, 2);
  }

  /** A number with at most `width` digits is padded to exactly `width` characters. */
  lemma {:induction false} PadExact(n: nat, width: nat)
    requires 1 <= width && n < Power10(width)
    ensures |Pad(n, width)| == width
    decreases width
  {
    NatToStringLength(n, width);
    var digits := Numbers.NatToString(n);
    if |digits| < width {
      PadExact(n, width - 1);
    }
  }

  function Power10(k: nat): (p: nat)
    ensures p >= 1
  {
    if k == 0 then 1 else 10 * Power10(k - 1)
  }

  /** `str(n)` has at most `width` characters when `n < 10^width`, and at least
      `width` characters when `n >= 10^(width-1)`. */
  lemma {:induction false} NatToStringLength(n: nat, width: nat)
    requires 1 <= width
    ensures n < Power10(width) ==> |Numbers.NatToString(n)| <= width
    ensures n >= Power10(width - 1) ==> |Numbers.NatToString(n)| >= width
    decreases width
  {
    if width > 1 && n >= 10 {
      NatToStringLength(n / 10, width - 1);
    } else if width > 1 && n < 10 {
      assert Power10(width - 1) >= 10 by { Power10Grows(width - 1); }
    }
  }

  lemma {:induction false} Power10Grows(k: nat)
    requires k >= 1
    ensures Power10(k) >= 10
  {
    if k > 1 { Power10Grows(k - 1); }
  }
}

=== FILE: deadline_suggester.dfy ===
/** `backend/ai_service/deadline_suggester.py`: the hour estimate, the daily
    capacity, the dependency delay, the three deadline offsets and the confidence
    of the suggestion list. */
module DeadlineSuggester {
  import opened Base
  import Text
  import Numbers
  import opened Json
  import GeminiClient
  import Dates

  /** The engine and the renderings the suggester needs: `show` is Python's
      `str()` of a value and `repr` its `str()` of a float, `clock(n)` the ISO
      timestamp of "now + n days", and `today` the ordinal of the date
      `datetime.now()` falls on. */
  datatype Oracles = Oracles(engine: GeminiClient.Engine, parse: GeminiClient.Parser, show: Value -> string,
                             repr: real -> string, clock: int -> string, today: Dates.Ordinal)

  // ---- analyze_task_complexity

  /** `analyze_task_complexity(task)`: the engine's analysis, or `{}` when it
      carries an `"error"` key. */
  function ComplexityAnalysis(o: Oracles, task: Object): (r: Object)
    ensures "error" !in r
  {
    var prompt := GeminiClient.Prompt("task_complexity", [
      Render(Field(task, "title", Str("")), o.show), Render(Field(task, "description", Str("")), o.show),
      Render(Field(task, "category", Str("Unknown")), o.show)]);
    var answer := GeminiClient.StructuredResponse(o.engine, o.parse, prompt, "JSON");
    if "error" in answer then map[] else answer
  }

  // ---- estimate_hours_from_task

  const QuickWords: seq<string> := ["quick", "simple", "basic"]
  const ReviewWords: seq<string> := ["review", "check", "verify"]
  const BuildWords: seq<string> := ["create", "build", "develop"]
  const ComplexWords: seq<string> := ["complex", "detailed", "comprehensive"]

  /** Some word of `keys` occurs in the title or in the description. */
  predicate Mentions(title: string, description: string, keys: seq<string>) {
    Text.MentionsAny(title, keys) || Text.MentionsAny(description, keys)
  }

  /** The keyword estimate on lower-cased text: the first group that matches
      decides (quick 1, review 2, build 4, complex 6), else 3. */
  function HoursHeuristic(title: string, description: string): (h: real)
    ensures h == 1.0 <==> Mentions(title, description, QuickWords)
    ensures h == 2.0 <==> !Mentions(title, description, QuickWords) && Mentions(title, description, ReviewWords)
    ensures h == 4.0 <==> !Mentions(title, description, QuickWords + ReviewWords) && Mentions(title, description, BuildWords)
    ensures h == 6.0 <==> !Mentions(title, description, QuickWords + ReviewWords + BuildWords)
                          && Mentions(title, description, ComplexWords)
    ensures h == 3.0 <==> !Mentions(title, description, QuickWords + ReviewWords + BuildWords + ComplexWords)
  {
    MentionsConcat(title, description, QuickWords, ReviewWords);
    MentionsConcat(title, description, QuickWords + ReviewWords, BuildWords);
    MentionsConcat(title, description, QuickWords + ReviewWords + BuildWords, ComplexWords);
    if Mentions(title, description, QuickWords) then 1.0
    else if Mentions(title, description, ReviewWords) then 2.0
    else if Mentions(title, description, BuildWords) then 4.0
    else if Mentions(title, description, ComplexWords) then 6.0
    else 3.0
  }

  lemma MentionsConcat(title: string, description: string, a: seq<string>, b: seq<string>)
    ensures Mentions(title, description, a + b) <==> Mentions(title, description, a) || Mentions(title, description, b)
  {
    if Mentions(title, description, a + b) {
      var k :| k in a + b && (Text.Contains(title, k) || Text.Contains(description, k));
      assert k in a || k in b;
    }
    if Mentions(title, description, a) {
      var k :| k in a && (Text.Contains(title, k) || Text.Contains(description, k));
      assert k in a + b;
    }
    if Mentions(title, description, b) {
      var k :| k in b && (Text.Contains(title, k) || Text.Contains(description, k));
      assert k in a + b;
    }
  }

  /** `estimate_hours_from_task(task)`: `None` where `.lower()` meets a title,
      description or category that is not a string. */
  function HoursFromTask(task: Object): (r: Option<real>)
    ensures r.Some? <==> Field(task, "title", Str("")).Str? && Field(task, "description", Str("")).Str?
                         && Field(task, "category", Str("")).Str?
    ensures r.Some? ==> r.value == HoursHeuristic(Text.Lower(Field(task, "title", Str("")).s),
                                                  Text.Lower(Field(task, "description", Str("")).s))
  {
    match (Field(task, "title", Str("")), Field(task, "description", Str("")), Field(task, "category", Str("")))
    case (Str(t), Str(d), Str(_)) => Some(HoursHeuristic(Text.Lower(t), Text.Lower(d)))
    case _ => None
  }

  // ---- estimate_time_requirements

  function CoordinationFactor(coordination: bool): real { if coordination then 1.5 else 1.0 }

  function ResearchFactor(research: bool): real { if research then 1.3 else 1.0 }

  /** `1 + (complexity_score - 5) * 0.1`. */
  function ComplexityMultiplier(complexity: real): real { 1.0 + (complexity - 5.0) * 0.1 }

  /** The unrounded total hours. */
  function Hours(base: real, complexity: real, coordination: bool, research: bool): real {
    base * CoordinationFactor(coordination) * ResearchFactor(research) * ComplexityMultiplier(complexity)
  }

  /** A neutral analysis keeps the base; coordination adds half, research adds
      30%, and each complexity point above 5 adds a tenth of the base. */
  lemma HoursScaling(base: real, complexity: real, coordination: bool, research: bool)
    ensures Hours(base, 5.0, false, false) == base
    ensures Hours(base, complexity, true, research) == 1.5 * Hours(base, complexity, false, research)
    ensures Hours(base, complexity, coordination, true) == 1.3 * Hours(base, complexity, coordination, false)
    ensures Hours(base, complexity + 1.0, coordination, research)
         == Hours(base, complexity, coordination, research) + 0.1 * Hours(base, 5.0, coordination, research)
  {
    var k := base * CoordinationFactor(coordination) * ResearchFactor(research);
    assert Hours(base, complexity, coordination, research) == k * ComplexityMultiplier(complexity);
    assert Hours(base, 5.0, coordination, research) == k;
    assert k * ComplexityMultiplier(complexity + 1.0) == k * ComplexityMultiplier(complexity) + 0.1 * k;
  }

  /** The time estimate: the computed record, or `{base_hours: 2, total_hours: 2}`
      when a step raises. */
  datatype TimeRequirements =
    | Estimated(baseHours: Value, totalHours: real, complexityMultiplier: real,
                coordinationFactor: real, researchFactor: real)
    | DefaultTime

  /** `time_requirements.get('total_hours', 3)`: the key is always present. */
  function TotalHoursOf(t: TimeRequirements): real {
    match t
    case Estimated(_, total, _, _, _) => total
    case DefaultTime => 2.0
  }

  /** The base hours `estimate_time_requirements` starts from: the analysis's own
      `estimated_hours`, else the keyword estimate (`None` if that raises). */
  function BaseHours(task: Object, analysis: Object): (r: Option<Value>)
    ensures "estimated_hours" in analysis ==> r == Some(analysis["estimated_hours"])
    ensures "estimated_hours" !in analysis ==>
      (r.Some? <==> HoursFromTask(task).Some?) && (r.Some? ==> r.value == Num(HoursFromTask(task).value))
  {
    if "estimated_hours" in analysis then Some(analysis["estimated_hours"])
    else match HoursFromTask(task)
      case Some(h) => Some(Num(h))
      case None => None
  }

  /** `estimate_time_requirements(task, complexity_analysis)`. Multiplying a
      base or complexity that is not a number raises `TypeError`. */
  function EstimateTime(task: Object, analysis: Object): (r: TimeRequirements)
    ensures r.Estimated? <==>
      BaseHours(task, analysis).Some? && NumOf(BaseHours(task, analysis).value).Some?
      && NumOf(Field(analysis, "complexity_score", Num(5.0))).Some?
    ensures r.Estimated? ==>
      var base := NumOf(BaseHours(task, analysis).value).value;
      var complexity := NumOf(Field(analysis, "complexity_score", Num(5.0))).value;
      var coordination := Truthy(Field(analysis, "coordination_needed", Bool(false)));
      var research := Truthy(Field(analysis, "research_required", Bool(false)));
      && r.baseHours == BaseHours(task, analysis).value
      && -0.05 <= r.totalHours - Hours(base, complexity, coordination, research) <= 0.05
      && r.complexityMultiplier == ComplexityMultiplier(complexity)
      && r.coordinationFactor == CoordinationFactor(coordination)
      && r.researchFactor == ResearchFactor(research)
  {
    match BaseHours(task, analysis)
    case None => DefaultTime
    case Some(b) =>
      match (NumOf(b), NumOf(Field(analysis, "complexity_score", Num(5.0))))
      case (Some(base), Some(complexity)) =>
        var coordination := Truthy(Field(analysis, "coordination_needed", Bool(false)));
        var research := Truthy(Field(analysis, "research_required", Bool(false)));
        Estimated(b, Numbers.RoundTenth(Hours(base, complexity, coordination, research)),
                  ComplexityMultiplier(complexity), CoordinationFactor(coordination), ResearchFactor(research))
      case _ => DefaultTime
  }

  // ---- analyze_schedule_availability

  /** Hours per day a workload level leaves: 2 when high, 4 when medium, else 6. */
  function DailyCapacity(level: Value): (r: real)
    ensures level == Str("high") ==> r == 2.0
    ensures level == Str("medium") ==> r == 4.0
    ensures level != Str("high") && level != Str("medium") ==> r == 6.0
  {
    if level == Str("high") then 2.0 else if level == Str("medium") then 4.0 else 6.0
  }

  /** The schedule record, or the fixed fallback when `count * 0.5` raises. */
  datatype Schedule =
    | Schedule(level: Value, dailyCapacity: real, existingLoad: real, available: real, recommended: real)
    | DefaultSchedule

  /** `schedule_analysis.get('available_capacity', 3)`: the key is always present. */
  function AvailableOf(s: Schedule): real {
    match s
    case Schedule(_, _, _, available, _) => available
    case DefaultSchedule => 3.0
  }

  /** `analyze_schedule_availability(context, workload)` (the context is unused). */
  function AnalyzeSchedule(workload: Object): (r: Schedule)
    ensures r.Schedule? <==> NumOf(Field(workload, "action_item_count", Num(0.0))).Some?
    ensures r.Schedule? ==>
      var count := NumOf(Field(workload, "action_item_count", Num(0.0))).value;
      && r.level == Field(workload, "workload_level", Str("normal"))
      && r.dailyCapacity == DailyCapacity(r.level)
      && r.existingLoad == Min(0.5 * count, 0.7 * r.dailyCapacity)
      && r.available == r.dailyCapacity - r.existingLoad
      && r.recommended == Min(r.available, 4.0)
    ensures r.Schedule? ==> r.available >= 0.3 * r.dailyCapacity
    ensures AvailableOf(r) > 0.0
  {
    match NumOf(Field(workload, "action_item_count", Num(0.0)))
    case None => DefaultSchedule
    case Some(count) =>
      var level := Field(workload, "workload_level", Str("normal"));
      var capacity := DailyCapacity(level);
      var load := Min(count * 0.5, capacity * 0.7);
      var available := capacity - load;
      Schedule(level, capacity, load, Max(0.0, available), Min(available, 4.0))
  }

  // ---- analyze_dependencies / tasks_are_related

  const DependencyKeywords: seq<string> := ["after", "depends on", "waiting for", "blocked by", "requires", "following"]

  datatype Dependency = Explicit(keyword: string) | Implicit(relatedTask: string)

  /** The keyword occurs in the description or in the title. */
  function FoundIn(description: string, title: string): string -> bool {
    k => Text.Contains(description, k) || Text.Contains(title, k)
  }

  /** One explicit dependency per keyword of `keys` found in the description or
      the title, in keyword order. */
  function ExplicitDependencies(description: string, title: string, keys: seq<string>): (r: seq<Dependency>)
    ensures |r| <= |keys|
    ensures |r| == |Positions(keys, FoundIn(description, title))|
    ensures forall d :: d in r ==>
      (d.Explicit? && d.keyword in keys && (Text.Contains(description, d.keyword) || Text.Contains(title, d.keyword)))
    ensures forall k :: k in keys && (Text.Contains(description, k) || Text.Contains(title, k)) ==> Explicit(k) in r
    decreases |keys|
  {
    if keys == [] then []
    else
      var init := keys[..|keys| - 1];
      var last := keys[|keys| - 1];
      assert keys == init + [last];
      PositionsOfSnoc(keys, FoundIn(description, title));
      var rest := ExplicitDependencies(description, title, init);
      if Text.Contains(description, last) || Text.Contains(title, last) then rest + [Explicit(last)]
      else rest
  }

  /** `set(a.split()) & set(b.split())`. */
  function CommonWords(a: string, b: string): set<string> {
    set w | w in Text.Words(a) && w in Text.Words(b)
  }

  /** Two titles are related when, lower-cased, they share at least two words. */
  predicate TitlesRelated(a: string, b: string) {
    |CommonWords(Text.Lower(a), Text.Lower(b))| >= 2
  }

  lemma TitlesRelatedIsSymmetric(a: string, b: string)
    ensures TitlesRelated(a, b) <==> TitlesRelated(b, a)
  {
    assert CommonWords(Text.Lower(a), Text.Lower(b)) == CommonWords(Text.Lower(b), Text.Lower(a));
  }

  /** `tasks_are_related(task1, task2)`: `None` where `.get` meets a non-dict or
      `.lower()` a title that is not a string. */
  function TasksAreRelated(task1: Object, task2: Value): (r: Option<bool>)
    ensures r.Some? <==> Field(task1, "title", Str("")).Str? && task2.Obj? && Field(task2.fields, "title", Str("")).Str?
    ensures r.Some? ==> r.value == TitlesRelated(Field(task1, "title", Str("")).s, Field(task2.fields, "title", Str("")).s)
  {
    match (Field(task1, "title", Str("")), task2)
    case (Str(a), Obj(m)) =>
      (match Field(m, "title", Str(""))
       case Str(b) => Some(TitlesRelated(a, b))
       case _ => None)
    case _ => None
  }

  /** The extracted task is related to `task` (and Python reads both titles). */
  function RelatedTo(task: Object): Value -> bool {
    x => TasksAreRelated(task, x) == Some(true)
  }

  /** `extracted_task.get('title', '')` for a dict whose title is a string. */
  function TitleOf(x: Value): string {
    if x.Obj? && Field(x.fields, "title", Str("")).Str? then Field(x.fields, "title", Str("")).s else ""
  }

  /** One implicit dependency per related extracted task, in order, naming that
      task's title; `None` if one of them makes Python raise. */
  function ImplicitDependencies(task: Object, xs: seq<Value>): (r: Option<seq<Dependency>>)
    ensures r.Some? <==> forall i :: 0 <= i < |xs| ==> TasksAreRelated(task, xs[i]).Some?
    ensures r.Some? ==> |r.value| == |Positions(xs, RelatedTo(task))|
    decreases |xs|
  {
    if xs == [] then Some([])
    else
      var init := xs[..|xs| - 1];
      var last := xs[|xs| - 1];
      assert xs == init + [last];
      match ImplicitDependencies(task, init)
      case None => None
      case Some(rest) =>
        match TasksAreRelated(task, last)
        case None => None
        case Some(related) =>
          PositionsOfSnoc(xs, RelatedTo(task));
          Some(if related then rest + [Implicit(TitleOf(last))] else rest)
  }

  /** The dependency recorded for a related extracted task. */
  function ImplicitOf(x: Value): Dependency {
    Implicit(TitleOf(x))
  }

  /** The implicit dependencies name exactly the titles of the related extracted
      tasks. */
  lemma {:induction false} ImplicitDependenciesNameRelatedTasks(task: Object, xs: seq<Value>)
    requires ImplicitDependencies(task, xs).Some?
    ensures ImagesOf(ImplicitDependencies(task, xs).value, xs, RelatedTo(task), ImplicitOf)
    decreases |xs|
  {
    if xs != [] {
      var init := xs[..|xs| - 1];
      ImplicitDependenciesNameRelatedTasks(task, init);
      ImagesOfSnoc(ImplicitDependencies(task, init).value, init, RelatedTo(task), ImplicitOf,
                   ImplicitDependencies(task, xs).value, xs);
    }
  }

  /** `analyze_dependencies(task, context)`: explicit keyword dependencies, then
      the related extracted tasks; no dependencies at all when a step raises (a
      title or description that is not a string, extracted tasks that cannot be
      iterated or whose titles cannot be read). */
  function AnalyzeDependencies(task: Object, context: Object): (r: seq<Dependency>)
    ensures !Field(task, "description", Str("")).Str? || !Field(task, "title", Str("")).Str? ==> r == []
    ensures DictItems(Field(context, "extracted_tasks", Arr([]))).None? ==> r == []
    ensures var items := DictItems(Field(context, "extracted_tasks", Arr([])));
      items.Some? && ImplicitDependencies(task, items.value).None? ==> r == []
    ensures (Field(task, "description", Str("")).Str? && Field(task, "title", Str("")).Str?
             && DictItems(Field(context, "extracted_tasks", Arr([]))).Some?
             && ImplicitDependencies(task, DictItems(Field(context, "extracted_tasks", Arr([]))).value).Some?) ==>
      r == ExplicitDependencies(Text.Lower(Field(task, "description", Str("")).s),
                                Text.Lower(Field(task, "title", Str("")).s), DependencyKeywords)
           + ImplicitDependencies(task, DictItems(Field(context, "extracted_tasks", Arr([]))).value).value
  {
    match (Field(task, "description", Str("")), Field(task, "title", Str("")))
    case (Str(d), Str(t)) =>
      var explicit := ExplicitDependencies(Text.Lower(d), Text.Lower(t), DependencyKeywords);
      (match DictItems(Field(context, "extracted_tasks", Arr([])))
       case None => []
       case Some(xs) =>
         match ImplicitDependencies(task, xs)
         case None => []
         case Some(implicit) => explicit + implicit)
    case _ => []
  }

  /** `estimated_delay_days`: one day per dependency. */
  function DelayDays(deps: seq<Dependency>): (d: nat)
    ensures d == |deps|
  {
    |deps|
  }

  // ---- generate_deadline_suggestions

  /** Python's `int(x)`: truncation toward zero. */
  function Trunc(x: real): (r: int)
    ensures x >= 0.0 ==> r == x.Floor
    ensures x < 0.0 ==> r == -((-x).Floor)
  {
    if x >= 0.0 then x.Floor else -((-x).Floor)
  }

  /** `max(1, round(hours / capacity))`, with 3 hours a day when the capacity is not positive. */
  function WorkingDays(hours: real, capacity: real): (d: int)
    ensures d >= 1
    ensures var rate := if capacity > 0.0 then capacity else 3.0;
      hours / rate >= 0.5 ==> -0.5 <= d as real - hours / rate <= 0.5
    ensures var rate := if capacity > 0.0 then capacity else 3.0;
      d == 1 <==> hours / rate < 1.5
    ensures var rate := if capacity > 0.0 then capacity else 3.0;
      hours / rate >= 1.5 ==> d == Numbers.RoundHalfEven(hours / rate)
  {
    var rate := if capacity > 0.0 then capacity else 3.0;
    var n := Numbers.RoundHalfEven(hours / rate);
    if n >= 1 then n else 1
  }

  datatype Suggestion = Suggestion(kind: string, days: int, reasoning: string)

  /** `generate_deadline_suggestions`: conservative (half again the days), realistic
      (the days) and, when more than one day is needed, aggressive (70%, at least 1). */
  function DeadlineSuggestions(hours: real, capacity: real, delay: int, repr: real -> string): (r: seq<Suggestion>)
    ensures var total := WorkingDays(hours, capacity) + delay;
      && (|r| == 3 <==> total > 1) && (|r| == 2 <==> total <= 1)
      && r[0].kind == "conservative" && r[0].days == Trunc(total as real * 1.5)
      && r[1].kind == "realistic" && r[1].days == total
      && (|r| == 3 ==> r[2].kind == "aggressive" && r[2].days == if Trunc(total as real * 0.7) >= 1 then Trunc(total as real * 0.7) else 1)
    ensures forall i :: 0 <= i < |r| ==> r[i].reasoning != ""
  {
    var total := WorkingDays(hours, capacity) + delay;
    var conservative := Suggestion("conservative", Trunc(total as real * 1.5),
      "Conservative estimate with 50% buffer for " + Numbers.IntToString(total) + " working days");
    var realistic := Suggestion("realistic", total,
      "Realistic estimate based on " + repr(hours) + " hours of work");
    if total > 1 then
      var aggressive := Trunc(total as real * 0.7);
      [conservative, realistic,
       Suggestion("aggressive", if aggressive >= 1 then aggressive else 1, "Aggressive estimate with 30% reduction in timeline")]
    else [conservative, realistic]
  }

  /** With no negative delay, conservative ≥ realistic ≥ aggressive ≥ 1. */
  lemma DeadlinesAreOrdered(hours: real, capacity: real, delay: int, repr: real -> string)
    requires delay >= 0
    ensures var r := DeadlineSuggestions(hours, capacity, delay, repr);
      && r[0].days >= r[1].days >= 1
      && (|r| == 3 ==> r[1].days > r[2].days >= 1)
  {
    var total := WorkingDays(hours, capacity) + delay;
    assert total as real * 1.5 >= total as real;
    assert (total as real * 1.5).Floor >= total;
    if total > 1 {
      assert total as real * 0.7 < total as real;
      assert (total as real * 0.7).Floor < total;
    }
  }

  /** A suggestion list that runs from its most conservative entry down to one
      that is still at least a day away. */
  predicate Ordered(ss: seq<Suggestion>) {
    ss != [] && ss[0].days >= ss[|ss| - 1].days >= 1
  }

  /** `datetime.now() + timedelta(days=days)` exists: the day lies between
      0001-01-01 and 9999-12-31. */
  predicate InCalendar(today: int, days: int) {
    1 <= today + days <= Dates.MaxOrdinal
  }

  /** Every suggestion's date exists. */
  predicate AllInCalendar(today: int, ss: seq<Suggestion>) {
    forall i :: 0 <= i < |ss| ==> InCalendar(today, ss[i].days)
  }

  const FallbackDays := 3

  /** The single suggestion of the `except` branch. */
  function FallbackSuggestion(): Suggestion {
    Suggestion("fallback", FallbackDays, "Fallback suggestion due to calculation error")
  }

  /** The message of the `OverflowError` date arithmetic raises past 9999-12-31. */
  const OutOfRange := "date value out of range"

  /** The date step of `generate_deadline_suggestions`, counted from `today`: the
      computed suggestions when every date exists; otherwise the handler's single
      three-day fallback, whose own date computation raises in turn when that day
      does not exist either. */
  function DatedSuggestions(ss: seq<Suggestion>, today: int): (r: Result<seq<Suggestion>>)
    ensures AllInCalendar(today, ss) ==> r == Ok(ss)
    ensures !AllInCalendar(today, ss) ==>
      && (r.Ok? <==> InCalendar(today, FallbackDays))
      && (r.Ok? ==> r.value == [FallbackSuggestion()])
      && (r.Err? ==> r.msg == OutOfRange)
    ensures r.Ok? && Ordered(ss) ==> Ordered(r.value)
  {
    if AllInCalendar(today, ss) then Ok(ss)
    else if InCalendar(today, FallbackDays) then Ok([FallbackSuggestion()])
    else Err(OutOfRange)
  }

  /** With no negative delay and a real today, the computed dates all exist exactly
      when the conservative one, the latest, does. */
  lemma SuggestionsFitIffConservativeFits(hours: real, capacity: real, delay: int, repr: real -> string, today: int)
    requires delay >= 0 && today >= 1
    ensures var ss := DeadlineSuggestions(hours, capacity, delay, repr);
      AllInCalendar(today, ss) <==> today + ss[0].days <= Dates.MaxOrdinal
  {
    DeadlinesAreOrdered(hours, capacity, delay, repr);
  }

  /** The suggestion as the dict the service returns. */
  function ToValue(s: Suggestion, clock: int -> string): (v: Value)
    ensures v.Obj? && "type" in v.fields && v.fields["type"] == Str(s.kind)
    ensures "reasoning" in v.fields
  {
    Obj(map["type" := Str(s.kind), "deadline" := Str(clock(s.days)),
            "days_from_now" := Num(s.days as real), "reasoning" := Str(s.reasoning)])
  }

  function ToValues(ss: seq<Suggestion>, clock: int -> string): (vs: seq<Value>)
    ensures |vs| == |ss|
    ensures forall i :: 0 <= i < |ss| ==> vs[i] == ToValue(ss[i], clock)
  {
    seq(|ss|, i requires 0 <= i < |ss| => ToValue(ss[i], clock))
  }

  // ---- calculate_deadline_confidence

  /** `s['type']` of one suggestion: `None` where Python raises (a non-dict, a
      dict without `type`). */
  function TypeOf(v: Value): (r: Option<Value>)
    ensures r.Some? <==> v.Obj? && "type" in v.fields
  {
    if v.Obj? && "type" in v.fields then Some(v.fields["type"]) else None
  }

  /** `any(s['type'] == 'realistic' for s in xs)`, stopping at the first hit. */
  function AnyRealistic(xs: seq<Value>): Option<bool>
    decreases |xs|
  {
    if xs == [] then Some(false)
    else
      match TypeOf(xs[0])
      case None => None
      case Some(t) => if t == Str("realistic") then Some(true) else AnyRealistic(xs[1..])
  }

  /** The scan answers true exactly when some suggestion is realistic and every
      suggestion before it has a `type`. */
  lemma {:induction false} AnyRealisticMeans(xs: seq<Value>)
    ensures AnyRealistic(xs) == Some(true) <==>
      exists i :: 0 <= i < |xs| && TypeOf(xs[i]) == Some(Str("realistic")) && forall j :: 0 <= j < i ==> TypeOf(xs[j]).Some?
    decreases |xs|
  {
    if xs != [] && TypeOf(xs[0]).Some? && TypeOf(xs[0]) != Some(Str("realistic")) {
      AnyRealisticMeans(xs[1..]);
      if AnyRealistic(xs) == Some(true) {
        var i :| 0 <= i < |xs[1..]| && TypeOf(xs[1..][i]) == Some(Str("realistic"))
                 && forall j :: 0 <= j < i ==> TypeOf(xs[1..][j]).Some?;
        assert TypeOf(xs[i + 1]) == Some(Str("realistic"));
        forall j | 0 <= j < i + 1 ensures TypeOf(xs[j]).Some? {
          if j > 0 { assert xs[j] == xs[1..][j - 1]; }
        }
      }
      if exists i :: 0 <= i < |xs| && TypeOf(xs[i]) == Some(Str("realistic")) && forall j :: 0 <= j < i ==> TypeOf(xs[j]).Some? {
        var i :| 0 <= i < |xs| && TypeOf(xs[i]) == Some(Str("realistic")) && forall j :: 0 <= j < i ==> TypeOf(xs[j]).Some?;
        assert TypeOf(xs[1..][i - 1]) == Some(Str("realistic"));
        forall j | 0 <= j < i - 1 ensures TypeOf(xs[1..][j]).Some? {
          assert xs[1..][j] == xs[j + 1];
        }
      }
    }
  }

  /** Python's `'reasoning' in s`: a key of a dict, a substring of a string, an
      element of a list; `None` (TypeError) for anything else. */
  function HasReasoning(v: Value): (r: Option<bool>)
    ensures v.Obj? ==> r == Some("reasoning" in v.fields)
    ensures (v.Null? || v.Bool? || v.Num?) ==> r == None
  {
    match v
    case Obj(m) => Some("reasoning" in m)
    case Str(s) => Some(Text.Contains(s, "reasoning"))
    case Arr(items) => Some(Str("reasoning") in items)
    case _ => None
  }

  /** `all('reasoning' in s for s in xs)`, stopping at the first miss. */
  function AllReasoned(xs: seq<Value>): (r: Option<bool>)
    ensures (forall i :: 0 <= i < |xs| ==> HasReasoning(xs[i]) == Some(true)) ==> r == Some(true)
    ensures r == Some(true) ==> forall i :: 0 <= i < |xs| ==> HasReasoning(xs[i]) == Some(true)
    decreases |xs|
  {
    if xs == [] then Some(true)
    else
      match HasReasoning(xs[0])
      case None => None
      case Some(false) => Some(false)
      case Some(true) =>
        var rest := AllReasoned(xs[1..]);
        assert forall i :: 1 <= i < |xs| ==> xs[i] == xs[1..][i - 1];
        rest
  }

  /** `calculate_deadline_confidence(suggestions)`: 0 for none; else 0.7 plus a
      tenth each for three or more suggestions, a realistic one and reasoning on
      all, capped at 1; 0.5 when a lookup raises. */
  function DeadlineConfidence(xs: seq<Value>): (r: real)
    ensures xs == [] ==> r == 0.0
    ensures xs != [] ==> r == 0.5 || 0.7 <= r <= 1.0
    ensures xs != [] && AnyRealistic(xs).Some? && AllReasoned(xs).Some? ==>
      r == Min(1.0, 0.7 + (if |xs| >= 3 then 0.1 else 0.0)
                        + (if AnyRealistic(xs).value then 0.1 else 0.0)
                        + (if AllReasoned(xs).value then 0.1 else 0.0))
    ensures xs != [] && (AnyRealistic(xs).None? || AllReasoned(xs).None?) ==> r == 0.5
  {
    if xs == [] then 0.0
    else
      match (AnyRealistic(xs), AllReasoned(xs))
      case (Some(realistic), Some(reasoned)) =>
        Min(1.0, 0.7 + (if |xs| >= 3 then 0.1 else 0.0) + (if realistic then 0.1 else 0.0)
                     + (if reasoned then 0.1 else 0.0))
      case _ => 0.5
  }

  /** The service's own suggestion lists score 0.9 with two entries and 1.0 with three. */
  lemma SuggestionsConfidence(hours: real, capacity: real, delay: int, repr: real -> string, clock: int -> string)
    ensures var r := DeadlineSuggestions(hours, capacity, delay, repr);
      DeadlineConfidence(ToValues(r, clock)) == if |r| == 3 then 1.0 else 0.9
  {
    var r := DeadlineSuggestions(hours, capacity, delay, repr);
    var vs := ToValues(r, clock);
    assert TypeOf(vs[0]) == Some(Str("conservative"));
    assert vs[1..][0] == vs[1] && TypeOf(vs[1]) == Some(Str("realistic"));
    assert AnyRealistic(vs) == Some(true);
    assert forall i :: 0 <= i < |vs| ==> HasReasoning(vs[i]) == Some(true);
    assert AllReasoned(vs) == Some(true);
  }

  /** The fallback list scores 0.8: one entry, not realistic, with reasoning. */
  lemma FallbackConfidence(clock: int -> string)
    ensures DeadlineConfidence(ToValues([FallbackSuggestion()], clock)) == 0.8
  {
    var vs := ToValues([FallbackSuggestion()], clock);
    assert TypeOf(vs[0]) == Some(Str("fallback"));
    assert AnyRealistic(vs[1..]) == Some(false);
    assert AnyRealistic(vs) == Some(false);
    assert HasReasoning(vs[0]) == Some(true);
    assert AllReasoned(vs) == Some(true);
  }

  // ---- generate_deadline_reasoning

  /** The suggestion the reasoning explains: the first realistic one, else the first. */
  function ExplainedIndex(ss: seq<Suggestion>): (i: nat)
    requires ss != []
    ensures i < |ss|
    ensures forall j :: 0 <= j < i ==> ss[j].kind != "realistic"
    ensures ss[i].kind == "realistic" || (i == 0 && forall j :: 0 <= j < |ss| ==> ss[j].kind != "realistic")
    decreases |ss|
  {
    if ss[0].kind == "realistic" || |ss| == 1 then 0
    else
      var k := ExplainedIndex(ss[1..]);
      if ss[1..][k].kind == "realistic" then k + 1 else 0
  }

  /** `generate_deadline_reasoning(task, suggestions)`. */
  function DeadlineReasoning(o: Oracles, task: Object, ss: seq<Suggestion>): (r: string)
    ensures ss == [] ==> r == "Unable to generate deadline suggestions."
    ensures ss != [] ==>
      var chosen := ss[ExplainedIndex(ss)];
      var reply := o.engine(GeminiClient.Prompt("deadline_reasoning", [
        Render(Field(task, "title", Str("")), o.show), o.clock(chosen.days), Numbers.IntToString(chosen.days), chosen.reasoning]));
      && (reply.Answer? && reply.text != "" ==> r == reply.text)
      && (reply.Answer? && reply.text == "" ==> r == chosen.reasoning)
      && (reply.Failure? ==> r == "Deadline suggestion based on task analysis.")
  {
    if ss == [] then "Unable to generate deadline suggestions."
    else
      var chosen := ss[ExplainedIndex(ss)];
      var prompt := GeminiClient.Prompt("deadline_reasoning", [
        Render(Field(task, "title", Str("")), o.show), o.clock(chosen.days), Numbers.IntToString(chosen.days), chosen.reasoning]);
      match o.engine(prompt)
      case Answer(text) => if text != "" then text else chosen.reasoning
      case Failure(_) => "Deadline suggestion based on task analysis."
  }

  // ---- suggest_deadline

  datatype DeadlineResult = DeadlineResult(
    suggestions: seq<Suggestion>, reasoning: string, confidence: real,
    complexity: Option<Object>, time: Option<TimeRequirements>, error: Option<string>)

  /** The record of the outer `except` branch: no suggestions, confidence 0. */
  function DeadlineFailure(msg: string): (r: DeadlineResult)
    ensures r.suggestions == [] && r.error == Some(msg)
    ensures r.confidence == DeadlineConfidence([])
  {
    DeadlineResult([], "Deadline suggestion failed: " + msg, 0.0, None, None, Some(msg))
  }

  /** The record of a successful run: the suggestions, their reasoning and their
      confidence, with the analyses they came from. */
  function Suggested(o: Oracles, task: Object, ss: seq<Suggestion>, complexity: Object, time: TimeRequirements)
    : (r: DeadlineResult)
    ensures r.suggestions == ss && r.error.None?
    ensures r.confidence == DeadlineConfidence(ToValues(ss, o.clock))
  {
    DeadlineResult(ss, DeadlineReasoning(o, task, ss), DeadlineConfidence(ToValues(ss, o.clock)),
                   Some(complexity), Some(time), None)
  }

  /** The suggestion list computed from the task's hours, the free capacity and the
      dependency delay, before any date is taken. */
  function Plan(o: Oracles, task: Object, context: Object, workload: Object): (ss: seq<Suggestion>)
    ensures 2 <= |ss| <= 3
  {
    DeadlineSuggestions(TotalHoursOf(EstimateTime(task, ComplexityAnalysis(o, task))),
                        AvailableOf(AnalyzeSchedule(workload)), DelayDays(AnalyzeDependencies(task, context)), o.repr)
  }

  /** What `suggest_deadline` answers for a computed suggestion list `plan`: the
      list itself when all its dates exist; otherwise the single fallback; and the
      failure record when even the fallback's date does not exist. */
  predicate Concludes(o: Oracles, plan: seq<Suggestion>, r: DeadlineResult) {
    && (AllInCalendar(o.today, plan) ==> r.suggestions == plan && r.error.None?)
    && (!AllInCalendar(o.today, plan) && InCalendar(o.today, FallbackDays) ==>
          r.suggestions == [FallbackSuggestion()] && r.error.None?)
    && (!AllInCalendar(o.today, plan) && !InCalendar(o.today, FallbackDays) ==>
          r == DeadlineFailure(OutOfRange))
  }

  /** The result for a computed suggestion list. */
  function Conclude(o: Oracles, task: Object, plan: seq<Suggestion>, complexity: Object, time: TimeRequirements)
    : (r: DeadlineResult)
    ensures Concludes(o, plan, r)
  {
    match DatedSuggestions(plan, o.today)
    case Err(m) => DeadlineFailure(m)
    case Ok(ss) => Suggested(o, task, ss, complexity, time)
  }

  /** Whatever list `Conclude` answers with is non-empty, ordered from the most
      conservative down, and carries its own confidence. */
  lemma ConcludedListIsOrdered(o: Oracles, task: Object, plan: seq<Suggestion>, complexity: Object, time: TimeRequirements)
    requires Ordered(plan)
    ensures var r := Conclude(o, task, plan, complexity, time);
      && (r.error.None? ==> r.confidence == DeadlineConfidence(ToValues(r.suggestions, o.clock)))
      && (r.error.None? ==> Ordered(r.suggestions))
  {
    match DatedSuggestions(plan, o.today)
    case Err(m) =>
      assert Conclude(o, task, plan, complexity, time) == DeadlineFailure(m);
    case Ok(ss) =>
      assert Conclude(o, task, plan, complexity, time) == Suggested(o, task, ss, complexity, time);
  }

  /** `suggest_deadline(task, context, workload)`: the answer for the suggestion
      list computed from the task, its context and the workload, with the
      confidence of the suggestions it returns. */
  function SuggestDeadline(o: Oracles, task: Object, context: Object, workload: Object): (r: DeadlineResult)
    ensures Concludes(o, Plan(o, task, context, workload), r)
    ensures r.error.None? ==> r.confidence == DeadlineConfidence(ToValues(r.suggestions, o.clock))
    ensures r.error.None? ==> Ordered(r.suggestions)
  {
    var complexity := ComplexityAnalysis(o, task);
    var time := EstimateTime(task, complexity);
    var hours := TotalHoursOf(time);
    var capacity := AvailableOf(AnalyzeSchedule(workload));
    var delay := DelayDays(AnalyzeDependencies(task, context));
    DeadlinesAreOrdered(hours, capacity, delay, o.repr);
    SuggestionsFitIffConservativeFits(hours, capacity, delay, o.repr, o.today);
    ConcludedListIsOrdered(o, task, DeadlineSuggestions(hours, capacity, delay, o.repr), complexity, time);
    Conclude(o, task, DeadlineSuggestions(hours, capacity, delay, o.repr), complexity, time)
  }

  /** The confidence `suggest_deadline` reports: 0.9 or 1.0 for the computed list
      of two or three suggestions, 0.8 for the fallback. */
  lemma SuggestDeadlineConfidence(o: Oracles, task: Object, context: Object, workload: Object)
    ensures var plan := Plan(o, task, context, workload);
      var r := SuggestDeadline(o, task, context, workload);
      && (AllInCalendar(o.today, plan) ==> r.confidence == if |plan| == 3 then 1.0 else 0.9)
      && (!AllInCalendar(o.today, plan) && InCalendar(o.today, FallbackDays) ==> r.confidence == 0.8)
  {
    var hours := TotalHoursOf(EstimateTime(task, ComplexityAnalysis(o, task)));
    var capacity := AvailableOf(AnalyzeSchedule(workload));
    var delay := DelayDays(AnalyzeDependencies(task, context));
    var plan := Plan(o, task, context, workload);
    assert plan == DeadlineSuggestions(hours, capacity, delay, o.repr);
    SuggestionsConfidence(hours, capacity, delay, o.repr, o.clock);
    FallbackConfidence(o.clock);
  }

}

=== FILE: gemini_client.dfy ===
/** The engine wrapper of `backend/ai_service/gemini_client.py`: the structured
    response (brace-span extraction and the error dictionaries it returns instead
    of raising), the eight analysis intents and the health probe.

    The engine itself is a parameter: a function from the prompt sent to what the
    call gives back, text or a raised exception. `json.loads` is a parameter too;
    the model only fixes that the empty document is never valid JSON. */
module GeminiClient {
  import opened Base
  import Text
  import opened Json

  /** One engine call: the response text (`""` when the engine returned none) or
      the text of the exception it raised. */
  datatype Reply = Answer(text: string) | Failure(msg: string)

  type Engine = string -> Reply

  /** `json.loads` on a text that starts with `{` and ends with `}`: a dict, or
      `None` for `JSONDecodeError`. */
  type Parser = string -> Option<Object>

  /** `json.loads(s)` as the wrapper sees it: whatever the parser says, except that
      the empty document is always rejected. */
  function Loads(parse: Parser, s: string): (r: Option<Object>)
    ensures s == "" ==> r == None
    ensures s != "" ==> r == parse(s)
  {
    if s == "" then None else parse(s)
  }

  /** A prompt: its template (whose wording the model does not fix) followed by the
      values the f-string interpolates, each on its own line. */
  function Prompt(template: string, values: seq<string>): string {
    Text.Join([template] + values, "\n")
  }

  /** Python's `s[i:j]` for in-range indices: empty when `j < i`. */
  function Slice(s: string, i: nat, j: nat): (r: string)
    requires i <= |s| && j <= |s|
    ensures i <= j ==> r == s[i..j]
    ensures j < i ==> r == ""
  {
    if i <= j then s[i..j] else ""
  }

  /** The prompt actually sent: the caller's prompt and a format instruction. */
  function FormatPrompt(prompt: string, format: string): (r: string)
    ensures Text.StartsWith(r, prompt)
    ensures r[|prompt|..] == "\n\nPlease respond in valid " + format + " format."
  {
    prompt + "\n\nPlease respond in valid " + format + " format."
  }

  /** The text handed to `json.loads`: from the first `{` through the last `}`,
      or `None` when the response lacks either brace. */
  function JsonSpan(text: string): (r: Option<string>)
    ensures r.None? <==> '{' !in text || '}' !in text
  {
    SpanFrom(text, Text.Find(text, '{'), Text.RFind(text, '}') + 1)
  }

  /** `text[start:end]` once `find` gave `start` and `rfind` plus one gave `end`;
      `None` when either search failed. */
  function SpanFrom(text: string, start: int, end: int): (r: Option<string>)
    requires -1 <= start < |text| && 0 <= end <= |text|
    ensures r.None? <==> start == -1 || end == 0
    ensures r.Some? && start < end ==> r.value == text[start..end] && |r.value| == end - start
    ensures r.Some? && end <= start ==> r.value == ""
  {
    if start != -1 && end != 0 then Some(Slice(text, start, end)) else None
  }

  /** What `generate_structured_response` returns instead of raising. */
  function NoDataError(text: string): Object {
    map["error" := Str("No structured data found"), "raw_response" := Str(text)]
  }

  function InvalidJsonError(text: string): Object {
    map["error" := Str("Invalid JSON response"), "raw_response" := Str(text)]
  }

  function RaisedError(msg: string): Object {
    map["error" := Str(msg)]
  }

  /** `generate_structured_response(prompt, format)`: never raises; every failure
      becomes a dict with an `"error"` key. */
  function StructuredResponse(engine: Engine, parse: Parser, prompt: string, format: string): (r: Object)
    ensures engine(FormatPrompt(prompt, format)).Failure? ==>
      r == RaisedError(engine(FormatPrompt(prompt, format)).msg)
    ensures engine(FormatPrompt(prompt, format)).Answer? ==>
      var text := engine(FormatPrompt(prompt, format)).text;
      && ('{' !in text || '}' !in text ==> r == NoDataError(text))
      && (JsonSpan(text).Some? && parse(JsonSpan(text).value).None? ==> r == InvalidJsonError(text))
  {
    match engine(FormatPrompt(prompt, format))
    case Failure(msg) => RaisedError(msg)
    case Answer(text) =>
      match JsonSpan(text)
      case None => NoDataError(text)
      case Some(span) =>
        match Loads(parse, span)
        case None => InvalidJsonError(text)
        case Some(obj) => obj
  }

  /** The span really is the part of the response from the first `{` through the
      last `}`: no `{` before it, no `}` after it, and both braces included. When
      the last `}` comes before the first `{`, the span is empty. */
  lemma SpanIsFirstOpenToLastClose(text: string)
    requires '{' in text && '}' in text
    ensures var i := Text.Find(text, '{');
      var j := Text.RFind(text, '}');
      && (i <= j ==> JsonSpan(text) == Some(text[i..j + 1]))
      && (i <= j ==> '{' !in text[..i] && '}' !in text[j + 1..])
      && (i <= j ==> JsonSpan(text).value[0] == '{' && JsonSpan(text).value[j - i] == '}')
      && (j < i ==> JsonSpan(text) == Some(""))
  {
    var i := Text.Find(text, '{');
    var j := Text.RFind(text, '}');
    var r := SpanFrom(text, i, j + 1);
    assert JsonSpan(text) == r;
    if i <= j {
      assert r.value[0] == text[i] && r.value[j - i] == text[j];
    }
  }

  /** When the last `}` precedes the first `{`, nothing parses, so the caller gets
      the "Invalid JSON response" dict with the full response attached. */
  lemma ReversedBracesAreInvalidJson(engine: Engine, parse: Parser, prompt: string, format: string)
    requires engine(FormatPrompt(prompt, format)).Answer?
    requires var text := engine(FormatPrompt(prompt, format)).text;
      '{' in text && '}' in text && Text.RFind(text, '}') < Text.Find(text, '{')
    ensures StructuredResponse(engine, parse, prompt, format)
         == InvalidJsonError(engine(FormatPrompt(prompt, format)).text)
  {
    SpanIsFirstOpenToLastClose(engine(FormatPrompt(prompt, format)).text);
  }

  /** A response whose span parses is returned as parsed, whatever else the text holds. */
  lemma ParsedSpanIsReturned(engine: Engine, parse: Parser, prompt: string, format: string)
    requires engine(FormatPrompt(prompt, format)).Answer?
    requires var text := engine(FormatPrompt(prompt, format)).text;
      JsonSpan(text).Some? && JsonSpan(text).value != "" && parse(JsonSpan(text).value).Some?
    ensures var text := engine(FormatPrompt(prompt, format)).text;
      StructuredResponse(engine, parse, prompt, format) == parse(JsonSpan(text).value).value
  {
  }

  /** A result without an `"error"` key can only come from a successful parse. */
  lemma NoErrorKeyMeansParsed(engine: Engine, parse: Parser, prompt: string, format: string)
    requires "error" !in StructuredResponse(engine, parse, prompt, format)
    ensures engine(FormatPrompt(prompt, format)).Answer?
    ensures var text := engine(FormatPrompt(prompt, format)).text;
      && JsonSpan(text).Some? && JsonSpan(text).value != ""
      && StructuredResponse(engine, parse, prompt, format) == parse(JsonSpan(text).value).value
  {
  }

  /** The analyses `analyze_text` knows; any other name raises `ValueError`. */
  datatype Intent =
    | ExtractTasks
    | ContextSummary
    | PriorityAnalysis
    | WorkloadAnalysis
    | DeadlineSuggestions
    | Categorize
    | EnhanceDescription
    | CategorySuggestions

  function IntentKey(i: Intent): string {
    match i
    case ExtractTasks => "extract_tasks"
    case ContextSummary => "context_summary"
    case PriorityAnalysis => "priority_analysis"
    case WorkloadAnalysis => "workload_analysis"
    case DeadlineSuggestions => "deadline_suggestions"
    case Categorize => "categorize"
    case EnhanceDescription => "enhance_description"
    case CategorySuggestions => "category_suggestions"
  }

  /** The lookup `analysis_prompts[analysis_type]`, raising for an unknown name. */
  function ParseIntent(k: string): (r: Result<Intent>)
    ensures r.Err? ==> r.msg == "Unknown analysis type: " + k
  {
    if k == "extract_tasks" then Ok(ExtractTasks)
    else if k == "context_summary" then Ok(ContextSummary)
    else if k == "priority_analysis" then Ok(PriorityAnalysis)
    else if k == "workload_analysis" then Ok(WorkloadAnalysis)
    else if k == "deadline_suggestions" then Ok(DeadlineSuggestions)
    else if k == "categorize" then Ok(Categorize)
    else if k == "enhance_description" then Ok(EnhanceDescription)
    else if k == "category_suggestions" then Ok(CategorySuggestions)
    else Err("Unknown analysis type: " + k)
  }

  /** Each of the eight intent names is accepted and names its own intent. */
  lemma KeyParsesToIntent(i: Intent)
    ensures ParseIntent(IntentKey(i)) == Ok(i)
  {
    match i
    case ExtractTasks =>
    case ContextSummary =>
    case PriorityAnalysis =>
    case WorkloadAnalysis =>
    case DeadlineSuggestions =>
    case Categorize =>
    case EnhanceDescription =>
    case CategorySuggestions =>
  }

  /** Only the eight intent names are accepted: an accepted name is its intent's key. */
  lemma ParsedNameIsKey(k: string)
    ensures ParseIntent(k).Ok? ==> IntentKey(ParseIntent(k).value) == k
  {
  }

  /** `analyze_text(text, analysis_type)`. */
  function AnalyzeText(engine: Engine, parse: Parser, text: string, kind: string): (r: Result<Object>)
    ensures r.Err? <==> ParseIntent(kind).Err?
    ensures r.Err? ==> r.msg == "Unknown analysis type: " + kind
    ensures r.Ok? ==> r.value == StructuredResponse(engine, parse, Prompt(kind, [text]), "JSON")
  {
    match ParseIntent(kind)
    case Err(msg) => Err(msg)
    case Ok(_) => Ok(StructuredResponse(engine, parse, Prompt(kind, [text]), "JSON"))
  }

  const HealthPrompt := "Hello, this is a health check."

  /** `bool(response and len(response.strip()) > 0)`, with a raised exception
      reported as `False`. */
  function HealthCheckWith(engine: Engine, prompt: string): (ok: bool)
    ensures ok <==> engine(prompt).Answer? && !Text.IsBlank(engine(prompt).text)
  {
    match engine(prompt)
    case Failure(_) => false
    case Answer(text) => text != "" && |Text.Strip(text)| > 0
  }

  /** `health_check()` of the engine wrapper. */
  function HealthCheck(engine: Engine): (ok: bool)
    ensures ok <==> engine(HealthPrompt).Answer? && !Text.IsBlank(engine(HealthPrompt).text)
  {
    HealthCheckWith(engine, HealthPrompt)
  }
}

=== FILE: json.dfy ===
/** The Python values the engine's parsed JSON can hold, and the few operations the
    pipeline applies to them: `dict.get`, arithmetic through `float()`/`+`,
    truthiness and `len`. An operation Python would reject with `AttributeError` or
    `TypeError` yields `None`/`Err` here, so the error paths of the callers are
    modelled and not assumed away. */
module Json {
  import opened Base

  datatype Value =
    | Null
    | Bool(b: bool)
    | Num(n: real)
    | Str(s: string)
    | Arr(items: seq<Value>)
    | Obj(fields: map<string, Value>)

  type Object = map<string, Value>

  /** Python's `d.get(k, default)` on a value that must be a dict: any other value
      raises `AttributeError` ("object has no attribute 'get'"). */
  function Get(v: Value, k: string, default: Value): (r: Result<Value>)
    ensures r.Ok? <==> v.Obj?
    ensures r.Ok? && k in v.fields ==> r.value == v.fields[k]
    ensures r.Ok? && k !in v.fields ==> r.value == default
  {
    match v
    case Obj(m) => Ok(if k in m then m[k] else default)
    case _ => Err("'" + TypeName(v) + "' object has no attribute 'get'")
  }

  /** The Python type name of a value, as exception texts quote it (a JSON number
      is reported as `float` whether or not it has a fractional part). */
  function TypeName(v: Value): string {
    match v
    case Null => "NoneType"
    case Bool(_) => "bool"
    case Num(_) => "float"
    case Str(_) => "str"
    case Arr(_) => "list"
    case Obj(_) => "dict"
  }

  /** `m.get(k, default)` on a dict the program itself built. */
  function Field(m: Object, k: string, default: Value): (r: Value)
    ensures k in m ==> r == m[k]
    ensures k !in m ==> r == default
  {
    if k in m then m[k] else default
  }

  /** The number a value stands for in Python arithmetic: `bool` counts as 0/1,
      and anything that is not a number raises `TypeError` (`None`). */
  function NumOf(v: Value): (r: Option<real>)
    ensures r.Some? <==> v.Num? || v.Bool?
    ensures v.Num? ==> r == Some(v.n)
  {
    match v
    case Num(x) => Some(x)
    case Bool(b) => Some(if b then 1.0 else 0.0)
    case _ => None
  }

  /** Python's `bool(v)`. */
  predicate Truthy(v: Value) {
    match v
    case Null => false
    case Bool(b) => b
    case Num(x) => x != 0.0
    case Str(s) => s != ""
    case Arr(xs) => xs != []
    case Obj(m) => m != map[]
  }

  /** `Str(s)` when `v` is a string, `""` otherwise: how the model reads a field
      whose text is only copied into a prompt or a record. */
  function TextOf(v: Value): (r: string)
    ensures v.Str? ==> r == v.s
    ensures !v.Str? ==> r == ""
  {
    if v.Str? then v.s else ""
  }

  /** The list a value holds: Python iterates a list, and the callers reject
      everything else. */
  function ItemsOf(v: Value): (r: Option<seq<Value>>)
    ensures r.Some? <==> v.Arr?
    ensures v.Arr? ==> r.value == v.items
  {
    if v.Arr? then Some(v.items) else None
  }

  /** The elements a `for x in v` loop visits when its body calls `x.get`, or
      `None` when the loop raises: a list yields its items; a non-empty dict or
      string yields its keys or characters, which are strings and have no `get`;
      an empty one yields nothing; any other value is not iterable. */
  function DictItems(v: Value): (r: Option<seq<Value>>)
    ensures v.Arr? ==> r == Some(v.items)
    ensures r.Some? && !v.Arr? ==> r == Some([])
    ensures v.Obj? ==> (r.Some? <==> v.fields == map[])
    ensures v.Str? ==> (r.Some? <==> v.s == "")
    ensures (v.Null? || v.Bool? || v.Num?) ==> r == None
  {
    match v
    case Arr(xs) => Some(xs)
    case Obj(m) => if m == map[] then Some([]) else None
    case Str(s) => if s == "" then Some([]) else None
    case _ => None
  }

  /** Every element of `xs` is a dict. */
  predicate AllObjects(xs: seq<Value>) {
    forall i :: 0 <= i < |xs| ==> xs[i].Obj?
  }

  /** The sort key `x.get('confidence', 0)` of a suggestion that is a dict with a
      numeric confidence (the engine's deadline and category suggestions). */
  function ConfidenceKey(v: Value): real {
    if v.Obj? then NumOf(Field(v.fields, "confidence", Num(0.0))).GetOr(0.0) else 0.0
  }

  /** The suggestions can be sorted on their confidence: every one is a dict and,
      when there are two or more to compare, every confidence is a number. */
  predicate Sortable(xs: seq<Value>) {
    && AllObjects(xs)
    && (|xs| >= 2 ==> forall i :: 0 <= i < |xs| ==> NumOf(Field(xs[i].fields, "confidence", Num(0.0))).Some?)
  }

  /** How an f-string renders a value: a string as itself, anything else by `str()`. */
  function Render(v: Value, show: Value -> string): (r: string)
    ensures v.Str? ==> r == v.s
    ensures !v.Str? ==> r == show(v)
  {
    if v.Str? then v.s else show(v)
  }
}

=== FILE: models.dfy ===
/** `backend/todo/models.py`: category popularity, the `clean` rules of the
    three models, the category usage bookkeeping done when a task is saved, the
    deadline predicates and the content preview. The database is a pair of
    maps; times are integer seconds. */
module Models {
  import opened Base
  import opened Text

  type CategoryId = string
  type TaskId = string

  // ---- Category

  /** `Category.get_popularity_score()`: a step function of the usage count. */
  function PopularityScore(usage: int): (r: real)
    ensures 0.0 <= r <= 1.0
    ensures r == 0.0 <==> usage == 0
    ensures r == 1.0 <==> usage > 50
    ensures 0 < usage <= 5 ==> r == 0.2
    ensures r == 0.2 <==> usage != 0 && usage <= 5
    ensures r == 0.4 <==> 5 < usage <= 10
    ensures r == 0.6 <==> 10 < usage <= 20
    ensures r == 0.8 <==> 20 < usage <= 50
  {
    if usage == 0 then 0.0
    else if usage <= 5 then 0.2
    else if usage <= 10 then 0.4
    else if usage <= 20 then 0.6
    else if usage <= 50 then 0.8
    else 1.0
  }

  /** More usage never lowers popularity, for the counts a category can have
      while every save keeps them equal to its number of tasks. */
  lemma PopularityIsMonotone(a: int, b: int)
    requires 0 <= a <= b
    ensures PopularityScore(a) <= PopularityScore(b)
  {
  }

  /** A count driven below zero falls into the first band, above an unused
      category. */
  lemma NegativeUsageScoresAsLowUsage(usage: int)
    requires usage < 0
    ensures PopularityScore(usage) == 0.2 > PopularityScore(0)
  {
  }

  /** `Category.clean()`: the error message, or `None` when the name passes. A
      non-empty name made only of white space is rejected; the empty name is
      left to the field's own validation. */
  function CleanCategory(name: string): (r: Option<string>)
    ensures r.Some? <==> name != "" && IsBlank(name)
    ensures r.Some? ==> r.value == "Category name cannot be empty"
  {
    if name != "" && Strip(name) == "" then Some("Category name cannot be empty") else None
  }

  // ---- Task

  datatype Task = Task(
    title: string, description: string, category: Option<CategoryId>, priority: int,
    deadline: Option<int>, status: string, priorityScore: Option<real>)

  /** `Task.clean()` at time `now`: the first failing rule's message, or `None`. */
  function CleanTask(t: Task, now: int): (r: Option<string>)
    ensures r.None? <==> && !(t.title != "" && IsBlank(t.title))
                         && (t.deadline.None? || t.deadline.value >= now)
                         && (t.priorityScore.None? || 0.0 <= t.priorityScore.value <= 1.0)
    ensures t.title != "" && IsBlank(t.title) ==> r == Some("Task title cannot be empty")
    ensures r == Some("Deadline cannot be in the past") <==>
      !(t.title != "" && IsBlank(t.title)) && t.deadline.Some? && t.deadline.value < now
    ensures r == Some("Priority score must be between 0.0 and 1.0") <==>
      && !(t.title != "" && IsBlank(t.title)) && (t.deadline.None? || t.deadline.value >= now)
      && t.priorityScore.Some? && !(0.0 <= t.priorityScore.value <= 1.0)
  {
    if t.title != "" && Strip(t.title) == "" then Some("Task title cannot be empty")
    else if t.deadline.Some? && t.deadline.value < now then Some("Deadline cannot be in the past")
    else if t.priorityScore.Some? && !(0.0 <= t.priorityScore.value <= 1.0) then
      Some("Priority score must be between 0.0 and 1.0")
    else None
  }

  /** The stored usage counts and each stored task's category. */
  datatype Store = Store(usage: map<CategoryId, int>, tasks: map<TaskId, Option<CategoryId>>)

  /** Every stored task's category exists (the foreign key). */
  predicate Consistent(s: Store) {
    forall t :: t in s.tasks && s.tasks[t].Some? ==> s.tasks[t].value in s.usage
  }

  function TasksIn(tasks: map<TaskId, Option<CategoryId>>, c: CategoryId): set<TaskId> {
    set t | t in tasks && tasks[t] == Some(c)
  }

  /** Each category's usage equals the number of tasks filed under it. */
  predicate UsageCountsTasks(s: Store) {
    forall c :: c in s.usage ==> s.usage[c] == |TasksIn(s.tasks, c)|
  }

  function Shift(usage: map<CategoryId, int>, c: Option<CategoryId>, delta: int): (r: map<CategoryId, int>)
    ensures r.Keys == usage.Keys
  {
    if c.Some? && c.value in usage then usage[c.value := usage[c.value] + delta] else usage
  }

  /** The usage bookkeeping of `Task.save()` for task `id` saved with `category`:
      when the stored task changes category, the old one loses one use (with no
      floor) and the new one gains one; an unchanged category touches nothing; a
      task not yet stored adds one use to its category. */
  function SaveTask(s: Store, id: TaskId, category: Option<CategoryId>): (r: Store)
    requires category.Some? ==> category.value in s.usage
    ensures r.tasks == s.tasks[id := category]
    ensures r.usage.Keys == s.usage.Keys
    ensures id in s.tasks && s.tasks[id] == category ==> r.usage == s.usage
    ensures category.Some? && (id !in s.tasks || s.tasks[id] != category) ==>
      r.usage[category.value] == s.usage[category.value] + 1
    ensures id in s.tasks && s.tasks[id].Some? && s.tasks[id] != category && s.tasks[id].value in s.usage ==>
      r.usage[s.tasks[id].value] == s.usage[s.tasks[id].value] - 1
    ensures forall c :: c in s.usage && Some(c) != category && (id !in s.tasks || s.tasks[id] != Some(c)) ==>
      r.usage[c] == s.usage[c]
  {
    var usage :=
      if id in s.tasks then
        if s.tasks[id] != category then Shift(Shift(s.usage, s.tasks[id], -1), category, 1) else s.usage
      else Shift(s.usage, category, 1);
    Store(usage, s.tasks[id := category])
  }

  /** How filing task `id` under `category` changes the tasks of category `c`. */
  lemma TasksInAfterSave(tasks: map<TaskId, Option<CategoryId>>, id: TaskId, category: Option<CategoryId>, c: CategoryId)
    ensures var before, after := TasksIn(tasks, c), TasksIn(tasks[id := category], c);
      && (category == Some(c) && (id !in tasks || tasks[id] != category) ==> id !in before && after == before + {id})
      && (id in tasks && tasks[id] == Some(c) && category != Some(c) ==> id in before && after == before - {id})
      && ((!(category == Some(c) && (id !in tasks || tasks[id] != category))
           && !(id in tasks && tasks[id] == Some(c) && category != Some(c))) ==> after == before)
  {
  }

  /** Saving keeps every usage count equal to the number of tasks in its
      category, so under that invariant the unfloored decrement never goes
      below zero. */
  lemma SaveKeepsUsageCounts(s: Store, id: TaskId, category: Option<CategoryId>)
    requires Consistent(s) && UsageCountsTasks(s)
    requires category.Some? ==> category.value in s.usage
    ensures Consistent(SaveTask(s, id, category)) && UsageCountsTasks(SaveTask(s, id, category))
    ensures forall c :: c in SaveTask(s, id, category).usage ==> SaveTask(s, id, category).usage[c] >= 0
  {
    var r := SaveTask(s, id, category);
    forall c | c in r.usage ensures r.usage[c] == |TasksIn(r.tasks, c)| {
      TasksInAfterSave(s.tasks, id, category, c);
    }
  }

  const Day := 86400
  const Week := 7 * Day

  /** `Task.is_overdue` at time `now`. */
  predicate IsOverdue(t: Task, now: int) {
    t.deadline.Some? && t.status != "Completed" && now > t.deadline.value
  }

  /** `Task.is_due_soon` at time `now`: the deadline lies within the next seven days. */
  predicate IsDueSoon(t: Task, now: int) {
    t.deadline.Some? && t.status != "Completed" && now <= t.deadline.value <= now + Week
  }

  /** Neither holds without a deadline or once completed; otherwise a task is
      overdue, due soon, or due after the coming week, and only one of these. */
  lemma DeadlineStates(t: Task, now: int)
    ensures t.deadline.None? || t.status == "Completed" ==> !IsOverdue(t, now) && !IsDueSoon(t, now)
    ensures !(IsOverdue(t, now) && IsDueSoon(t, now))
    ensures t.deadline.Some? && t.status != "Completed" ==>
      IsOverdue(t, now) || IsDueSoon(t, now) || t.deadline.value > now + Week
  {
  }

  /** `Task.days_until_deadline`: `timedelta.days` of the remaining time, which
      rounds toward minus infinity. */
  function DaysUntilDeadline(t: Task, now: int): (r: Option<int>)
    ensures r.None? <==> t.deadline.None?
    ensures r.Some? ==> r.value * Day <= t.deadline.value - now < (r.value + 1) * Day
  {
    if t.deadline.None? then None else Some((t.deadline.value - now) / Day)
  }

  /** `Task.update_priority(new_priority)`: only 1, 2 and 3 are accepted; on
      rejection the task is left as it was. */
  function UpdatePriority(t: Task, p: int): (r: Result<Task>)
    ensures r.Ok? <==> p in {1, 2, 3}
    ensures r.Ok? ==> r.value.priority == p && r.value.(priority := t.priority) == t
    ensures r.Err? ==> r.msg == "Priority must be 1, 2, or 3"
  {
    if p !in {1, 2, 3} then Err("Priority must be 1, 2, or 3") else Ok(t.(priority := p))
  }

  function MarkCompleted(t: Task): (r: Task)
    ensures r.status == "Completed" && r.(status := t.status) == t
  {
    t.(status := "Completed")
  }

  function MarkInProgress(t: Task): (r: Task)
    ensures r.status == "In Progress" && r.(status := t.status) == t
  {
    t.(status := "In Progress")
  }

  /** A completed task is neither overdue nor due soon, whatever its deadline. */
  lemma CompletedIsNeverLate(t: Task, now: int)
    ensures !IsOverdue(MarkCompleted(t), now) && !IsDueSoon(MarkCompleted(t), now)
  {
  }

  // ---- ContextEntry

  /** `ContextEntry.clean()`. */
  function CleanContextEntry(content: string): (r: Option<string>)
    ensures r.Some? <==> content != "" && IsBlank(content)
    ensures r.Some? ==> r.value == "Content cannot be empty"
  {
    if content != "" && Strip(content) == "" then Some("Content cannot be empty") else None
  }

  /** `ContextEntry.content_preview`: the content itself up to 100 characters,
      else its first 100 characters and an ellipsis. */
  function ContentPreview(content: string): (r: string)
    ensures |r| == if |content| <= 100 then |content| else 103
    ensures |content| <= 100 ==> r == content
    ensures |content| > 100 ==> r[..100] == content[..100] && r[100..] == "..."
  {
    if |content| > 100 then content[..100] + "..." else content
  }
}

=== FILE: numbers.dfy ===
/** Python's conversions between integers and text (`str(n)`, `int(s)`) and its
    rounding (`round(x)`, `round(x, 1)`), stated over unbounded `int` and `real`. */
module Numbers {
  import opened Base
  import Text

  predicate IsDigit(c: char) { '0' <= c <= '9' }

  function DigitChar(d: nat): char
    requires d < 10
  {
    ('0' as int + d) as char
  }

  function DigitValue(c: char): nat
    requires IsDigit(c)
  {
    c as int - '0' as int
  }

  /** Python's `str(n)` for `n >= 0`. */
  function NatToString(n: nat): (s: string)
    ensures |s| >= 1
    ensures forall i :: 0 <= i < |s| ==> IsDigit(s[i])
    decreases n
  {
    if n < 10 then [DigitChar(n)] else NatToString(n / 10) + [DigitChar(n % 10)]
  }

  /** Python's `str(n)` for any integer. */
  function IntToString(n: int): (s: string)
    ensures |s| >= 1
  {
    if n < 0 then "-" + NatToString(-n) else NatToString(n)
  }

  /** A run of decimal digits in which single underscores may separate digits
      (the digit syntax `int()` accepts). */
  predicate WellFormedDigits(s: string) {
    && |s| > 0
    && IsDigit(s[0])
    && IsDigit(s[|s| - 1])
    && (forall i :: 0 <= i < |s| ==> IsDigit(s[i]) || s[i] == '_')
    && (forall i :: 0 <= i < |s| - 1 ==> !(s[i] == '_' && s[i + 1] == '_'))
  }

  /** Decimal value of the digits of `s`, underscores skipped. */
  function DigitsValue(s: string): nat
    decreases |s|
  {
    if s == [] then 0
    else if IsDigit(s[|s| - 1]) then DigitsValue(s[..|s| - 1]) * 10 + DigitValue(s[|s| - 1])
    else DigitsValue(s[..|s| - 1])
  }

  /** Python's `int(s)` on text: surrounding white space, an optional sign and
      underscore-separated ASCII digits; anything else raises `ValueError` (`None`). */
  function ParseInt(s: string): Option<int> {
    ParseSigned(Text.Strip(s))
  }

  /** `int()` on text already free of surrounding white space. */
  function ParseSigned(t: string): Option<int> {
    if t != "" && (t[0] == '-' || t[0] == '+') then
      var body := t[1..];
      if !WellFormedDigits(body) then None
      else
        var d: int := DigitsValue(body);
        Some(if t[0] == '-' then -d else d)
    else if WellFormedDigits(t) then Some(DigitsValue(t))
    else None
  }

  lemma {:induction false} DigitsOfNat(n: nat)
    ensures DigitsValue(NatToString(n)) == n
    decreases n
  {
    var s := NatToString(n);
    if n >= 10 {
      DigitsOfNat(n / 10);
      assert s[..|s| - 1] == NatToString(n / 10);
    }
  }

  lemma StripKeepsText(s: string)
    requires s != "" && !Text.IsSpace(s[0]) && !Text.IsSpace(s[|s| - 1])
    ensures Text.Strip(s) == s
  {
    assert Text.LeadCount(s) == 0;
  }

  /** The digits Python prints for a natural number are well formed and read back. */
  lemma NatStringParses(m: nat)
    ensures WellFormedDigits(NatToString(m)) && DigitsValue(NatToString(m)) == m
  {
    var d := NatToString(m);
    assert forall i :: 0 <= i < |d| ==> d[i] != '_';
    DigitsOfNat(m);
  }

  /** Well-formed digits read as their value, with or without a minus sign. */
  lemma SignedDigitsParse(d: string)
    requires WellFormedDigits(d)
    ensures ParseSigned(d) == Some(DigitsValue(d) as int)
    ensures ParseSigned("-" + d) == Some(-(DigitsValue(d) as int))
  {
    assert ("-" + d)[1..] == d;
  }

  /** `int(str(n)) == n`: the text Python prints for an integer parses back to it. */
  lemma {:induction false} ParseIntRoundTrip(n: int)
    ensures ParseInt(IntToString(n)) == Some(n)
  {
    var s := IntToString(n);
    var m: nat := if n < 0 then -n else n;
    var d := NatToString(m);
    NatStringParses(m);
    SignedDigitsParse(d);
    assert s[|s| - 1] == d[|d| - 1];
    StripKeepsText(s);
  }

  /** Python's `round(x)`: the nearest integer, ties to the even neighbour. */
  function RoundHalfEven(x: real): (r: int)
    ensures -0.5 <= r as real - x <= 0.5
    ensures (r as real - x == 0.5 || r as real - x == -0.5) ==> r % 2 == 0
  {
    var f := x.Floor;
    var frac := x - f as real;
    if frac < 0.5 then f
    else if frac > 0.5 then f + 1
    else if f % 2 == 0 then f
    else f + 1
  }

  /** Python's `round(x, 1)` on the exact value (binary floating point not modelled). */
  function RoundTenth(x: real): (r: real)
    ensures -0.05 <= r - x <= 0.05
  {
    RoundHalfEven(x * 10.0) as real / 10.0
  }
}

=== FILE: pipeline_controller.dfy ===
/** `backend/ai_service/pipeline_controller.py`: the context step, the compile step
    that merges the comprehensive analysis into one result (mean confidence and the
    primary deadline), the per-task pipeline, the batch loop and the health report.
    `datetime.now().isoformat()` is the parameter `stamp`. */
module PipelineController {
  import opened Base
  import opened Json
  import opened ContextData
  import Dates
  import StableSort
  import GeminiClient
  import ConsolidatedAIService

  /** What the pipeline reports for one task. */
  datatype Outcome =
    | Completed(taskId: Value, taskTitle: Value, overallConfidence: real, summary: Value,
                recommendations: Recommendations, detailed: Detailed, timestamp: string)
    | CompletedWithErrors(taskId: Value, error: string, timestamp: string)
    | Failed(taskId: Value, error: string, failedAt: Option<string>)
  {
    /** The `summary` entry of a `completed_with_errors` result. */
    function ErrorSummary(): string
      requires CompletedWithErrors?
    {
      "Pipeline completed with errors: " + error
    }
  }

  /** The `recommendations` dict of a completed result. */
  datatype Recommendations = Recommendations(
    enhancedDescription: Value, enhancedTitle: Value, suggestedCategory: Value,
    priorityLevel: Value, suggestedDeadline: Value, actionableSteps: Value)

  /** The `detailed_analysis` dict: the analysis parts as received. */
  datatype Detailed = Detailed(
    contextAnalysis: Object, taskEnhancement: Value, categorySuggestion: Value,
    priorityAnalysis: Value, deadlineSuggestions: Value, overallAnalysis: Value)

  /** The result of `analyze_context` for a falsy context. */
  function NoContextResult(): (r: Object)
    ensures "error" !in r
  {
    map[
      "context_summary" := Str("No context data provided"),
      "extracted_tasks" := Arr([]),
      "priority_insights" := Obj(map[]),
      "workload_analysis" := Obj(map["workload_level" := Str("normal"), "action_item_count" := Num(0.0)])]
  }

  /** The consolidated context analysis renamed into the pipeline's keys, each
      read with its default. */
  function RenameContextKeys(a: Object): (r: Object)
    ensures "context_summary" in r && r["context_summary"] == Field(a, "context_summary", Str("Context analysis completed"))
    ensures "extracted_tasks" in r && r["extracted_tasks"] == Field(a, "extracted_tasks", Arr([]))
    ensures "priority_insights" in r && r["priority_insights"] == Field(a, "priority_analysis", Obj(map[]))
    ensures "workload_analysis" in r && r["workload_analysis"] == Field(a, "workload_analysis", Obj(map[]))
    ensures "category_suggestions" in r && r["category_suggestions"] == Field(a, "category_suggestions", Arr([]))
    ensures "deadline_suggestions" in r && r["deadline_suggestions"] == Field(a, "deadline_suggestions", Arr([]))
    ensures "error" !in r
  {
    map[
      "context_summary" := Field(a, "context_summary", Str("Context analysis completed")),
      "extracted_tasks" := Field(a, "extracted_tasks", Arr([])),
      "priority_insights" := Field(a, "priority_analysis", Obj(map[])),
      "workload_analysis" := Field(a, "workload_analysis", Obj(map[])),
      "category_suggestions" := Field(a, "category_suggestions", Arr([])),
      "deadline_suggestions" := Field(a, "deadline_suggestions", Arr([]))]
  }

  /** The result of `analyze_context` when the consolidated analysis raises: a
      fixed record that carries the exception text under `"error"`. */
  function ContextFailure(msg: string): (r: Object)
    ensures "error" in r && r["error"] == Str(msg)
    ensures "context_summary" in r && r["context_summary"] == Str("Context analysis failed")
    ensures "extracted_tasks" in r && r["extracted_tasks"] == Arr([])
  {
    map[
      "context_summary" := Str("Context analysis failed"),
      "extracted_tasks" := Arr([]),
      "priority_insights" := Obj(map[]),
      "workload_analysis" := Obj(map["workload_level" := Str("normal"), "action_item_count" := Num(0.0)]),
      "error" := Str(msg)]
  }

  /** `analyze_context(context_data)`: the fixed default for a falsy context,
      otherwise the renamed consolidated analysis, or the failure record when that
      analysis raises. Only the last case carries an `"error"` key. */
  function AnalyzeContext(engine: GeminiClient.Engine, parse: GeminiClient.Parser, show: Value -> string,
                          ctx: Context): (r: Object)
    ensures !Provided(ctx) ==> r == NoContextResult()
    ensures Provided(ctx) ==>
      var a := ConsolidatedAIService.ContextAnalysis(engine, parse, show, ctx);
      && (a.Ok? ==> r == RenameContextKeys(a.value))
      && (a.Err? ==> r == ContextFailure(a.msg))
    ensures "error" in r <==> Provided(ctx) && ConsolidatedAIService.ContextAnalysis(engine, parse, show, ctx).Err?
  {
    if !Provided(ctx) then NoContextResult()
    else
      match ConsolidatedAIService.ContextAnalysis(engine, parse, show, ctx)
      case Ok(a) => RenameContextKeys(a)
      case Err(m) => ContextFailure(m)
  }

  /** A falsy context never reaches the engine: any two engines give the default. */
  lemma NoContextSkipsEngine(e1: GeminiClient.Engine, p1: GeminiClient.Parser,
                             e2: GeminiClient.Engine, p2: GeminiClient.Parser, show: Value -> string, ctx: Context)
    requires !Provided(ctx)
    ensures AnalyzeContext(e1, p1, show, ctx) == AnalyzeContext(e2, p2, show, ctx) == NoContextResult()
  {
  }

  /** `x / 100` on a value read from the engine's answer. */
  function Percent(v: Value): (r: Result<real>)
    ensures r.Ok? <==> NumOf(v).Some?
    ensures r.Ok? ==> r.value * 100.0 == NumOf(v).value
  {
    match NumOf(v)
    case Some(x) => Ok(x / 100.0)
    case None => Err("unsupported operand type(s) for /: '" + TypeName(v) + "' and 'int'")
  }

  /** `suggestions[0]` of a truthy value (Python indexes lists; a dict has no key 0;
      a string yields its first character; numbers are not subscriptable). */
  function FirstItem(v: Value): (r: Result<Value>)
    requires Truthy(v)
    ensures r.Ok? <==> v.Arr? || v.Str?
    ensures v.Arr? ==> r == Ok(v.items[0])
  {
    match v
    case Arr(xs) => Ok(xs[0])
    case Str(s) => Ok(Str([s[0]]))
    case Obj(_) => Err("0")
    case _ => Err("'" + TypeName(v) + "' object is not subscriptable")
  }

  /** The first element that is not a dict: the sort computes every key before
      comparing, so this is the element whose `x.get` raises. */
  function FirstNonObject(xs: seq<Value>): (k: nat)
    requires !AllObjects(xs)
    ensures k < |xs| && !xs[k].Obj?
    ensures forall i :: 0 <= i < k ==> xs[i].Obj?
    decreases |xs|
  {
    if !xs[0].Obj? then 0
    else
      assert !AllObjects(xs[1..]) by {
        var j :| 0 <= j < |xs| && !xs[j].Obj?;
        assert xs[1..][j - 1] == xs[j];
      }
      1 + FirstNonObject(xs[1..])
  }

  /** `sorted(suggestions, key=..., reverse=True)[0].get('date')`. */
  function PrimaryDeadline(xs: seq<Value>): (r: Result<Value>)
    requires xs != []
    ensures r.Ok? <==> Sortable(xs)
    ensures r.Ok? ==> r.value == Field(xs[StableSort.FirstMax(xs, ConfidenceKey)].fields, "date", Null)
    ensures !AllObjects(xs) ==>
      r == Err("'" + TypeName(xs[FirstNonObject(xs)]) + "' object has no attribute 'get'")
  {
    if !Sortable(xs) then
      if !AllObjects(xs) then Err("'" + TypeName(xs[FirstNonObject(xs)]) + "' object has no attribute 'get'")
      else Err("'<' not supported between instances")
    else
      var top := StableSort.SortDesc(xs, ConfidenceKey)[0];
      StableSort.HeadIsFirstMax(xs, ConfidenceKey);
      Ok(Field(top.fields, "date", Null))
  }

  /** The parts of the comprehensive analysis, each read with its default. */
  function EnhancementPart(ta: Object): Value { Field(ta, "task_enhancement", Obj(map[])) }
  function CategoryPart(ta: Object): Value { Field(ta, "category_suggestion", Obj(map[])) }
  function PriorityPart(ta: Object): Value { Field(ta, "priority_analysis", Obj(map[])) }
  function DeadlinesPart(ta: Object): Value { Field(ta, "deadline_suggestions", Arr([])) }
  function OverallPart(ta: Object): Value { Field(ta, "overall_analysis", Obj(map[])) }

  /** The `primary_suggestion` of a category suggestion, `{}` when missing. */
  function PrimaryOf(cs: Object): Value {
    Field(cs, "primary_suggestion", Obj(map[]))
  }

  /** The parts on which the four confidence expressions evaluate without raising:
      the three parts and the primary suggestion are dicts, the priority score is a
      number, and a truthy deadline list is a list whose first entry is a dict. */
  predicate ScoresDefined(te: Value, cs: Value, pa: Value, ds: Value) {
    && te.Obj? && cs.Obj? && PrimaryOf(cs.fields).Obj? && pa.Obj?
    && NumOf(Field(pa.fields, "priority_score", Num(50.0))).Some?
    && (Truthy(ds) ==> ds.Arr? && ds.items[0].Obj?)
  }

  /** The fourth confidence: the first suggestion's, or 0 without suggestions. */
  function LeadConfidence(ds: Value): Value
    requires Truthy(ds) ==> ds.Arr? && ds.items[0].Obj?
  {
    if Truthy(ds) then Field(ds.items[0].fields, "confidence", Num(0.0)) else Num(0.0)
  }

  /** The four confidence values of the source's list, in order: the enhancement's
      `confidence_score`, the primary suggestion's `confidence`, the priority score
      over 100 and the first deadline's `confidence` (each 0 when missing, the score
      50 when missing), or the error the first failing expression raises. */
  function ConfidenceScores(te: Value, cs: Value, pa: Value, ds: Value): (r: Result<seq<Value>>)
    ensures r.Ok? <==> ScoresDefined(te, cs, pa, ds)
    ensures r.Ok? ==> r.value == [
      Field(te.fields, "confidence_score", Num(0.0)),
      Field(PrimaryOf(cs.fields).fields, "confidence", Num(0.0)),
      Num(NumOf(Field(pa.fields, "priority_score", Num(50.0))).value / 100.0),
      LeadConfidence(ds)]
  {
    match Get(te, "confidence_score", Num(0.0))
    case Err(m) => Err(m)
    case Ok(c1) =>
      match Get(cs, "primary_suggestion", Obj(map[]))
      case Err(m) => Err(m)
      case Ok(ps) =>
        match Get(ps, "confidence", Num(0.0))
        case Err(m) => Err(m)
        case Ok(c2) =>
          match Get(pa, "priority_score", Num(50.0))
          case Err(m) => Err(m)
          case Ok(p) =>
            match Percent(p)
            case Err(m) => Err(m)
            case Ok(c3) =>
              if !Truthy(ds) then Ok([c1, c2, Num(c3), Num(0.0)])
              else
                match FirstItem(ds)
                case Err(m) => Err(m)
                case Ok(d0) =>
                  match Get(d0, "confidence", Num(0.0))
                  case Err(m) => Err(m)
                  case Ok(c4) => Ok([c1, c2, Num(c3), c4])
  }

  /** Every element stands for a number. */
  predicate AllNumbers(xs: seq<Value>) {
    forall i :: 0 <= i < |xs| ==> NumOf(xs[i]).Some?
  }

  /** The sum of the numbers a list stands for, taken from the front. */
  function Total(xs: seq<Value>): real
    requires AllNumbers(xs)
  {
    if xs == [] then 0.0 else NumOf(xs[0]).value + Total(xs[1..])
  }

  /** The front total of a list is that of all but its last element plus the last. */
  lemma {:induction false} TotalOfSnoc(xs: seq<Value>)
    requires xs != [] && AllNumbers(xs)
    ensures Total(xs) == Total(xs[..|xs| - 1]) + NumOf(xs[|xs| - 1]).value
    decreases |xs|
  {
    if |xs| > 1 {
      TotalOfSnoc(xs[1..]);
      assert xs[1..][..|xs| - 2] == xs[..|xs| - 1][1..];
    }
  }

  /** The type of `sum`'s running total after `xs`: it starts as the int 0, stays
      an int while only bools are added, and becomes a float with the first number. */
  function RunningType(xs: seq<Value>): string {
    if forall i :: 0 <= i < |xs| ==> xs[i].Bool? then "int" else "float"
  }

  /** The `TypeError` text of adding `v` to a running total of type `left`. */
  function AddError(left: string, v: Value): string {
    "unsupported operand type(s) for +: '" + left + "' and '" + TypeName(v) + "'"
  }

  /** Python's `sum(xs)`, added left to right: every element must be a number, and
      the result is their total; otherwise the first element that is not a number
      raises, naming the type the total has reached. */
  function Sum(xs: seq<Value>): (r: Result<real>)
    ensures r.Ok? <==> AllNumbers(xs)
    ensures r.Ok? ==> r.value == Total(xs)
    ensures r.Err? ==> exists k :: 0 <= k < |xs| && AllNumbers(xs[..k]) && NumOf(xs[k]).None?
                                   && r.msg == AddError(RunningType(xs[..k]), xs[k])
    decreases |xs|
  {
    if xs == [] then Ok(0.0)
    else
      var init := xs[..|xs| - 1];
      match Sum(init)
      case Err(m) =>
        var k :| 0 <= k < |init| && AllNumbers(init[..k]) && NumOf(init[k]).None?
                 && m == AddError(RunningType(init[..k]), init[k]);
        assert init[..k] == xs[..k] && init[k] == xs[k];
        Err(m)
      case Ok(total) =>
        match NumOf(xs[|xs| - 1])
        case None =>
          assert xs[..|xs| - 1] == init;
          Err(AddError(RunningType(init), xs[|xs| - 1]))
        case Some(x) =>
          TotalOfSnoc(xs);
          Ok(total + x)
  }

  lemma Sum4(a: real, b: real, c: real, d: real)
    ensures Sum([Num(a), Num(b), Num(c), Num(d)]) == Ok(a + b + c + d)
  {
    var s1 := [Num(a)];
    assert s1[..0] == [];
    assert Sum(s1) == Ok(a);
    var s2 := s1 + [Num(b)];
    assert s2[..1] == s1;
    assert Sum(s2) == Ok(a + b);
    var s3 := s2 + [Num(c)];
    assert s3[..2] == s2;
    assert Sum(s3) == Ok(a + b + c);
    var s4 := s3 + [Num(d)];
    assert s4[..3] == s3;
    assert s4 == [Num(a), Num(b), Num(c), Num(d)];
  }

  /** `compile_results(task, context_analysis, task_analysis)`. It completes
      exactly when the confidences can be read and added, a truthy deadline list can
      be sorted, and the overall analysis is a dict; any Python exception inside
      gives the `completed_with_errors` result instead. A completed result holds the
      mean of the four confidences, the task's title, the overall summary (with its
      default), the recommendations read from the parts, and the parts themselves. */
  function CompileResults(task: Task, contextAnalysis: Object, taskAnalysis: Object, stamp: string): (r: Outcome)
    ensures r.Completed? || r.CompletedWithErrors?
    ensures r.taskId == Field(task, "id", Null) && r.timestamp == stamp
    ensures var ds := DeadlinesPart(taskAnalysis);
      var scores := ConfidenceScores(EnhancementPart(taskAnalysis), CategoryPart(taskAnalysis),
                                     PriorityPart(taskAnalysis), ds);
      r.Completed? <==>
        && scores.Ok? && Sum(scores.value).Ok?
        && (Truthy(ds) ==> Sortable(ds.items))
        && OverallPart(taskAnalysis).Obj?
    ensures r.Completed? ==>
      var scores := ConfidenceScores(EnhancementPart(taskAnalysis), CategoryPart(taskAnalysis),
                                     PriorityPart(taskAnalysis), DeadlinesPart(taskAnalysis));
      r.overallConfidence == Sum(scores.value).value / 4.0
    ensures r.Completed? ==>
      && r.taskTitle == Field(task, "title", Null)
      && r.summary == Field(OverallPart(taskAnalysis).fields, "summary", Str("AI analysis completed"))
    ensures r.Completed? ==>
      var te := EnhancementPart(taskAnalysis);
      var cs := CategoryPart(taskAnalysis);
      var pa := PriorityPart(taskAnalysis);
      && r.recommendations.enhancedDescription == Field(te.fields, "enhanced_description", Null)
      && r.recommendations.enhancedTitle == Field(te.fields, "enhanced_title", Null)
      && r.recommendations.suggestedCategory == Field(cs.fields, "primary_suggestion", Null)
      && r.recommendations.priorityLevel == Field(pa.fields, "priority_level", Null)
      && r.recommendations.actionableSteps == Field(te.fields, "actionable_steps", Arr([]))
    ensures r.Completed? ==>
      r.detailed == Detailed(contextAnalysis, EnhancementPart(taskAnalysis), CategoryPart(taskAnalysis),
                             PriorityPart(taskAnalysis), DeadlinesPart(taskAnalysis), OverallPart(taskAnalysis))
    ensures r.CompletedWithErrors? ==> r.error != ""
  {
    CompileParts(task, contextAnalysis, EnhancementPart(taskAnalysis), CategoryPart(taskAnalysis),
                 PriorityPart(taskAnalysis), DeadlinesPart(taskAnalysis), OverallPart(taskAnalysis), stamp)
  }

  /** `CompileResults` once the five parts have been read from the analysis. */
  function CompileParts(task: Task, contextAnalysis: Object, te: Value, cs: Value, pa: Value, ds: Value, oa: Value,
                        stamp: string): (r: Outcome)
    ensures r.Completed? || r.CompletedWithErrors?
    ensures r.taskId == Field(task, "id", Null) && r.timestamp == stamp
    ensures var scores := ConfidenceScores(te, cs, pa, ds);
      r.Completed? <==> scores.Ok? && Sum(scores.value).Ok? && (Truthy(ds) ==> Sortable(ds.items)) && oa.Obj?
    ensures r.Completed? ==> r.overallConfidence == Sum(ConfidenceScores(te, cs, pa, ds).value).value / 4.0
    ensures r.Completed? ==>
      && r.taskTitle == Field(task, "title", Null)
      && r.summary == Field(oa.fields, "summary", Str("AI analysis completed"))
    ensures r.Completed? ==>
      && r.recommendations.enhancedDescription == Field(te.fields, "enhanced_description", Null)
      && r.recommendations.enhancedTitle == Field(te.fields, "enhanced_title", Null)
      && r.recommendations.suggestedCategory == Field(cs.fields, "primary_suggestion", Null)
      && r.recommendations.priorityLevel == Field(pa.fields, "priority_level", Null)
      && r.recommendations.actionableSteps == Field(te.fields, "actionable_steps", Arr([]))
    ensures r.Completed? ==> r.detailed == Detailed(contextAnalysis, te, cs, pa, ds, oa)
    ensures r.CompletedWithErrors? ==> r.error != ""
  {
    var id := Field(task, "id", Null);
    match ConfidenceScores(te, cs, pa, ds)
    case Err(m) => Errored(id, m, stamp)
    case Ok(scores) =>
      match Sum(scores)
      case Err(m) => Errored(id, m, stamp)
      case Ok(total) =>
        var deadline := if !Truthy(ds) then Ok(Null) else PrimaryDeadline(ds.items);
        match deadline
        case Err(m) => Errored(id, m, stamp)
        case Ok(date) =>
          match Get(oa, "summary", Str("AI analysis completed"))
          case Err(m) => Errored(id, m, stamp)
          case Ok(summary) =>
            Completed(id, Field(task, "title", Null), total / 4.0, summary,
              Recommendations(
                Field(te.fields, "enhanced_description", Null), Field(te.fields, "enhanced_title", Null),
                Field(cs.fields, "primary_suggestion", Null), Field(pa.fields, "priority_level", Null),
                date, Field(te.fields, "actionable_steps", Arr([]))),
              Detailed(contextAnalysis, te, cs, pa, ds, oa),
              stamp)
  }

  /** The `completed_with_errors` result for an exception text: the text is
      kept as `str(e)` gives it, and the summary quotes it. */
  function Errored(id: Value, msg: string, stamp: string): (r: Outcome)
    ensures r.CompletedWithErrors? && r.taskId == id && r.error == msg && r.timestamp == stamp
    ensures r.ErrorSummary() == "Pipeline completed with errors: " + msg
  {
    CompletedWithErrors(id, msg, stamp)
  }

  /** The suggested deadline is the date of the first suggestion with the highest
      confidence (`None` without suggestions). */
  lemma SuggestedDeadlineIsFirstBest(task: Task, contextAnalysis: Object, taskAnalysis: Object, stamp: string)
    requires CompileResults(task, contextAnalysis, taskAnalysis, stamp).Completed?
    ensures var ds := Field(taskAnalysis, "deadline_suggestions", Arr([]));
      var date := CompileResults(task, contextAnalysis, taskAnalysis, stamp).recommendations.suggestedDeadline;
      && (!Truthy(ds) ==> date == Null)
      && (Truthy(ds) ==> ds.Arr? && date == Field(ds.items[StableSort.FirstMax(ds.items, ConfidenceKey)].fields, "date", Null))
  {
  }

  /** A completed result's overall confidence is the mean of the four numbers the
      parts stand for: the enhancement's score, the primary suggestion's, the
      priority score over 100, and the first deadline's (0 without deadlines). */
  lemma OverallConfidenceIsMean(task: Task, contextAnalysis: Object, taskAnalysis: Object, stamp: string)
    requires CompileResults(task, contextAnalysis, taskAnalysis, stamp).Completed?
    ensures var te := EnhancementPart(taskAnalysis);
      var cs := CategoryPart(taskAnalysis);
      var pa := PriorityPart(taskAnalysis);
      var ds := DeadlinesPart(taskAnalysis);
      && ScoresDefined(te, cs, pa, ds)
      && var a := NumOf(Field(te.fields, "confidence_score", Num(0.0)));
         var b := NumOf(Field(PrimaryOf(cs.fields).fields, "confidence", Num(0.0)));
         var p := NumOf(Field(pa.fields, "priority_score", Num(50.0)));
         var d := NumOf(LeadConfidence(ds));
         && a.Some? && b.Some? && p.Some? && d.Some?
         && CompileResults(task, contextAnalysis, taskAnalysis, stamp).overallConfidence
            == (a.value + b.value + p.value / 100.0 + d.value) / 4.0
  {
    var te := EnhancementPart(taskAnalysis);
    var cs := CategoryPart(taskAnalysis);
    var pa := PriorityPart(taskAnalysis);
    var ds := DeadlinesPart(taskAnalysis);
    var xs := ConfidenceScores(te, cs, pa, ds).value;
    assert CompileResults(task, contextAnalysis, taskAnalysis, stamp).overallConfidence == Total(xs) / 4.0;
    assert AllNumbers(xs);
    assert NumOf(xs[0]).Some? && NumOf(xs[1]).Some? && NumOf(xs[2]).Some? && NumOf(xs[3]).Some?;
    var ys := xs[1..][1..][1..];
    assert ys == [xs[3]] && ys[1..] == [];
    assert Total(ys) == NumOf(xs[3]).value;
    assert Total(xs[1..][1..]) == NumOf(xs[2]).value + Total(ys);
    assert Total(xs[1..]) == NumOf(xs[1]).value + Total(xs[1..][1..]);
  }

  /** When the four confidences lie in [0, 1], so does the overall confidence. */
  lemma OverallConfidenceInUnitRange(a: real, b: real, c: real, d: real)
    requires 0.0 <= a <= 1.0 && 0.0 <= b <= 1.0 && 0.0 <= c <= 1.0 && 0.0 <= d <= 1.0
    ensures 0.0 <= Sum([Num(a), Num(b), Num(c), Num(d)]).value / 4.0 <= 1.0
  {
    Sum4(a, b, c, d);
  }

  /** Compiling the consolidated fallback record gives confidence exactly 0.125
      ((0 + 0 + 50/100 + 0) / 4) and the fallback's week-ahead deadline. */
  lemma FallbackCompilesToOneEighth(task: Task, contextAnalysis: Object, today: Dates.Ordinal, stamp: string)
    ensures var r := CompileResults(task, contextAnalysis, ConsolidatedAIService.FallbackAnalysis(task, today), stamp);
      && r.Completed?
      && r.overallConfidence == 0.125
      && r.recommendations.suggestedDeadline == Str(Dates.IsoDate(today + ConsolidatedAIService.FallbackWindowDays))
  {
    var fb := ConsolidatedAIService.FallbackAnalysis(task, today);
    ConsolidatedAIService.FallbackHasEnhancement(task, today);
    ConsolidatedAIService.FallbackHasCategory(task, today);
    ConsolidatedAIService.FallbackHasPriority(task, today);
    ConsolidatedAIService.FallbackHasDeadline(task, today);
    ConsolidatedAIService.FallbackHasOverall(task, today);
    var te := Obj(ConsolidatedAIService.FallbackEnhancement(task));
    var cs := Obj(ConsolidatedAIService.FallbackCategory());
    var pa := Obj(ConsolidatedAIService.FallbackPriority());
    var d0 := ConsolidatedAIService.FallbackDeadline(today);
    var ds := Arr([Obj(d0)]);
    FallbackScores(task, today);
    Sum4(0.0, 0.0, 0.5, 0.0);
    SingleDeadline(d0);
    CompileOfParts(task, contextAnalysis, fb, stamp, te, cs, pa, ds,
      [Num(0.0), Num(0.0), Num(0.5), Num(0.0)], 0.5, d0["date"]);
  }

  /** The confidences of the fallback's parts: 0, 0, 50/100 and 0. */
  lemma FallbackScores(task: Task, today: Dates.Ordinal)
    ensures ConfidenceScores(
      Obj(ConsolidatedAIService.FallbackEnhancement(task)), Obj(ConsolidatedAIService.FallbackCategory()),
      Obj(ConsolidatedAIService.FallbackPriority()), Arr([Obj(ConsolidatedAIService.FallbackDeadline(today))]))
      == Ok([Num(0.0), Num(0.0), Num(0.5), Num(0.0)])
  {
    var te := Obj(ConsolidatedAIService.FallbackEnhancement(task));
    var cs := Obj(ConsolidatedAIService.FallbackCategory());
    var pa := Obj(ConsolidatedAIService.FallbackPriority());
    var d0 := Obj(ConsolidatedAIService.FallbackDeadline(today));
    var ps := Obj(ConsolidatedAIService.FallbackPrimary());
    assert Get(te, "confidence_score", Num(0.0)) == Ok(Num(0.0));
    assert Get(cs, "primary_suggestion", Obj(map[])) == Ok(ps);
    assert Get(ps, "confidence", Num(0.0)) == Ok(Num(0.0));
    assert Get(pa, "priority_score", Num(50.0)) == Ok(Num(50.0));
    assert FirstItem(Arr([d0])) == Ok(d0);
    assert Get(d0, "confidence", Num(0.0)) == Ok(Num(0.0));
  }

  /** A single suggestion is the primary one. */
  lemma SingleDeadline(d0: Object)
    ensures PrimaryDeadline([Obj(d0)]) == Ok(Field(d0, "date", Null))
  {
    assert Sortable([Obj(d0)]);
    assert StableSort.FirstMax([Obj(d0)], ConfidenceKey) == 0;
  }

  /** `compile_results` on parts whose scores, sum and primary deadline succeed. */
  lemma CompileOfParts(task: Task, contextAnalysis: Object, ta: Object, stamp: string,
                       te: Value, cs: Value, pa: Value, ds: Value, scores: seq<Value>, total: real, date: Value)
    requires Field(ta, "task_enhancement", Obj(map[])) == te
    requires Field(ta, "category_suggestion", Obj(map[])) == cs
    requires Field(ta, "priority_analysis", Obj(map[])) == pa
    requires Field(ta, "deadline_suggestions", Arr([])) == ds
    requires Field(ta, "overall_analysis", Obj(map[])).Obj?
    requires ConfidenceScores(te, cs, pa, ds) == Ok(scores) && Sum(scores) == Ok(total)
    requires ds.Arr? && ds.items != [] && PrimaryDeadline(ds.items) == Ok(date)
    ensures var r := CompileResults(task, contextAnalysis, ta, stamp);
      r.Completed? && r.overallConfidence == total / 4.0 && r.recommendations.suggestedDeadline == date
  {
  }

  /** `process_new_task(task, context_data)`: analyse the context, analyse the
      task, compile. */
  function ProcessNewTask(engine: GeminiClient.Engine, parse: GeminiClient.Parser, show: Value -> string,
                          task: Task, ctx: Context, today: Dates.Ordinal, stamp: string): (r: Outcome)
    ensures r.Completed? || r.CompletedWithErrors?
    ensures r.taskId == Field(task, "id", Null)
  {
    CompileResults(task, AnalyzeContext(engine, parse, show, ctx),
      ConsolidatedAIService.ComprehensiveTaskAnalysis(engine, parse, show, task, ctx, today), stamp)
  }

  /** One batch entry: the step's outcome, or the `failed` entry carrying the task's
      id and the exception text when the step raises. */
  function BatchEntry(step: Task -> Result<Outcome>, task: Task): (r: Outcome)
    ensures step(task).Ok? ==> r == step(task).value
    ensures step(task).Err? ==> r == Failed(Field(task, "id", Null), step(task).msg, None)
  {
    match step(task)
    case Ok(o) => o
    case Err(m) => Failed(Field(task, "id", Null), m, None)
  }

  /** The loop of `batch_process_tasks`: one entry per task, in order, each
      depending on its own task only, so a task that raises cannot disturb another. */
  method BatchLoop(step: Task -> Result<Outcome>, tasks: seq<Task>) returns (results: seq<Outcome>)
    ensures |results| == |tasks|
    ensures forall i :: 0 <= i < |tasks| ==> results[i] == BatchEntry(step, tasks[i])
  {
    results := [];
    var k := 0;
    while k < |tasks|
      invariant 0 <= k <= |tasks|
      invariant |results| == k
      invariant forall i :: 0 <= i < k ==> results[i] == BatchEntry(step, tasks[i])
    {
      var entry := match step(tasks[k])
        case Ok(o) => o
        case Err(m) => Failed(Field(tasks[k], "id", Null), m, None);
      results := results + [entry];
      k := k + 1;
    }
  }

  /** `batch_process_tasks(tasks, context_data)`: the context is analysed once,
      before the loop, and every entry is what `process_new_task` gives for its task. */
  method BatchProcess(engine: GeminiClient.Engine, parse: GeminiClient.Parser, show: Value -> string,
                      tasks: seq<Task>, ctx: Context, today: Dates.Ordinal, stamp: string)
    returns (results: seq<Outcome>)
    ensures |results| == |tasks|
    ensures forall i :: 0 <= i < |tasks| ==> results[i] == ProcessNewTask(engine, parse, show, tasks[i], ctx, today, stamp)
  {
    var contextAnalysis := AnalyzeContext(engine, parse, show, ctx);
    results := BatchLoop(
      t => Ok(CompileResults(t, contextAnalysis,
                 ConsolidatedAIService.ComprehensiveTaskAnalysis(engine, parse, show, t, ctx, today), stamp)),
      tasks);
  }

  /** The health report. */
  datatype Health = Health(geminiApi: bool, consolidatedService: bool, timestamp: string, overallHealth: bool)

  /** `health_check()`: overall health is `all()` over the engine probe, the
      constant `True` of the consolidated service, and the (truthy) timestamp. */
  function HealthCheck(engine: GeminiClient.Engine, stamp: string): (h: Health)
    ensures h.geminiApi == ConsolidatedAIService.HealthCheck(engine)
    ensures stamp != "" ==> (h.overallHealth <==> h.geminiApi)
  {
    var api := ConsolidatedAIService.HealthCheck(engine);
    Health(api, true, stamp, api && true && stamp != "")
  }
}

=== FILE: priority_scorer.dfy ===
/** `backend/ai_service/priority_scorer.py`: the five weighted factors, the level
    bands, the keyword heuristics for workload, dependencies and context relevance,
    the clamped engine scores and the batch ordering. */
module PriorityScorer {
  import opened Base
  import Text
  import opened Json
  import StableSort
  import GeminiClient

  datatype Factor = Urgency | Importance | ContextRelevance | WorkloadImpact | DependencyFactor

  /** `scoring_factors`, in its declaration order. */
  const Factors: seq<Factor> := [Urgency, Importance, ContextRelevance, WorkloadImpact, DependencyFactor]

  function Weight(f: Factor): real {
    match f
    case Urgency => 0.3
    case Importance => 0.25
    case ContextRelevance => 0.2
    case WorkloadImpact => 0.15
    case DependencyFactor => 0.1
  }

  /** The weight `f` has in `scores`: its own weight when present, else 0. */
  function Share(f: Factor, scores: map<Factor, real>): real {
    if f in scores then Weight(f) else 0.0
  }

  /** What `f` adds to the weighted sum: weight·score when present, else 0. */
  function Contribution(f: Factor, scores: map<Factor, real>): real {
    if f in scores then scores[f] * Weight(f) else 0.0
  }

  /** Σ weight·score over the factors of `fs` that `scores` holds. */
  function WeightedSum(fs: seq<Factor>, scores: map<Factor, real>): real
    decreases |fs|
  {
    if fs == [] then 0.0 else Contribution(fs[0], scores) + WeightedSum(fs[1..], scores)
  }

  /** Σ weight over the factors of `fs` that `scores` holds. */
  function TotalWeight(fs: seq<Factor>, scores: map<Factor, real>): real
    decreases |fs|
  {
    if fs == [] then 0.0 else Share(fs[0], scores) + TotalWeight(fs[1..], scores)
  }

  /** The five weights add up to 1, so with every factor present the weighted
      score is the plain weighted sum. */
  lemma WeightsSumToOne(scores: map<Factor, real>)
    requires forall f :: f in scores
    ensures TotalWeight(Factors, scores) == 1.0
  {
    assert Urgency in scores && Importance in scores && ContextRelevance in scores;
    assert WorkloadImpact in scores && DependencyFactor in scores;
  }

  /** `calculate_weighted_score(scores)`. */
  function WeightedScore(scores: map<Factor, real>): (r: real)
    ensures TotalWeight(Factors, scores) <= 0.0 ==> r == 50.0
    ensures TotalWeight(Factors, scores) > 0.0 ==>
      r * TotalWeight(Factors, scores) == WeightedSum(Factors, scores)
  {
    var total := TotalWeight(Factors, scores);
    if total > 0.0 then WeightedSum(Factors, scores) / total else 50.0
  }

  predicate InPercentRange(x: real) { 0.0 <= x <= 100.0 }

  lemma ContributionBounds(f: Factor, scores: map<Factor, real>)
    requires f in scores ==> InPercentRange(scores[f])
    ensures 0.0 <= Contribution(f, scores) <= 100.0 * Share(f, scores)
  {
  }

  lemma {:induction false} WeightedSumBounds(fs: seq<Factor>, scores: map<Factor, real>)
    requires forall f :: f in scores ==> InPercentRange(scores[f])
    ensures 0.0 <= WeightedSum(fs, scores) <= 100.0 * TotalWeight(fs, scores)
    decreases |fs|
  {
    if fs != [] {
      WeightedSumBounds(fs[1..], scores);
      ContributionBounds(fs[0], scores);
    }
  }

  /** If every present sub-score lies in [0, 100], so does the weighted score. */
  lemma WeightedScoreInRange(scores: map<Factor, real>)
    requires forall f :: f in scores ==> InPercentRange(scores[f])
    ensures InPercentRange(WeightedScore(scores))
  {
    WeightedSumBounds(Factors, scores);
    var t := TotalWeight(Factors, scores);
    if t > 0.0 {
      QuotientInRange(WeightedSum(Factors, scores), t);
    }
  }

  lemma QuotientInRange(a: real, t: real)
    requires t > 0.0 && 0.0 <= a <= 100.0 * t
    ensures InPercentRange(a / t)
  {
    assert a / t * t == a;
  }

  lemma ContributionOfEqualScores(f: Factor, scores: map<Factor, real>, c: real)
    requires f in scores ==> scores[f] == c
    ensures Contribution(f, scores) == c * Share(f, scores)
  {
  }

  /** With every present score equal to `c`, the weighted sum is `c` times the weight. */
  lemma {:induction false} UniformScores(fs: seq<Factor>, scores: map<Factor, real>, c: real)
    requires forall f :: f in scores ==> scores[f] == c
    ensures WeightedSum(fs, scores) == c * TotalWeight(fs, scores)
    decreases |fs|
  {
    if fs != [] {
      UniformScores(fs[1..], scores, c);
      var a, b := Share(fs[0], scores), TotalWeight(fs[1..], scores);
      ContributionOfEqualScores(fs[0], scores, c);
      Distribute(c, a, b);
    } else {
      Distribute(c, 0.0, 0.0);
    }
  }

  lemma Distribute(c: real, a: real, b: real)
    ensures c * (a + b) == c * a + c * b
  {
  }

  /** The weighted score is a weighted mean: equal sub-scores give that score back. */
  lemma WeightedScoreOfEqualScores(scores: map<Factor, real>, c: real)
    requires scores != map[] && forall f :: f in scores ==> scores[f] == c
    ensures WeightedScore(scores) == c
  {
    var f :| f in scores;
    FactorListed(f);
    MeanOfEqualScores(Factors, scores, c, f);
  }

  lemma MeanOfEqualScores(fs: seq<Factor>, scores: map<Factor, real>, c: real, f: Factor)
    requires f in scores && f in fs && forall g :: g in scores ==> scores[g] == c
    ensures TotalWeight(fs, scores) > 0.0 && WeightedSum(fs, scores) / TotalWeight(fs, scores) == c
  {
    UniformScores(fs, scores, c);
    PresentFactorWeighs(fs, scores, f);
    Cancel(WeightedSum(fs, scores), c, TotalWeight(fs, scores));
  }

  lemma Cancel(sum: real, c: real, t: real)
    requires t > 0.0 && sum == c * t
    ensures sum / t == c
  {
  }

  lemma FactorListed(f: Factor)
    ensures f in Factors
  {
    match f
    case Urgency => assert Factors[0] == f;
    case Importance => assert Factors[1] == f;
    case ContextRelevance => assert Factors[2] == f;
    case WorkloadImpact => assert Factors[3] == f;
    case DependencyFactor => assert Factors[4] == f;
  }

  lemma {:induction false} PresentFactorWeighs(fs: seq<Factor>, scores: map<Factor, real>, f: Factor)
    requires f in scores && f in fs
    ensures TotalWeight(fs, scores) > 0.0
    decreases |fs|
  {
    if fs[0] != f {
      PresentFactorWeighs(fs[1..], scores, f);
    } else {
      TotalWeightNonNegative(fs[1..], scores);
    }
  }

  lemma {:induction false} TotalWeightNonNegative(fs: seq<Factor>, scores: map<Factor, real>)
    ensures TotalWeight(fs, scores) >= 0.0
    decreases |fs|
  {
    if fs != [] {
      TotalWeightNonNegative(fs[1..], scores);
    }
  }

  /** `get_priority_level(score)`. */
  function Level(score: real): string {
    if score >= 80.0 then "high"
    else if score >= 60.0 then "medium-high"
    else if score >= 40.0 then "medium"
    else if score >= 20.0 then "low-medium"
    else "low"
  }

  /** Position of a level in the order low < low-medium < medium < medium-high < high. */
  function LevelRank(level: string): nat {
    if level == "high" then 4
    else if level == "medium-high" then 3
    else if level == "medium" then 2
    else if level == "low-medium" then 1
    else 0
  }

  /** The level bands: each level is exactly one interval of scores, and a higher
      score never gets a lower level. */
  lemma LevelBandsAreMonotone(s1: real, s2: real)
    ensures Level(s1) == "high" <==> s1 >= 80.0
    ensures Level(s1) == "medium-high" <==> 60.0 <= s1 < 80.0
    ensures Level(s1) == "medium" <==> 40.0 <= s1 < 60.0
    ensures Level(s1) == "low-medium" <==> 20.0 <= s1 < 40.0
    ensures Level(s1) == "low" <==> s1 < 20.0
    ensures s1 <= s2 ==> LevelRank(Level(s1)) <= LevelRank(Level(s2))
  {
  }

  /** `min(100, max(0, x))`. */
  function Clamp(x: real): (r: real)
    ensures InPercentRange(r)
    ensures InPercentRange(x) ==> r == x
    ensures x < 0.0 ==> r == 0.0
    ensures x > 100.0 ==> r == 100.0
  {
    Min(100.0, Max(0.0, x))
  }

  /** Python's `float(v)`: numbers and booleans convert, a string goes through the
      float parser `toFloat`, anything else raises (`None`). */
  function FloatOf(v: Value, toFloat: string -> Option<real>): (r: Option<real>)
    ensures v.Num? ==> r == Some(v.n)
    ensures v.Str? ==> r == toFloat(v.s)
    ensures (v.Null? || v.Arr? || v.Obj?) ==> r == None
  {
    match v
    case Str(s) => toFloat(s)
    case _ => NumOf(v)
  }

  /** The score of an urgency or importance answer: the clamped `score`, or 50
      when the answer has an `"error"` key, has no `score`, or it does not convert. */
  function EngineScore(answer: Object, toFloat: string -> Option<real>): (r: real)
    ensures InPercentRange(r)
    ensures ("error" in answer || "score" !in answer) ==> r == 50.0
    ensures "error" !in answer && "score" in answer && FloatOf(answer["score"], toFloat).Some? ==>
      r == Clamp(FloatOf(answer["score"], toFloat).value)
    ensures "error" !in answer && "score" in answer && FloatOf(answer["score"], toFloat).None? ==> r == 50.0
  {
    if "error" !in answer && "score" in answer then
      match FloatOf(answer["score"], toFloat)
      case Some(x) => Clamp(x)
      case None => 50.0
    else 50.0
  }

  /** The engine inputs of the scorer: engine, JSON parser, float parser, and
      Python's `str()` of a float and of a value. */
  datatype Oracles = Oracles(engine: GeminiClient.Engine, parse: GeminiClient.Parser,
                             toFloat: string -> Option<real>, repr: real -> string, show: Value -> string)

  /** The values the urgency prompt interpolates: title, description, the
      context summary and the context's priority insights (`{}` when missing). */
  function UrgencyPrompt(task: Object, context: Object, show: Value -> string): string {
    GeminiClient.Prompt("evaluate_urgency", [
      Render(Field(task, "title", Str("")), show), Render(Field(task, "description", Str("")), show),
      Render(Field(context, "context_summary", Str("")), show),
      Render(Field(context, "priority_insights", Obj(map[])), show)])
  }

  /** The values the importance prompt interpolates: title, description, the
      task's category (`Unknown` when missing) and the context summary. */
  function ImportancePrompt(task: Object, context: Object, show: Value -> string): string {
    GeminiClient.Prompt("evaluate_importance", [
      Render(Field(task, "title", Str("")), show), Render(Field(task, "description", Str("")), show),
      Render(Field(task, "category", Str("Unknown")), show),
      Render(Field(context, "context_summary", Str("")), show)])
  }

  /** `evaluate_urgency(task, context)`: the engine's clamped `score` for the
      urgency prompt, 50 when the answer has an error, no score, or one that does
      not convert. */
  function EvaluateUrgency(o: Oracles, task: Object, context: Object): (r: real)
    ensures InPercentRange(r)
    ensures var answer := GeminiClient.StructuredResponse(o.engine, o.parse, UrgencyPrompt(task, context, o.show), "JSON");
      && (("error" in answer || "score" !in answer) ==> r == 50.0)
      && ("error" !in answer && "score" in answer ==>
            r == match FloatOf(answer["score"], o.toFloat) case Some(x) => Clamp(x) case None => 50.0)
  {
    EngineScore(GeminiClient.StructuredResponse(o.engine, o.parse, UrgencyPrompt(task, context, o.show), "JSON"), o.toFloat)
  }

  /** `evaluate_importance(task, context)`: the same reading of the engine's answer
      to the importance prompt. */
  function EvaluateImportance(o: Oracles, task: Object, context: Object): (r: real)
    ensures InPercentRange(r)
    ensures var answer := GeminiClient.StructuredResponse(o.engine, o.parse, ImportancePrompt(task, context, o.show), "JSON");
      && (("error" in answer || "score" !in answer) ==> r == 50.0)
      && ("error" !in answer && "score" in answer ==>
            r == match FloatOf(answer["score"], o.toFloat) case Some(x) => Clamp(x) case None => 50.0)
  {
    EngineScore(GeminiClient.StructuredResponse(o.engine, o.parse, ImportancePrompt(task, context, o.show), "JSON"), o.toFloat)
  }

  /** Base impact of a workload level: the busier, the lower. */
  function WorkloadBase(level: Value): (r: real)
    ensures level == Str("high") ==> r == 30.0
    ensures level == Str("medium") ==> r == 50.0
    ensures level != Str("high") && level != Str("medium") ==> r == 70.0
  {
    if level == Str("high") then 30.0 else if level == Str("medium") then 50.0 else 70.0
  }

  /** The deduction for the number of open action items. */
  function CountPenalty(count: real): (r: real)
    ensures count > 10.0 ==> r == 20.0
    ensures 5.0 < count <= 10.0 ==> r == 10.0
    ensures count <= 5.0 ==> r == 0.0
  {
    if count > 10.0 then 20.0 else if count > 5.0 then 10.0 else 0.0
  }

  /** `evaluate_workload_impact(task, workload)`; a count that cannot be compared
      with a number raises, and the except branch answers 50. */
  function EvaluateWorkloadImpact(workload: Object): (r: real)
    ensures NumOf(Field(workload, "action_item_count", Num(0.0))).None? ==> r == 50.0
    ensures NumOf(Field(workload, "action_item_count", Num(0.0))).Some? ==>
      var count := NumOf(Field(workload, "action_item_count", Num(0.0))).value;
      r == Max(0.0, WorkloadBase(Field(workload, "workload_level", Str("normal"))) - CountPenalty(count))
    ensures 10.0 <= r <= 70.0
  {
    match NumOf(Field(workload, "action_item_count", Num(0.0)))
    case None => 50.0
    case Some(count) =>
      Max(0.0, WorkloadBase(Field(workload, "workload_level", Str("normal"))) - CountPenalty(count))
  }

  /** More open items never raise the workload impact score, nor does a busier level. */
  lemma WorkloadImpactMonotone(level: Value, c1: real, c2: real)
    requires c1 <= c2
    ensures Max(0.0, WorkloadBase(level) - CountPenalty(c2)) <= Max(0.0, WorkloadBase(level) - CountPenalty(c1))
    ensures WorkloadBase(Str("high")) < WorkloadBase(Str("medium")) < WorkloadBase(level) || level in {Str("high"), Str("medium")}
  {
  }

  const DependencyKeywords: seq<string> := ["after", "depends on", "waiting for", "blocked by", "requires"]

  /** `k in s`, as a test on `k`. */
  function OccursIn(s: string): string -> bool {
    k => Text.Contains(s, k)
  }

  /** How many of `keys` occur in `s`: the number of positions of `keys` whose
      keyword `s` contains, hence 0 exactly when `s` mentions none of them. */
  function CountMentioned(s: string, keys: seq<string>): (n: nat)
    ensures n == |Positions(keys, OccursIn(s))|
    ensures n <= |keys|
    ensures n == 0 <==> !Text.MentionsAny(s, keys)
    decreases |keys|
  {
    if keys == [] then 0
    else
      var init := keys[..|keys| - 1];
      var last := keys[|keys| - 1];
      var rest := CountMentioned(s, init);
      assert keys == init + [last];
      PositionsOfSnoc(keys, OccursIn(s));
      assert forall k :: k in init ==> k in keys;
      assert Text.MentionsAny(s, keys) <==> Text.MentionsAny(s, init) || Text.Contains(s, last);
      rest + (if Text.Contains(s, last) then 1 else 0)
  }

  /** The dependency score of a description: 50, plus 20 per dependency keyword
      found in the lower-cased text, capped at 100. */
  function DependencyScore(description: string): (r: real)
    ensures 50.0 <= r <= 100.0
    ensures r == 50.0 <==> !Text.MentionsAny(Text.Lower(description), DependencyKeywords)
    ensures r == Min(100.0, 50.0 + 20.0 * CountMentioned(Text.Lower(description), DependencyKeywords) as real)
  {
    Min(100.0, 50.0 + 20.0 * CountMentioned(Text.Lower(description), DependencyKeywords) as real)
  }

  /** `evaluate_dependencies(task, context)`: a description that is not a string
      makes `.lower()` raise, and the except branch answers 50. */
  function EvaluateDependencies(task: Object): (r: real)
    ensures 50.0 <= r <= 100.0
    ensures Field(task, "description", Str("")).Str? ==>
      r == DependencyScore(Field(task, "description", Str("")).s)
  {
    match Field(task, "description", Str(""))
    case Str(d) => DependencyScore(d)
    case _ => 50.0
  }

  /** `set(a.split()) & set(b.split())` is not empty. */
  predicate ShareWord(a: string, b: string) {
    exists w :: w in Text.Words(a) && w in Text.Words(b)
  }

  /** The title and description strings of an extracted task, or `None` where
      Python would raise (`.get` on a non-dict, `.lower()` on a non-string). */
  function TitleAndDescription(v: Value): (r: Option<(string, string)>)
    ensures r.Some? <==> v.Obj? && Field(v.fields, "title", Str("")).Str? && Field(v.fields, "description", Str("")).Str?
    ensures r.Some? ==> r.value == (Field(v.fields, "title", Str("")).s, Field(v.fields, "description", Str("")).s)
  {
    if !v.Obj? then None
    else
      match (Field(v.fields, "title", Str("")), Field(v.fields, "description", Str("")))
      case (Str(t), Str(d)) => Some((t, d))
      case _ => None
  }

  /** Every extracted task can be read without Python raising. */
  predicate Readable(xs: seq<Value>) {
    forall i :: 0 <= i < |xs| ==> TitleAndDescription(xs[i]).Some?
  }

  /** An extracted task earns the 20 title points: lower-cased, its title and
      `title` share a word. */
  function TitleHit(title: string): Value -> bool {
    v => TitleAndDescription(v).Some? && ShareWord(Text.Lower(title), Text.Lower(TitleAndDescription(v).value.0))
  }

  /** An extracted task earns the 15 description points: some word of its
      lower-cased description occurs in the lower-cased `desc`. */
  function DescHit(desc: string): Value -> bool {
    v => TitleAndDescription(v).Some?
         && Text.MentionsAny(Text.Lower(desc), Text.Words(Text.Lower(TitleAndDescription(v).value.1)))
  }

  /** The uncapped relevance of the extracted tasks `xs`: 20 points per task whose
      title shares a word with the task's, 15 per task whose description has a word
      in the task's description; `None` if one of them makes Python raise. */
  function RelevancePoints(title: string, desc: string, xs: seq<Value>): (r: Option<real>)
    ensures r.Some? <==> Readable(xs)
    ensures r.Some? ==>
      r.value == 20.0 * |Positions(xs, TitleHit(title))| as real + 15.0 * |Positions(xs, DescHit(desc))| as real
    decreases |xs|
  {
    if xs == [] then Some(0.0)
    else
      var init := xs[..|xs| - 1];
      var last := xs[|xs| - 1];
      assert xs == init + [last];
      match RelevancePoints(title, desc, init)
      case None => None
      case Some(rest) =>
        if TitleAndDescription(last).None? then None
        else
          PositionsOfSnoc(xs, TitleHit(title));
          PositionsOfSnoc(xs, DescHit(desc));
          Some(rest + (if TitleHit(title)(last) then 20.0 else 0.0) + (if DescHit(desc)(last) then 15.0 else 0.0))
  }

  /** `evaluate_context_relevance(task, context)`: 50 plus the points of the
      extracted tasks, capped at 100; 50 whenever Python raises on the way (a title
      or description that is not a string, extracted tasks that cannot be
      iterated or read). */
  function EvaluateContextRelevance(task: Object, context: Object): (r: real)
    ensures 50.0 <= r <= 100.0
    ensures var title := Field(task, "title", Str(""));
      var desc := Field(task, "description", Str(""));
      var items := DictItems(Field(context, "extracted_tasks", Arr([])));
      if title.Str? && desc.Str? && items.Some? && Readable(items.value) then
        r == Min(100.0, 50.0 + 20.0 * |Positions(items.value, TitleHit(title.s))| as real
                              + 15.0 * |Positions(items.value, DescHit(desc.s))| as real)
      else r == 50.0
  {
    match (Field(task, "title", Str("")), Field(task, "description", Str("")))
    case (Str(title), Str(desc)) =>
      (match DictItems(Field(context, "extracted_tasks", Arr([])))
       case None => 50.0
       case Some(xs) =>
         match RelevancePoints(title, desc, xs)
         case Some(points) => Min(100.0, 50.0 + points)
         case None => 50.0)
    case _ => 50.0
  }

  /** The relevance with `xs` as the extracted tasks of a task whose title and
      description are strings. */
  lemma RelevanceWithExtracted(task: Object, context: Object, xs: seq<Value>, title: string, desc: string)
    requires Field(task, "title", Str("")) == Str(title) && Field(task, "description", Str("")) == Str(desc)
    requires Readable(xs)
    ensures EvaluateContextRelevance(task, context["extracted_tasks" := Arr(xs)])
         == Min(100.0, 50.0 + 20.0 * |Positions(xs, TitleHit(title))| as real
                             + 15.0 * |Positions(xs, DescHit(desc))| as real)
  {
    assert Field(context["extracted_tasks" := Arr(xs)], "extracted_tasks", Arr([])) == Arr(xs);
  }

  /** One more readable extracted task never lowers the context relevance. */
  lemma AnotherExtractedTaskNeverLowersRelevance(task: Object, context: Object, xs: seq<Value>, x: Value)
    requires Readable(xs + [x])
    ensures EvaluateContextRelevance(task, context["extracted_tasks" := Arr(xs)])
         <= EvaluateContextRelevance(task, context["extracted_tasks" := Arr(xs + [x])])
  {
    var ys := xs + [x];
    assert ys[..|ys| - 1] == xs;
    match (Field(task, "title", Str("")), Field(task, "description", Str("")))
    case (Str(title), Str(desc)) =>
      assert forall i :: 0 <= i < |xs| ==> xs[i] == ys[i];
      PositionsOfSnoc(ys, TitleHit(title));
      PositionsOfSnoc(ys, DescHit(desc));
      RelevanceWithExtracted(task, context, xs, title, desc);
      RelevanceWithExtracted(task, context, ys, title, desc);
    case _ =>
  }

  /** The score breakdown the five evaluations produce. */
  function Breakdown(o: Oracles, task: Object, context: Object, workload: Object): (m: map<Factor, real>)
    ensures forall f :: f in m
    ensures forall f :: f in m ==> InPercentRange(m[f])
    ensures m[Urgency] == EvaluateUrgency(o, task, context)
    ensures m[Importance] == EvaluateImportance(o, task, context)
    ensures m[ContextRelevance] == EvaluateContextRelevance(task, context)
    ensures m[WorkloadImpact] == EvaluateWorkloadImpact(workload)
    ensures m[DependencyFactor] == EvaluateDependencies(task)
  {
    var u := EvaluateUrgency(o, task, context);
    var i := EvaluateImportance(o, task, context);
    var c := EvaluateContextRelevance(task, context);
    var w := EvaluateWorkloadImpact(workload);
    var d := EvaluateDependencies(task);
    FactorMap(u, i, c, w, d)
  }

  /** The breakdown dict of five scores, one per factor. */
  function FactorMap(u: real, i: real, c: real, w: real, d: real): (m: map<Factor, real>)
    requires InPercentRange(u) && InPercentRange(i) && InPercentRange(c) && InPercentRange(w) && InPercentRange(d)
    ensures forall f :: f in m
    ensures forall f :: f in m ==> InPercentRange(m[f])
    ensures m[Urgency] == u && m[Importance] == i && m[ContextRelevance] == c
    ensures m[WorkloadImpact] == w && m[DependencyFactor] == d
  {
    FiveScoresInRange(u, i, c, w, d);
    map[Urgency := u, Importance := i, ContextRelevance := c, WorkloadImpact := w, DependencyFactor := d]
  }

  lemma FiveScoresInRange(u: real, i: real, c: real, w: real, d: real)
    requires InPercentRange(u) && InPercentRange(i) && InPercentRange(c) && InPercentRange(w) && InPercentRange(d)
    ensures var m := map[Urgency := u, Importance := i, ContextRelevance := c, WorkloadImpact := w, DependencyFactor := d];
      && (forall f :: f in m)
      && (forall f :: f in m ==> InPercentRange(m[f]))
  {
    var m := map[Urgency := u, Importance := i, ContextRelevance := c, WorkloadImpact := w, DependencyFactor := d];
    EveryFactorIn(m);
    forall f | f in m ensures InPercentRange(m[f]) {
      match f
      case Urgency => case Importance => case ContextRelevance =>
      case WorkloadImpact => case DependencyFactor =>
    }
  }

  /** A map that holds the five factors by name holds every factor. */
  lemma EveryFactorIn<V>(m: map<Factor, V>)
    requires Urgency in m && Importance in m && ContextRelevance in m
    requires WorkloadImpact in m && DependencyFactor in m
    ensures forall f :: f in m
  {
    forall f: Factor ensures f in m {
      match f
      case Urgency => case Importance => case ContextRelevance =>
      case WorkloadImpact => case DependencyFactor =>
    }
  }

  datatype PriorityResult = PriorityResult(score: real, breakdown: map<Factor, real>, reasoning: string, level: string)

  /** A factor's value as the reasoning prompt renders it: `0` when the
      breakdown lacks it. */
  function FactorText(o: Oracles, b: map<Factor, real>, f: Factor): string {
    if f in b then o.repr(b[f]) else "0"
  }

  /** The values the reasoning prompt interpolates: the title, the final score
      and the five factor scores. */
  function ReasoningPrompt(o: Oracles, task: Object, score: real, b: map<Factor, real>): string {
    GeminiClient.Prompt("priority_reasoning", [
      Render(Field(task, "title", Str("")), o.show), o.repr(score),
      FactorText(o, b, Urgency), FactorText(o, b, Importance), FactorText(o, b, ContextRelevance),
      FactorText(o, b, WorkloadImpact), FactorText(o, b, DependencyFactor)])
  }

  const ScoreReasoningPrefix := "Priority score: "

  /** `generate_priority_reasoning(task, score, breakdown)`: the engine's text, or
      "Priority score: s/100" when it is empty or the call raises. */
  function Reasoning(o: Oracles, task: Object, score: real, b: map<Factor, real>): (r: string)
    ensures r != ""
    ensures var reply := o.engine(ReasoningPrompt(o, task, score, b));
      && (reply.Answer? && reply.text != "" ==> r == reply.text)
      && (reply.Answer? && reply.text == "" ==> r == ScoreReasoningPrefix + o.repr(score) + "/100")
      && (reply.Failure? ==> r == ScoreReasoningPrefix + o.repr(score) + "/100")
  {
    match o.engine(ReasoningPrompt(o, task, score, b))
    case Answer(text) => if text != "" then text else ScoreReasoningPrefix + o.repr(score) + "/100"
    case Failure(_) => ScoreReasoningPrefix + o.repr(score) + "/100"
  }

  /** `calculate_priority_score(task, context, workload)`. */
  function CalculatePriorityScore(o: Oracles, task: Object, context: Object, workload: Object): (r: PriorityResult)
    ensures InPercentRange(r.score)
    ensures r.level == Level(r.score)
    ensures r.score == WeightedScore(r.breakdown)
    ensures r.breakdown == Breakdown(o, task, context, workload)
    ensures r.reasoning == Reasoning(o, task, r.score, r.breakdown)
  {
    var b := Breakdown(o, task, context, workload);
    var score := WeightedScore(b);
    WeightedScoreInRange(b);
    PriorityResult(score, b, Reasoning(o, task, score, b), Level(score))
  }

  /** With all five factors present, the final score is their weighted sum:
      0.3 urgency + 0.25 importance + 0.2 context relevance + 0.15 workload
      impact + 0.1 dependencies. */
  lemma ScoreIsWeightedEvaluations(o: Oracles, task: Object, context: Object, workload: Object)
    ensures CalculatePriorityScore(o, task, context, workload).score ==
      0.3 * EvaluateUrgency(o, task, context) + 0.25 * EvaluateImportance(o, task, context)
      + 0.2 * EvaluateContextRelevance(task, context) + 0.15 * EvaluateWorkloadImpact(workload)
      + 0.1 * EvaluateDependencies(task)
  {
    var b := Breakdown(o, task, context, workload);
    WeightsSumToOne(b);
    WeightedSumOfFive(b);
  }

  /** The weighted sum over a map that holds every factor. */
  lemma WeightedSumOfFive(b: map<Factor, real>)
    requires forall f :: f in b
    ensures WeightedSum(Factors, b) ==
      0.3 * b[Urgency] + 0.25 * b[Importance] + 0.2 * b[ContextRelevance]
      + 0.15 * b[WorkloadImpact] + 0.1 * b[DependencyFactor]
  {
    assert Urgency in b && Importance in b && ContextRelevance in b;
    assert WorkloadImpact in b && DependencyFactor in b;
  }

  /** A task annotated with its `ai_priority_*` keys, and the score it sorts by. */
  datatype Prioritized = Prioritized(record: Object, score: real)

  function ScoreOf(p: Prioritized): real { p.score }

  function Annotate(task: Object, r: PriorityResult): (p: Prioritized)
    ensures p.score == r.score
    ensures "ai_priority_score" in p.record && p.record["ai_priority_score"] == Num(r.score)
    ensures "ai_priority_level" in p.record && p.record["ai_priority_level"] == Str(r.level)
    ensures "ai_priority_reasoning" in p.record && p.record["ai_priority_reasoning"] == Str(r.reasoning)
    ensures forall k :: k in task && k !in {"ai_priority_score", "ai_priority_level", "ai_priority_reasoning"} ==>
      k in p.record && p.record[k] == task[k]
  {
    Prioritized(task["ai_priority_score" := Num(r.score)]["ai_priority_level" := Str(r.level)]
                    ["ai_priority_reasoning" := Str(r.reasoning)], r.score)
  }

  /** `batch_prioritize_tasks(tasks, context, workload)` for a given per-task
      result: the annotated tasks, stably sorted by score, highest first. */
  function BatchPrioritizeWith(tasks: seq<Object>, result: Object -> PriorityResult): (r: seq<Prioritized>)
    ensures |r| == |tasks|
    ensures StableSort.SortedDesc(r, ScoreOf)
    ensures multiset(r) == multiset(seq(|tasks|, i requires 0 <= i < |tasks| => Annotate(tasks[i], result(tasks[i]))))
    ensures forall i :: 0 <= i < |r| ==> exists j :: 0 <= j < |tasks| && r[i] == Annotate(tasks[j], result(tasks[j]))
  {
    var annotated := seq(|tasks|, i requires 0 <= i < |tasks| => Annotate(tasks[i], result(tasks[i])));
    var r := StableSort.SortDesc(annotated, ScoreOf);
    assert forall i :: 0 <= i < |r| ==> exists j :: 0 <= j < |tasks| && r[i] == Annotate(tasks[j], result(tasks[j])) by {
      forall i | 0 <= i < |r|
        ensures exists j :: 0 <= j < |tasks| && r[i] == Annotate(tasks[j], result(tasks[j]))
      {
        assert r[i] in multiset(r);
        assert r[i] in annotated;
      }
    }
    r
  }

  /** Tasks with equal scores stay in their input order. */
  lemma BatchKeepsTiesInOrder(tasks: seq<Object>, result: Object -> PriorityResult, v: real)
    ensures var annotated := seq(|tasks|, i requires 0 <= i < |tasks| => Annotate(tasks[i], result(tasks[i])));
      StableSort.WithKey(BatchPrioritizeWith(tasks, result), ScoreOf, v) == StableSort.WithKey(annotated, ScoreOf, v)
  {
    var annotated := seq(|tasks|, i requires 0 <= i < |tasks| => Annotate(tasks[i], result(tasks[i])));
    StableSort.SortIsStable(annotated, ScoreOf, v);
  }

  /** `batch_prioritize_tasks` with the scorer itself. */
  function BatchPrioritize(o: Oracles, tasks: seq<Object>, context: Object, workload: Object): (r: seq<Prioritized>)
    ensures |r| == |tasks|
    ensures StableSort.SortedDesc(r, ScoreOf)
    ensures forall i :: 0 <= i < |r| ==> InPercentRange(r[i].score)
  {
    BatchPrioritizeWith(tasks, t => CalculatePriorityScore(o, t, context, workload))
  }
}

=== FILE: serializers.dfy ===
/** `backend/todo/serializers.py`: the field validators of the category, task
    and context-entry serializers, and the resolution of `category_id`. The
    category table is passed in as the list of stored names or the set of
    stored ids. */
module Serializers {
  import opened Base
  import opened Text
  import opened Json
  import Numbers
  import Constants

  /** Stripping twice is stripping once. */
  lemma StripIsIdempotent(s: string)
    ensures Strip(Strip(s)) == Strip(s)
  {
    if Strip(s) != "" {
      Numbers.StripKeepsText(Strip(s));
    }
  }

  /** The shared rule of the name, title and content validators: the stripped
      text, or `message` when nothing but white space is left. */
  function NonBlank(value: string, message: string): (r: Result<string>)
    ensures r.Err? <==> IsBlank(value)
    ensures r.Err? ==> r.msg == message
    ensures r.Ok? ==> r.value == Strip(value) && r.value != ""
    ensures r.Ok? ==> !IsSpace(r.value[0]) && !IsSpace(r.value[|r.value| - 1])
  {
    if value == "" || Strip(value) == "" then Err(message) else Ok(Strip(value))
  }

  /** A value the rule accepts passes it again unchanged. */
  lemma NonBlankIsIdempotent(value: string, message: string)
    requires NonBlank(value, message).Ok?
    ensures NonBlank(NonBlank(value, message).value, message) == NonBlank(value, message)
  {
    StripIsIdempotent(value);
  }

  /** A case-insensitive name match, as the `iexact` lookup compares. */
  predicate SameName(a: string, b: string) {
    Lower(a) == Lower(b)
  }

  /** `CategorySerializer.validate_name(value)` against the stored names, while
      editing the category named `instance` (if any): the stripped name, unless
      it is blank or matches another category's name case-insensitively. */
  function ValidateName(value: string, stored: seq<string>, instance: Option<string>): (r: Result<string>)
    ensures IsBlank(value) ==> r == Err("Category name cannot be empty")
    ensures !IsBlank(value) ==>
      var name := Strip(value);
      && (r.Ok? <==> (forall i :: 0 <= i < |stored| ==> !SameName(stored[i], name))
                     || (instance.Some? && SameName(instance.value, name)))
      && (r.Ok? ==> r.value == name)
      && (r.Err? ==> r.msg == "A category with this name already exists")
  {
    match NonBlank(value, "Category name cannot be empty")
    case Err(msg) => Err(msg)
    case Ok(name) =>
      if exists i :: 0 <= i < |stored| && SameName(stored[i], name) then
        if instance.Some? && SameName(instance.value, name) then Ok(name)
        else Err("A category with this name already exists")
      else Ok(name)
  }

  /** Renaming a category to a different spelling of its own name is accepted. */
  lemma OwnNameIsNoDuplicate(value: string, stored: seq<string>, own: string)
    requires !IsBlank(value) && SameName(own, Strip(value))
    ensures ValidateName(value, stored, Some(own)) == Ok(Strip(value))
  {
  }

  /** `TaskSerializer.validate_title(value)`. */
  function ValidateTitle(value: string): (r: Result<string>)
    ensures r.Err? <==> IsBlank(value)
    ensures r.Err? ==> r.msg == "Task title cannot be empty"
    ensures r.Ok? ==> r.value == Strip(value) && r.value != ""
  {
    NonBlank(value, "Task title cannot be empty")
  }

  /** `TaskSerializer.validate_deadline(value)` at time `now`. */
  function ValidateDeadline(value: Option<int>, now: int): (r: Result<Option<int>>)
    ensures r.Err? <==> value.Some? && value.value < now
    ensures r.Ok? ==> r.value == value
  {
    if value.Some? && value.value < now then Err("Deadline cannot be in the past") else Ok(value)
  }

  /** `TaskSerializer.validate_priority(value)`. */
  function ValidatePriority(value: int): (r: Result<int>)
    ensures r.Ok? <==> value in {1, 2, 3}
    ensures r.Ok? ==> r.value == value
  {
    if value !in [1, 2, 3] then Err("Priority must be 1 (High), 2 (Medium), or 3 (Low)") else Ok(value)
  }

  const ValidStatuses: seq<string> := ["Pending", "In Progress", "Completed"]

  /** `TaskSerializer.validate_status(value)`. */
  function ValidateStatus(value: string): (r: Result<string>)
    ensures r.Ok? <==> value == "Pending" || value == "In Progress" || value == "Completed"
    ensures r.Ok? ==> r.value == value
    ensures r.Err? ==> r.msg == "Status must be one of: Pending, In Progress, Completed"
  {
    if value !in ValidStatuses then Err("Status must be one of: Pending, In Progress, Completed") else Ok(value)
  }

  /** `TaskSerializer.validate_priority_score(value)`. */
  function ValidatePriorityScore(value: Option<real>): (r: Result<Option<real>>)
    ensures r.Ok? <==> value.None? || 0.0 <= value.value <= 1.0
    ensures r.Ok? ==> r.value == value
  {
    if value.Some? && !(0.0 <= value.value <= 1.0) then Err("Priority score must be between 0.0 and 1.0")
    else Ok(value)
  }

  /** `TaskSerializer.validate(attrs)` against the stored category ids: a truthy
      `category_id` must resolve and then becomes `category`; `category_id` is
      removed in every accepted case. */
  function Validate(attrs: Object, categories: set<string>): (r: Result<Object>)
    ensures var id := Field(attrs, "category_id", Null);
      && (r.Err? <==> Truthy(id) && !(id.Str? && id.s in categories))
      && (r.Ok? ==> "category_id" !in r.value)
      && (r.Ok? && Truthy(id) ==> "category" in r.value && r.value["category"] == id)
      && (r.Ok? && !Truthy(id) ==> r.value == attrs - {"category_id"})
    ensures r.Ok? ==> forall k :: k in attrs && k != "category_id" && k != "category" ==> k in r.value && r.value[k] == attrs[k]
  {
    var id := Field(attrs, "category_id", Null);
    if Truthy(id) then
      if id.Str? && id.s in categories then Ok(attrs["category" := id] - {"category_id"})
      else Err("Invalid category ID")
    else Ok(attrs - {"category_id"})
  }

  /** `ContextEntrySerializer.validate_content(value)`. */
  function ValidateContent(value: string): (r: Result<string>)
    ensures r.Err? <==> IsBlank(value)
    ensures r.Err? ==> r.msg == "Content cannot be empty"
    ensures r.Ok? ==> r.value == Strip(value) && r.value != ""
  {
    NonBlank(value, "Content cannot be empty")
  }

  const ValidSourceTypes: seq<string> := ["WhatsApp", "Email", "Note"]

  /** `ContextEntrySerializer.validate_sourceType(value)`. */
  function ValidateSourceType(value: string): (r: Result<string>)
    ensures r.Ok? <==> value == "WhatsApp" || value == "Email" || value == "Note"
    ensures r.Ok? ==> r.value == value
    ensures r.Err? ==> r.msg == "Source type must be one of: WhatsApp, Email, Note"
  {
    if value !in ValidSourceTypes then Err("Source type must be one of: WhatsApp, Email, Note") else Ok(value)
  }

  /** The serializers accept exactly the enumerations' values: the statuses of
      `TaskStatus`, the priorities of `TaskPriority` and the source types of
      `ContextSourceType`. */
  lemma ValidatorsMatchEnumerations(status: string, priority: int, source: string)
    ensures ValidateStatus(status).Ok? <==> status in Constants.StatusValues
    ensures ValidatePriority(priority).Ok? <==>
      exists i :: 0 <= i < |Constants.PriorityChoices()| && Constants.PriorityChoices()[i].0 == priority
    ensures ValidateSourceType(source).Ok? <==> source in Constants.SourceTypeValues
  {
    var cs := Constants.PriorityChoices();
    if priority in {1, 2, 3} {
      assert cs[priority - 1].0 == priority;
    }
  }
}

=== FILE: settings.dfy ===
/** `backend/config/settings.py`: reading typed settings from the process
    environment, passed in as a map from names to values, and the check that
    the required secrets are present. */
module Settings {
  import opened Base
  import opened Text
  import opened Json
  import Numbers

  type Env = map<string, string>

  /** `get_setting(key, default, required)`: the environment's value, else the
      default; an error only when the setting is required and both are absent
      (an empty value counts as present). */
  function GetSetting(env: Env, key: string, default: Option<string>, required: bool): (r: Result<Option<string>>)
    ensures r.Err? <==> required && key !in env && default.None?
    ensures r.Err? ==> r.msg == "Required setting '" + key + "' is not configured"
    ensures r.Ok? && key in env ==> r.value == Some(env[key])
    ensures r.Ok? && key !in env ==> r.value == default
  {
    var value := if key in env then Some(env[key]) else default;
    if required && value.None? then Err("Required setting '" + key + "' is not configured") else Ok(value)
  }

  const TrueWords: seq<string> := ["true", "1", "yes", "on"]

  /** `get_boolean_setting(key, default)`: the value, or `str(default)`, lowered
      and looked up among the four words that mean true. */
  function GetBooleanSetting(env: Env, key: string, default: bool): (r: bool)
    ensures key !in env ==> r == default
    ensures key in env ==> (r <==> Lower(env[key]) in TrueWords)
  {
    var value := if key in env then env[key] else if default then "True" else "False";
    assert Lower("True") == "true" && Lower("False") == "false";
    Lower(value) in TrueWords
  }

  /** `get_int_setting(key, default)`: `int()` of the value, or the default when
      the key is absent or the value does not parse. */
  function GetIntSetting(env: Env, key: string, default: int): (r: int)
    ensures key !in env ==> r == default
    ensures key in env && Numbers.ParseInt(env[key]).None? ==> r == default
    ensures key in env && Numbers.ParseInt(env[key]).Some? ==> r == Numbers.ParseInt(env[key]).value
  {
    var value := if key in env then env[key] else Numbers.IntToString(default);
    Numbers.ParseIntRoundTrip(default);
    match Numbers.ParseInt(value)
    case Some(n) => n
    case None => default
  }

  /** A setting written as `str(n)` reads back as `n`. */
  lemma IntSettingRoundTrip(env: Env, key: string, n: int, default: int)
    ensures GetIntSetting(env[key := Numbers.IntToString(n)], key, default) == n
  {
    Numbers.ParseIntRoundTrip(n);
  }

  /** A character absent from a text is absent from its stripped form. */
  lemma StripDropsNoAbsentChar(s: string, c: char)
    requires c !in s
    ensures c !in Strip(s)
  {
    var a := LeadCount(s);
    var r := Strip(s);
    forall i | 0 <= i < |r| ensures r[i] != c {
      assert r[i] == s[a + i];
    }
  }

  /** An item as the list reader keeps it: non-empty, with no white space at
      either end. */
  predicate Stripped(x: string) {
    x != "" && !IsSpace(x[0]) && !IsSpace(x[|x| - 1])
  }

  /** `[item.strip() for item in parts if item.strip()]`. */
  function CleanItems(parts: seq<string>): (r: seq<string>)
    ensures |r| <= |parts|
    ensures forall i :: 0 <= i < |r| ==> Stripped(r[i])
    decreases |parts|
  {
    if parts == [] then []
    else
      var head := Strip(parts[0]);
      var rest := CleanItems(parts[1..]);
      if head != "" then [head] + rest else rest
  }

  /** Stripping and dropping pieces brings in no separator. */
  lemma {:induction false} CleanItemsKeepSeparatorOut(parts: seq<string>, sep: char)
    requires forall i :: 0 <= i < |parts| ==> sep !in parts[i]
    ensures forall i :: 0 <= i < |CleanItems(parts)| ==> sep !in CleanItems(parts)[i]
    decreases |parts|
  {
    if parts != [] {
      StripDropsNoAbsentChar(parts[0], sep);
      assert forall i :: 1 <= i < |parts| ==> parts[i] == parts[1..][i - 1];
      CleanItemsKeepSeparatorOut(parts[1..], sep);
    }
  }

  /** `get_list_setting(key, default, separator)` for a one-character separator:
      the default for an absent or empty value, else the stripped non-empty
      pieces between separators. */
  function GetListSetting(env: Env, key: string, default: seq<string>, sep: char): (r: seq<string>)
    ensures key !in env || env[key] == "" ==> r == default
    ensures key in env && env[key] != "" ==>
      forall i :: 0 <= i < |r| ==> Stripped(r[i]) && sep !in r[i]
  {
    var value := if key in env then env[key] else "";
    if value == "" then default
    else
      var parts := Split(value, sep);
      assert forall i :: 0 <= i < |parts| ==> parts[i] in parts;
      CleanItemsKeepSeparatorOut(parts, sep);
      CleanItems(parts)
  }

  /** Splitting a join of separator-free pieces gives the pieces back. */
  lemma {:induction false} SplitOfJoin(items: seq<string>, sep: char)
    requires items != []
    requires forall x :: x in items ==> sep !in x
    ensures Split(Join(items, [sep]), sep) == items
    decreases |items|
  {
    var x := items[0];
    if |items| == 1 {
      assert Join(items, [sep]) == x;
    } else {
      var rest := Join(items[1..], [sep]);
      var s := x + [sep] + rest;
      assert items == [x] + items[1..];
      JoinCons(x, items[1..], [sep]);
      SplitAtFirst(x, sep, rest);
      assert forall y :: y in items[1..] ==> y in items;
      SplitOfJoin(items[1..], sep);
    }
  }

  /** Splitting at the first separator of `x + [sep] + rest`, when `x` has none. */
  lemma SplitAtFirst(x: string, sep: char, rest: string)
    requires sep !in x
    ensures Split(x + [sep] + rest, sep) == [x] + Split(rest, sep)
  {
    var s := x + [sep] + rest;
    assert s[|x|] == sep;
    assert s[..|x|] == x && s[|x| + 1..] == rest;
    assert Find(s, sep) == |x| by {
      assert s[..|x|] == x;
    }
  }

  /** A list of clean, non-empty, separator-free items written joined by the
      separator reads back unchanged. */
  lemma {:induction false} ListSettingRoundTrip(env: Env, key: string, items: seq<string>, default: seq<string>, sep: char)
    requires items != []
    requires forall i :: 0 <= i < |items| ==> Stripped(items[i]) && sep !in items[i]
    ensures GetListSetting(env[key := Join(items, [sep])], key, default, sep) == items
  {
    SplitOfJoin(items, sep);
    var joined := Join(items, [sep]);
    assert joined != "" by {
      assert Stripped(items[0]);
      if |items| > 1 {
        JoinCons(items[0], items[1..], [sep]);
        assert items == [items[0]] + items[1..];
      }
    }
    CleanKeepsStrippedItems(items);
  }

  lemma {:induction false} CleanKeepsStrippedItems(items: seq<string>)
    requires forall i :: 0 <= i < |items| ==> Stripped(items[i])
    ensures CleanItems(items) == items
    decreases |items|
  {
    if items != [] {
      var x := items[0];
      assert Stripped(x);
      Numbers.StripKeepsText(x);
      assert forall i :: 1 <= i < |items| ==> items[i] == items[1..][i - 1];
      CleanKeepsStrippedItems(items[1..]);
      assert items == [x] + items[1..];
    }
  }

  /** `get_dict_setting(key, default)`: the parsed value, or the default when
      the value is absent, empty or not JSON. `parse` is `json.loads`, which may
      also return a list or a scalar. */
  function GetDictSetting(env: Env, key: string, default: Object, parse: string -> Option<Value>): (r: Value)
    ensures key !in env || env[key] == "" ==> r == Obj(default)
    ensures key in env && env[key] != "" && parse(env[key]).None? ==> r == Obj(default)
    ensures key in env && env[key] != "" && parse(env[key]).Some? ==> r == parse(env[key]).value
  {
    var value := if key in env then env[key] else "";
    if value == "" then Obj(default)
    else
      match parse(value)
      case Some(v) => v
      case None => Obj(default)
  }

  const RequiredSettings: seq<string> := ["SECRET_KEY", "GEMINI_API_KEY"]

  /** A setting `get_setting` reads as falsy: absent or empty. */
  predicate Unset(env: Env, key: string) {
    key !in env || env[key] == ""
  }

  /** The required settings that are unset, in the order they are listed. */
  function MissingSettings(env: Env): (r: seq<string>)
    ensures forall k :: k in r <==> k in RequiredSettings && Unset(env, k)
    ensures forall i, j :: 0 <= i < j < |r| ==> r[i] == "SECRET_KEY" && r[j] == "GEMINI_API_KEY"
  {
    (if Unset(env, "SECRET_KEY") then ["SECRET_KEY"] else [])
    + (if Unset(env, "GEMINI_API_KEY") then ["GEMINI_API_KEY"] else [])
  }

  /** `validate_settings()`: the error message naming every missing setting, or
      `None` when both are set. */
  function ValidateSettings(env: Env): (r: Option<string>)
    ensures r.Some? <==> Unset(env, "SECRET_KEY") || Unset(env, "GEMINI_API_KEY")
    ensures r.Some? ==> r.value == "Missing required settings: " + Join(MissingSettings(env), ", ")
  {
    var missing := MissingSettings(env);
    assert "SECRET_KEY" in RequiredSettings && "GEMINI_API_KEY" in RequiredSettings;
    if missing != [] then Some("Missing required settings: " + Join(missing, ", ")) else None
  }

  /** An empty API key satisfies the required `get_setting` read, yet fails
      validation: the two checks disagree on empty values. */
  lemma EmptyKeyPassesReadButFailsValidation(env: Env)
    requires "GEMINI_API_KEY" in env && env["GEMINI_API_KEY"] == ""
    ensures GetSetting(env, "GEMINI_API_KEY", None, true) == Ok(Some(""))
    ensures ValidateSettings(env).Some?
  {
  }
}

=== FILE: stable_sort.dfy ===
/** Python's `sorted(xs, key=k, reverse=True)` on numeric keys: a stable sort into
    descending key order. Elements with equal keys keep their input order, which
    is what makes "the first suggestion with the highest confidence" well defined. */
module StableSort {

  predicate SortedDesc<T>(s: seq<T>, key: T -> real) {
    forall i, j :: 0 <= i < j < |s| ==> key(s[i]) >= key(s[j])
  }

  /** Inserts `x` after every element whose key is at least `key(x)`. */
  function InsertDesc<T>(x: T, s: seq<T>, key: T -> real): (r: seq<T>)
    ensures |r| == |s| + 1
    decreases |s|
  {
    if s == [] then [x]
    else if key(s[0]) >= key(x) then [s[0]] + InsertDesc(x, s[1..], key)
    else [x] + s
  }

  /** Insertion sort, taking the elements in input order. */
  function SortDesc<T>(xs: seq<T>, key: T -> real): (r: seq<T>)
    ensures |r| == |xs|
    ensures SortedDesc(r, key)
    ensures multiset(r) == multiset(xs)
    decreases |xs|
  {
    if xs == [] then []
    else
      var init := xs[..|xs| - 1];
      var last := xs[|xs| - 1];
      var sorted := SortDesc(init, key);
      InsertStep(init, last, sorted, key);
      assert xs == init + [last];
      InsertDesc(last, sorted, key)
  }

  /** Inserting the next element into a sorted permutation of the prefix gives a
      sorted permutation of the longer prefix. */
  lemma InsertStep<T>(init: seq<T>, last: T, sorted: seq<T>, key: T -> real)
    requires SortedDesc(sorted, key) && multiset(sorted) == multiset(init)
    ensures SortedDesc(InsertDesc(last, sorted, key), key)
    ensures multiset(InsertDesc(last, sorted, key)) == multiset(init + [last])
  {
    InsertKeepsOrder(last, sorted, key);
    InsertKeepsElements(last, sorted, key);
  }

  lemma {:induction false} InsertKeepsOrder<T>(x: T, s: seq<T>, key: T -> real)
    requires SortedDesc(s, key)
    ensures SortedDesc(InsertDesc(x, s, key), key)
    ensures forall y :: y in InsertDesc(x, s, key) ==> y == x || y in s
    decreases |s|
  {
    if s != [] && key(s[0]) >= key(x) {
      InsertKeepsOrder(x, s[1..], key);
      var r := InsertDesc(x, s, key);
      assert r == [s[0]] + InsertDesc(x, s[1..], key);
      forall j | 1 <= j < |r| ensures key(r[0]) >= key(r[j]) {
        assert r[j] in InsertDesc(x, s[1..], key);
      }
    }
  }

  lemma {:induction false} InsertKeepsElements<T>(x: T, s: seq<T>, key: T -> real)
    ensures multiset(InsertDesc(x, s, key)) == multiset(s) + multiset{x}
    decreases |s|
  {
    if s != [] && key(s[0]) >= key(x) {
      InsertKeepsElements(x, s[1..], key);
      assert s == [s[0]] + s[1..];
    }
  }

  /** The elements of `s` whose key is `v`, in order (Python's
      `[y for y in s if k(y) == v]`). */
  function WithKey<T>(s: seq<T>, key: T -> real, v: real): (r: seq<T>)
    ensures |r| <= |s|
    decreases |s|
  {
    if s == [] then []
    else (if key(s[0]) == v then [s[0]] else []) + WithKey(s[1..], key, v)
  }

  lemma {:induction false} WithKeyAppend<T>(a: seq<T>, b: seq<T>, key: T -> real, v: real)
    ensures WithKey(a + b, key, v) == WithKey(a, key, v) + WithKey(b, key, v)
    decreases |a|
  {
    if a == [] {
      assert a + b == b;
    } else {
      var h := if key(a[0]) == v then [a[0]] else [];
      assert (a + b)[0] == a[0];
      assert (a + b)[1..] == a[1..] + b;
      assert WithKey(a + b, key, v) == h + WithKey(a[1..] + b, key, v);
      WithKeyAppend(a[1..], b, key, v);
      assert WithKey(a, key, v) == h + WithKey(a[1..], key, v);
    }
  }

  lemma {:induction false} WithKeyBelow<T>(s: seq<T>, key: T -> real, v: real)
    requires SortedDesc(s, key) && s != [] && key(s[0]) < v
    ensures WithKey(s, key, v) == []
    decreases |s|
  {
    if |s| > 1 {
      WithKeyBelow(s[1..], key, v);
    }
  }

  lemma {:induction false} InsertWithKey<T>(x: T, s: seq<T>, key: T -> real, v: real)
    requires SortedDesc(s, key)
    ensures WithKey(InsertDesc(x, s, key), key, v)
         == WithKey(s, key, v) + (if key(x) == v then [x] else [])
    decreases |s|
  {
    if s == [] {
      assert WithKey([x], key, v) == (if key(x) == v then [x] else []) + WithKey([], key, v);
    } else if key(s[0]) >= key(x) {
      var r := InsertDesc(x, s, key);
      var h := if key(s[0]) == v then [s[0]] else [];
      InsertWithKey(x, s[1..], key, v);
      assert r == [s[0]] + InsertDesc(x, s[1..], key);
      assert r[0] == s[0] && r[1..] == InsertDesc(x, s[1..], key);
      assert WithKey(r, key, v) == h + WithKey(InsertDesc(x, s[1..], key), key, v);
      assert WithKey(s, key, v) == h + WithKey(s[1..], key, v);
    } else {
      var r := [x] + s;
      assert r[0] == x && r[1..] == s;
      assert WithKey(r, key, v) == (if key(x) == v then [x] else []) + WithKey(s, key, v);
      if key(x) == v { WithKeyBelow(s, key, v); }
    }
  }

  /** Stability: for every key value, the sorted output lists the elements with
      that key in exactly their input order. */
  lemma {:induction false} SortIsStable<T>(xs: seq<T>, key: T -> real, v: real)
    ensures WithKey(SortDesc(xs, key), key, v) == WithKey(xs, key, v)
    decreases |xs|
  {
    if xs != [] {
      var init := xs[..|xs| - 1];
      var last := xs[|xs| - 1];
      SortIsStable(init, key, v);
      StableStep(init, last, SortDesc(init, key), key, v);
      assert xs == init + [last];
    }
  }

  /** Inserting the next element into a stably sorted prefix keeps it stable. */
  lemma StableStep<T>(init: seq<T>, last: T, sorted: seq<T>, key: T -> real, v: real)
    requires SortedDesc(sorted, key)
    requires WithKey(sorted, key, v) == WithKey(init, key, v)
    ensures WithKey(InsertDesc(last, sorted, key), key, v) == WithKey(init + [last], key, v)
  {
    InsertWithKey(last, sorted, key, v);
    WithKeyAppend(init, [last], key, v);
    assert WithKey([last], key, v) == (if key(last) == v then [last] else []) + WithKey([], key, v);
  }

  /** Index of the first element with the greatest key. */
  function FirstMax<T>(xs: seq<T>, key: T -> real): (r: nat)
    requires xs != []
    ensures r < |xs|
    ensures forall i :: 0 <= i < |xs| ==> key(xs[i]) <= key(xs[r])
    ensures forall i :: 0 <= i < r ==> key(xs[i]) < key(xs[r])
    decreases |xs|
  {
    if |xs| == 1 then 0
    else
      var init := xs[..|xs| - 1];
      var j := FirstMax(init, key);
      assert forall i :: 0 <= i < |init| ==> xs[i] == init[i];
      if key(xs[|xs| - 1]) > key(xs[j]) then |xs| - 1 else j
  }

  /** `sorted(xs, key=k, reverse=True)[0]` is the first of the elements whose key
      is greatest. */
  lemma {:induction false} HeadIsFirstMax<T>(xs: seq<T>, key: T -> real)
    requires xs != []
    ensures SortDesc(xs, key)[0] == xs[FirstMax(xs, key)]
    decreases |xs|
  {
    if |xs| > 1 {
      var init := xs[..|xs| - 1];
      HeadIsFirstMax(init, key);
      assert xs[FirstMax(init, key)] == init[FirstMax(init, key)];
    }
  }
}

=== FILE: task_enhancer.dfy ===
/** `backend/ai_service/task_enhancer.py`: the enhanced description and its
    fallback, the actionable steps and improvements taken from the engine's
    answer, the context short-circuit, the confidence of an enhancement and the
    batch. */
module TaskEnhancer {
  import opened Base
  import opened Json
  import GeminiClient

  /** The engine, the JSON parser, and `show`, Python's `str()` of a value
      (used only to quote values inside prompts). */
  datatype Oracles = Oracles(engine: GeminiClient.Engine, parse: GeminiClient.Parser, show: Value -> string)

  /** `analyze_current_task(task)`: the engine's analysis, or `{}` on an error key. */
  function AnalyzeCurrentTask(o: Oracles, task: Object): (r: Object)
    ensures "error" !in r
  {
    var prompt := GeminiClient.Prompt("enhancement_analysis", [
      Render(Field(task, "title", Str("")), o.show), Render(Field(task, "description", Str("")), o.show)]);
    var answer := GeminiClient.StructuredResponse(o.engine, o.parse, prompt, "JSON");
    if "error" in answer then map[] else answer
  }

  function DescriptionPrompt(o: Oracles, task: Object, analysis: Object, context: Value): string {
    GeminiClient.Prompt("enhanced_description", [
      Render(Field(task, "title", Str("")), o.show), Render(Field(task, "description", Str("")), o.show),
      o.show(Obj(analysis)), if Truthy(context) then Render(context, o.show) else "No additional context provided"])
  }

  /** `generate_enhanced_description(task, task_analysis, context)`: the engine's
      text, or the task's own description when that text is empty or the call raises. */
  function EnhancedDescription(o: Oracles, task: Object, analysis: Object, context: Value): (r: Value)
    ensures var reply := o.engine(DescriptionPrompt(o, task, analysis, context));
      && (reply.Answer? && reply.text != "" ==> r == Str(reply.text))
      && (reply.Failure? || reply.text == "" ==> r == Field(task, "description", Str("")))
  {
    match o.engine(DescriptionPrompt(o, task, analysis, context))
    case Answer(text) => if text != "" then Str(text) else Field(task, "description", Str(""))
    case Failure(_) => Field(task, "description", Str(""))
  }

  /** The value under `key` of an answer without an error key, else `[]`: how both
      the steps and the improvements are read. */
  function ListFrom(answer: Object, key: string): (r: Value)
    ensures "error" !in answer && key in answer ==> r == answer[key]
    ensures "error" in answer || key !in answer ==> r == Arr([])
  {
    if "error" !in answer && key in answer then answer[key] else Arr([])
  }

  function StepsPrompt(o: Oracles, task: Object, enhanced: Value): string {
    GeminiClient.Prompt("actionable_steps", [Render(Field(task, "title", Str("")), o.show), Render(enhanced, o.show)])
  }

  /** `suggest_actionable_steps(task, enhanced_description)`. */
  function ActionableSteps(o: Oracles, task: Object, enhanced: Value): (r: Value)
    ensures var answer := GeminiClient.StructuredResponse(o.engine, o.parse, StepsPrompt(o, task, enhanced), "JSON");
      && ("error" !in answer && "actionable_steps" in answer ==> r == answer["actionable_steps"])
      && ("error" in answer || "actionable_steps" !in answer ==> r == Arr([]))
  {
    ListFrom(GeminiClient.StructuredResponse(o.engine, o.parse, StepsPrompt(o, task, enhanced), "JSON"),
             "actionable_steps")
  }

  /** Steps are `[]` whenever the engine fails. */
  lemma FailedEngineGivesNoSteps(o: Oracles, task: Object, enhanced: Value)
    requires o.engine(GeminiClient.FormatPrompt(StepsPrompt(o, task, enhanced), "JSON")).Failure?
    ensures ActionableSteps(o, task, enhanced) == Arr([])
  {
  }

  function ContextPrompt(o: Oracles, task: Object, context: Value): string {
    GeminiClient.Prompt("context_details", [
      Render(Field(task, "title", Str("")), o.show), Render(Field(task, "description", Str("")), o.show), Render(context, o.show)])
  }

  /** `add_context_details(task, context)`: `{}` for a falsy context, else the
      engine's answer or `{}` on an error key. */
  function ContextDetails(o: Oracles, task: Object, context: Value): (r: Object)
    ensures !Truthy(context) ==> r == map[]
    ensures "error" !in r
  {
    if !Truthy(context) then map[]
    else
      var answer := GeminiClient.StructuredResponse(o.engine, o.parse, ContextPrompt(o, task, context), "JSON");
      if "error" in answer then map[] else answer
  }

  /** Without a context the answer does not depend on the engine: no call is made. */
  lemma NoContextSkipsEngine(o1: Oracles, o2: Oracles, task: Object, context: Value)
    requires !Truthy(context)
    ensures ContextDetails(o1, task, context) == ContextDetails(o2, task, context)
  {
  }

  function ImprovementsPrompt(o: Oracles, task: Object, analysis: Object): string {
    GeminiClient.Prompt("improvements", [
      Render(Field(task, "title", Str("")), o.show), Render(Field(task, "description", Str("")), o.show), o.show(Obj(analysis))])
  }

  /** `suggest_improvements(task, task_analysis)`. */
  function Improvements(o: Oracles, task: Object, analysis: Object): (r: Value)
    ensures var answer := GeminiClient.StructuredResponse(o.engine, o.parse, ImprovementsPrompt(o, task, analysis), "JSON");
      && ("error" !in answer && "improvements" in answer ==> r == answer["improvements"])
      && ("error" in answer || "improvements" !in answer ==> r == Arr([]))
  {
    ListFrom(GeminiClient.StructuredResponse(o.engine, o.parse, ImprovementsPrompt(o, task, analysis), "JSON"),
             "improvements")
  }

  const DefaultReasoning := "Task description was enhanced for clarity and completeness."

  /** The original and the enhanced description, as the prompt renders them. */
  function EnhancementReasoningPrompt(o: Oracles, task: Object, enhanced: Value): string {
    GeminiClient.Prompt("enhancement_reasoning", [Render(Field(task, "description", Str("")), o.show), Render(enhanced, o.show)])
  }

  /** `generate_enhancement_reasoning(task, enhanced_description)`: the engine's
      text, or the fixed sentence when it is empty or the call raises. */
  function EnhancementReasoning(o: Oracles, task: Object, enhanced: Value): (r: string)
    ensures r != ""
    ensures var reply := o.engine(EnhancementReasoningPrompt(o, task, enhanced));
      && (reply.Answer? && reply.text != "" ==> r == reply.text)
      && (reply.Answer? && reply.text == "" ==> r == DefaultReasoning)
      && (reply.Failure? ==> r == DefaultReasoning)
  {
    match o.engine(EnhancementReasoningPrompt(o, task, enhanced))
    case Answer(text) => if text != "" then text else DefaultReasoning
    case Failure(_) => DefaultReasoning
  }

  // ---- calculate_enhancement_confidence

  /** Python's `len(v)`: `None` (TypeError) for numbers, booleans and `None`. */
  function Len(v: Value): (r: Option<nat>)
    ensures v.Str? ==> r == Some(|v.s|)
    ensures v.Arr? ==> r == Some(|v.items|)
    ensures (v.Null? || v.Bool? || v.Num?) ==> r == None
  {
    match v
    case Str(s) => Some(|s|)
    case Arr(xs) => Some(|xs|)
    case Obj(m) => Some(|m.Keys|)
    case _ => None
  }

  /** `len(step.get('description', '')) > 20` for one step; `None` where it raises. */
  function IsDetailed(step: Value): (r: Option<bool>)
    ensures r.Some? <==> step.Obj? && Len(Field(step.fields, "description", Str(""))).Some?
  {
    if !step.Obj? then None
    else
      match Len(Field(step.fields, "description", Str("")))
      case Some(n) => Some(n > 20)
      case None => None
  }

  /** Whether some step is detailed, or `None` if Python raises on one of them. */
  function AnyDetailed(steps: seq<Value>): (r: Option<bool>)
    ensures r.Some? <==> forall i :: 0 <= i < |steps| ==> IsDetailed(steps[i]).Some?
    ensures r == Some(true) <==> (r.Some? && exists i :: 0 <= i < |steps| && IsDetailed(steps[i]) == Some(true))
    decreases |steps|
  {
    if steps == [] then Some(false)
    else
      assert forall i :: 1 <= i < |steps| ==> steps[i] == steps[1..][i - 1];
      match (IsDetailed(steps[0]), AnyDetailed(steps[1..]))
      case (Some(d), Some(rest)) => Some(d || rest)
      case _ => None
  }

  /** `calculate_enhancement_confidence(enhanced_description, actionable_steps)`:
      0.5, plus 0.2 for a description longer than 50, plus 0.2 for at least one
      step, plus 0.1 when a step's description is longer than 20, capped at 1;
      0.5 when a `len` or `.get` raises. */
  function EnhancementConfidence(description: Value, steps: Value): (r: real)
    ensures 0.5 <= r <= 1.0
    ensures description.Str? && steps.Arr? && AnyDetailed(steps.items).Some? ==>
      r == Min(1.0, 0.5 + (if |description.s| > 50 then 0.2 else 0.0)
                        + (if |steps.items| > 0 then 0.2 else 0.0)
                        + (if AnyDetailed(steps.items) == Some(true) then 0.1 else 0.0))
  {
    var longText := if Truthy(description) then (match Len(description) case Some(n) => Some(n > 50) case None => None)
                    else Some(false);
    var hasSteps := if Truthy(steps) then (match Len(steps) case Some(n) => Some(n > 0) case None => None)
                    else Some(false);
    var detailed := if Truthy(steps) then (match DictItems(steps) case Some(xs) => AnyDetailed(xs) case None => None)
                    else Some(false);
    match (longText, hasSteps, detailed)
    case (Some(l), Some(h), Some(d)) =>
      Min(1.0, 0.5 + (if l then 0.2 else 0.0) + (if h then 0.2 else 0.0) + (if d then 0.1 else 0.0))
    case _ => 0.5
  }

  /** No steps and a short description give the base confidence; a long
      description with a detailed step reaches the cap. */
  lemma ConfidenceExtremes(description: string, steps: seq<Value>)
    requires AnyDetailed(steps).Some?
    ensures |description| <= 50 && steps == [] ==> EnhancementConfidence(Str(description), Arr(steps)) == 0.5
    ensures |description| > 50 && AnyDetailed(steps) == Some(true) ==>
      EnhancementConfidence(Str(description), Arr(steps)) == 1.0
  {
    if AnyDetailed(steps) == Some(true) {
      var i :| 0 <= i < |steps| && IsDetailed(steps[i]) == Some(true);
      assert |steps| > 0;
    }
  }

  // ---- enhance_task

  datatype Enhancement = Enhancement(
    enhancedDescription: Value, actionableSteps: Value, contextDetails: Object, improvements: Value,
    reasoning: string, confidence: real, analysis: Option<Object>, error: Option<string>)

  /** The record of the outer `except` branch: the original description, no
      steps, confidence 0. */
  function EnhancementFailure(task: Object, msg: string): (r: Enhancement)
    ensures r.enhancedDescription == Field(task, "description", Str(""))
    ensures r.actionableSteps == Arr([]) && r.contextDetails == map[] && r.improvements == Arr([])
    ensures r.confidence == 0.0 && r.error == Some(msg)
  {
    Enhancement(Field(task, "description", Str("")), Arr([]), map[], Arr([]),
                "Task enhancement failed: " + msg, 0.0, None, Some(msg))
  }

  /** `enhance_task(task, context)`. Every step catches its own exceptions, so the
      outer failure record is never produced. */
  function EnhanceTask(o: Oracles, task: Object, context: Value): (r: Enhancement)
    ensures r.error.None? && 0.5 <= r.confidence <= 1.0
    ensures r.confidence == EnhancementConfidence(r.enhancedDescription, r.actionableSteps)
    ensures !Truthy(context) ==> r.contextDetails == map[]
  {
    var analysis := AnalyzeCurrentTask(o, task);
    var description := EnhancedDescription(o, task, analysis, context);
    var steps := ActionableSteps(o, task, description);
    Enhancement(description, steps, ContextDetails(o, task, context), Improvements(o, task, analysis),
                EnhancementReasoning(o, task, description), EnhancementConfidence(description, steps),
                Some(analysis), None)
  }

  datatype BatchItem = BatchItem(taskId: Value, taskTitle: Value, enhancement: Enhancement)

  /** `batch_enhance_tasks(tasks, context)`: one entry per task, in order, with
      that task's id and title. */
  function BatchEnhance(o: Oracles, tasks: seq<Object>, context: Value): (r: seq<BatchItem>)
    ensures |r| == |tasks|
    ensures forall i :: 0 <= i < |tasks| ==>
      r[i].taskId == Field(tasks[i], "id", Null) && r[i].taskTitle == Field(tasks[i], "title", Null)
      && r[i].enhancement == EnhanceTask(o, tasks[i], context)
  {
    seq(|tasks|, i requires 0 <= i < |tasks| =>
      BatchItem(Field(tasks[i], "id", Null), Field(tasks[i], "title", Null), EnhanceTask(o, tasks[i], context)))
  }

  // ---- validate_enhancement

  function ValidationPrompt(o: Oracles, original: Object, enhanced: Object): string {
    GeminiClient.Prompt("enhancement_validation", [
      Render(Field(original, "description", Str("")), o.show), Render(Field(enhanced, "enhanced_description", Str("")), o.show)])
  }

  /** `validate_enhancement(original_task, enhanced_task)`: the engine's verdict,
      or a "good" default that carries the error. */
  function ValidateEnhancement(o: Oracles, original: Object, enhanced: Object): (r: Object)
    ensures var answer := GeminiClient.StructuredResponse(o.engine, o.parse, ValidationPrompt(o, original, enhanced), "JSON");
      && ("error" !in answer ==> r == answer)
      && ("error" in answer ==>
            && "is_improved" in r && r["is_improved"] == Bool(true)
            && "overall_quality" in r && r["overall_quality"] == Str("good")
            && "error" in r && r["error"] == answer["error"])
  {
    var answer := GeminiClient.StructuredResponse(o.engine, o.parse, ValidationPrompt(o, original, enhanced), "JSON");
    if "error" in answer then
      map["is_improved" := Bool(true), "clarity_improvement" := Num(0.2), "detail_improvement" := Num(0.3),
          "accuracy_maintained" := Bool(true), "overall_quality" := Str("good"), "error" := answer["error"]]
    else answer
  }
}

=== FILE: text.dfy ===
/** The handful of Python `str` operations the core relies on, over `seq<char>`:
    `strip`, `split()`, `split(sep)`, `join`, `find`, `rfind`, `lower`, slicing and
    the substring test `sub in s`. */
module Text {

  /** Python's `str.isspace` for a single character: the characters `strip()` and
      `split()` treat as white space. */
  predicate IsSpace(c: char) {
    || c == ' ' || c == '\t' || c == '\n' || c == '\r'
    || c == '\U{000B}' || c == '\U{000C}'
    || ('\U{001C}' <= c <= '\U{001F}')
    || c == '\U{0085}' || c == '\U{00A0}' || c == '\U{1680}'
    || ('\U{2000}' <= c <= '\U{200A}')
    || c == '\U{2028}' || c == '\U{2029}' || c == '\U{202F}' || c == '\U{205F}' || c == '\U{3000}'
  }

  /** Every character is white space (vacuously true of ""). */
  predicate IsBlank(s: string) {
    forall i :: 0 <= i < |s| ==> IsSpace(s[i])
  }

  /** Number of leading white-space characters. */
  function LeadCount(s: string): (n: nat)
    ensures n <= |s|
    ensures IsBlank(s[..n])
    ensures n < |s| ==> !IsSpace(s[n])
    decreases |s|
  {
    if s == [] || !IsSpace(s[0]) then 0
    else
      var k := LeadCount(s[1..]);
      assert s[1..][..k] == s[1..k + 1];
      k + 1
  }

  /** Number of trailing white-space characters. */
  function TrailCount(s: string): (n: nat)
    ensures n <= |s|
    ensures IsBlank(s[|s| - n..])
    ensures n < |s| ==> !IsSpace(s[|s| - n - 1])
    decreases |s|
  {
    if s == [] || !IsSpace(s[|s| - 1]) then 0
    else
      var k := TrailCount(s[..|s| - 1]);
      assert s[..|s| - 1][|s| - 1 - k..] == s[|s| - 1 - k..|s| - 1];
      k + 1
  }

  /** Python's `s.strip()`: the infix of `s` left after removing white space at both ends. */
  function Strip(s: string): (r: string)
    ensures r == "" <==> IsBlank(s)
    ensures r != "" ==> !IsSpace(r[0]) && !IsSpace(r[|r| - 1])
    ensures LeadCount(s) + |r| <= |s|
    ensures r == s[LeadCount(s)..LeadCount(s) + |r|]
    ensures IsBlank(s[LeadCount(s) + |r|..])
  {
    var a := LeadCount(s);
    var t := s[a..];
    var b := TrailCount(t);
    var r := t[..|t| - b];
    assert r == s[a..a + |r|];
    assert s[a + |r|..] == t[|t| - b..];
    if r == "" then
      assert t[|t| - b..] == t;
      assert s == s[..a] + t;
      r
    else
      r
  }

  /** Python's `s.lower()` restricted to ASCII letters. */
  function LowerChar(c: char): char {
    if 'A' <= c <= 'Z' then (c as int + 32) as char else c
  }

  function Lower(s: string): (r: string)
    ensures |r| == |s|
    ensures forall i :: 0 <= i < |s| ==> r[i] == LowerChar(s[i])
  {
    seq(|s|, i requires 0 <= i < |s| => LowerChar(s[i]))
  }

  /** Python's `s.upper()` restricted to ASCII letters. */
  function UpperChar(c: char): char {
    if 'a' <= c <= 'z' then (c as int - 32) as char else c
  }

  predicate StartsWith(s: string, p: string) {
    |p| <= |s| && s[..|p|] == p
  }

  /** Python's substring test `sub in s` (the empty string occurs in every string). */
  predicate Contains(s: string, sub: string)
    decreases |s|
  {
    StartsWith(s, sub) || (|s| > 0 && Contains(s[1..], sub))
  }

  /** Python's `any(k in s for k in keys)`. */
  predicate MentionsAny(s: string, keys: seq<string>) {
    exists k :: k in keys && Contains(s, k)
  }

  /** Python's `s.find(c)`: the first index of `c`, or -1. */
  function Find(s: string, c: char): (r: int)
    ensures -1 <= r < |s|
    ensures r == -1 <==> c !in s
    ensures r >= 0 ==> s[r] == c && c !in s[..r]
    decreases |s|
  {
    if s == [] then -1
    else if s[0] == c then 0
    else
      var k := Find(s[1..], c);
      if k == -1 then -1
      else
        assert s[..k + 1] == [s[0]] + s[1..][..k];
        k + 1
  }

  /** Python's `s.rfind(c)`: the last index of `c`, or -1. */
  function RFind(s: string, c: char): (r: int)
    ensures -1 <= r < |s|
    ensures r == -1 <==> c !in s
    ensures r >= 0 ==> s[r] == c && c !in s[r + 1..]
    decreases |s|
  {
    if s == [] then -1
    else if s[|s| - 1] == c then |s| - 1
    else
      var init := s[..|s| - 1];
      var k := RFind(init, c);
      assert s == init + [s[|s| - 1]];
      if k >= 0 then
        assert s[k + 1..] == init[k + 1..] + [s[|s| - 1]];
        k
      else
        -1
  }

  /** Python's `s[:n]` for a non-negative `n`. */
  function Take(s: string, n: nat): (r: string)
    ensures |r| == if |s| <= n then |s| else n
    ensures r == s[..|r|]
  {
    if |s| <= n then s else s[..n]
  }

  /** Python's `sep.join(parts)`. */
  function Join(parts: seq<string>, sep: string): string
    decreases |parts|
  {
    if |parts| == 0 then ""
    else if |parts| == 1 then parts[0]
    else parts[0] + sep + Join(parts[1..], sep)
  }

  /** Python's `s.split(sep)` for a one-character separator. */
  function Split(s: string, sep: char): (r: seq<string>)
    ensures |r| >= 1
    ensures forall p :: p in r ==> sep !in p
    decreases |s|
  {
    var k := Find(s, sep);
    if k == -1 then [s]
    else [s[..k]] + Split(s[k + 1..], sep)
  }

  /** Joining the pieces of a split with the separator gives back the original text. */
  lemma {:induction false} SplitJoin(s: string, sep: char)
    ensures Join(Split(s, sep), [sep]) == s
    decreases |s|
  {
    var k := Find(s, sep);
    if k != -1 {
      var tail := s[k + 1..];
      SplitJoin(tail, sep);
      JoinCons(s[..k], Split(tail, sep), [sep]);
      SplitAround(s, k, sep);
    }
  }

  lemma JoinCons(x: string, rest: seq<string>, sep: string)
    requires rest != []
    ensures Join([x] + rest, sep) == x + sep + Join(rest, sep)
  {
    assert ([x] + rest)[1..] == rest;
  }

  lemma SplitAround(s: string, k: int, sep: char)
    requires 0 <= k < |s| && s[k] == sep
    ensures s == s[..k] + [sep] + s[k + 1..]
  {
  }

  /** Length of the longest prefix free of white space. */
  function WordLen(s: string): (n: nat)
    ensures n <= |s|
    ensures forall i :: 0 <= i < n ==> !IsSpace(s[i])
    ensures n < |s| ==> IsSpace(s[n])
    decreases |s|
  {
    if s == [] || IsSpace(s[0]) then 0 else 1 + WordLen(s[1..])
  }

  predicate NoSpace(w: string) {
    forall i :: 0 <= i < |w| ==> !IsSpace(w[i])
  }

  /** Python's `s.split()` with no argument: the maximal runs of non-white-space characters. */
  function Words(s: string): (r: seq<string>)
    ensures forall w :: w in r ==> w != "" && NoSpace(w)
    decreases |s|
  {
    var a := LeadCount(s);
    if a == |s| then []
    else
      var t := s[a..];
      var n := WordLen(t);
      [t[..n]] + Words(t[n..])
  }

  /** The characters of `s` that are not white space, in order. */
  function Squeeze(s: string): string
    decreases |s|
  {
    if s == [] then ""
    else if IsSpace(s[0]) then Squeeze(s[1..])
    else [s[0]] + Squeeze(s[1..])
  }

  function Concat(ws: seq<string>): string
    decreases |ws|
  {
    if ws == [] then "" else ws[0] + Concat(ws[1..])
  }

  lemma {:induction false} SqueezeAppend(a: string, b: string)
    ensures Squeeze(a + b) == Squeeze(a) + Squeeze(b)
    decreases |a|
  {
    if a != [] {
      assert (a + b)[1..] == a[1..] + b;
      SqueezeAppend(a[1..], b);
    } else {
      assert a + b == b;
    }
  }

  lemma {:induction false} SqueezeBlank(s: string)
    requires IsBlank(s)
    ensures Squeeze(s) == ""
    decreases |s|
  {
    if s != [] { SqueezeBlank(s[1..]); }
  }

  lemma {:induction false} SqueezeSpaceFree(s: string)
    requires NoSpace(s)
    ensures Squeeze(s) == s
    decreases |s|
  {
    if s != [] { SqueezeSpaceFree(s[1..]); }
  }

  /** `split()` loses exactly the white space: its words, run together, are the
      non-white-space characters of the input in order. */
  lemma {:induction false} WordsKeepEveryOtherChar(s: string)
    ensures Concat(Words(s)) == Squeeze(s)
    decreases |s|
  {
    var a := LeadCount(s);
    assert s == s[..a] + s[a..];
    SqueezeAppend(s[..a], s[a..]);
    SqueezeBlank(s[..a]);
    if a < |s| {
      var t := s[a..];
      var n := WordLen(t);
      assert t == t[..n] + t[n..];
      SqueezeAppend(t[..n], t[n..]);
      SqueezeSpaceFree(t[..n]);
      WordsKeepEveryOtherChar(t[n..]);
      var r := [t[..n]] + Words(t[n..]);
      assert r[1..] == Words(t[n..]);
    }
  }
}
